=== FILE: README.md ===
# FPL assistant: the scoring and selection engine in Dafny

This project models the analytical core of a Fantasy Premier League
assistant. The assistant loads one snapshot of the public FPL data: players,
clubs, fixtures, live points and league standings. It scores every player,
then answers selection questions from those scores:

- the best players per position;
- a greedy 15-man squad under a budget and the three-per-club rule;
- transfer suggestions for a saved squad;
- captaincy, template-breaker and differential picks;
- a wildcard squad;
- fixture-difficulty ratings and match-outcome estimates;
- price-change predictions;
- live gameweek points;
- mini-league comparisons;
- a points predictor built on a trained regressor.

Every pandas frame becomes an immutable `seq` of records:

- `Types.Player` is a decoded row.
- `Types.Row` is a scored row.
- `Types.Fixture` is a fixture row; a team id missing from the team table gives a `None` team name (`Types.TeamName`).
- The live, standings and prediction payloads have records of their own.

Prices are integer tenths of a million, the payload's `now_cost`, so budget
and price-window comparisons are exact. Scores and probabilities are `real`.
A NaN that reaches the output is `None`. An exception the code raises on some
input becomes the `Failure` case of a `Result`.

The modules follow the source files:

| module | source file |
|---|---|
| `Fetcher` | fpl_data_fetcher.py |
| `Scoring`, `Analyzer`, `TransferPlanner`, `Squad`, `SquadBuilder` | fpl_player_analyzer.py |
| `Advanced`, `Wildcard` | fpl_advanced_features.py |
| `FixturePredictor` | advanced_fixture_predictor.py |
| `Prices` | price_predictor.py |
| `Live` | live_tracker.py |
| `League` | mini_league.py |
| `Predictor` | points_predictor.py |
| `App` | fpl_main_app.py |

`Wrappers` (Option and Result) and `Seqs` (filter, map, sums, insertion
sorts, n-largest, slices) are shared helpers.

analyze_my_team.py repeats the `FPLPlayerAnalyzer` class of
fpl_player_analyzer.py line for line, at the same line numbers; only some
printed characters differ. The `Scoring`, `Analyzer`, `TransferPlanner` and
`Squad` rows below therefore describe both files.

Sorts state their result as sorted by the key and as a permutation (or a
sub-multiset) of their input. Ties are left unspecified, as pandas leaves
them.

The clamped win/draw/loss triple is not renormalised: each probability is
clamped on its own, so the triple can sum to 1.1. See
`FixturePredictor.ClampedOutcomeNotRenormalised`.

## Model

| member | source | states |
|---|---|---|
| Fetcher.PositionOf | fpl_data_fetcher.py:91-92 | an element type is mapped to a position exactly when it is 1, 2, 3 or 4; any other code is unmapped (the NaN of `map`) |
| Fetcher.PositionCodeRoundTrip | fpl_data_fetcher.py:91-92 | the position map is a bijection between the codes 1..4 and GK/DEF/MID/FWD, in both directions |
| Fetcher.TenthsWindow | fpl_data_fetcher.py:88 | a comparison of prices in tenths agrees with the same comparison of `now_cost / 10` in millions, so a ±1.5m window is a ±15-tenths window |
| Fetcher.TeamById | fpl_data_fetcher.py:65-70 | the team lookup finds nothing exactly when no team has the id; otherwise it returns the last team with that id, as `dict(zip(...))` keeps the last |
| Fetcher.DecodePlayer | fpl_data_fetcher.py:69-92 | a decoded player keeps the element's id, has price `now_cost` in tenths and position `PositionOf(element_type)`, and takes its club short name and name from the team lookup |
| Fetcher.GetAllPlayers | fpl_data_fetcher.py:58-94 | every player in the table comes from some element, every decodable element appears in it, and the table has exactly one row per decodable element |
| Fetcher.GetAllPlayersAppend | fpl_data_fetcher.py:58-94 | decoding works element by element: the table of a concatenated payload is the concatenation of the two tables, so rows keep the payload's order |
| Fetcher.SelectColumns | fpl_data_fetcher.py:73-85 | the kept columns are exactly the listed columns that the payload has, in listed order |
| Fetcher.ShortNameOf | fpl_data_fetcher.py:104-107 | a fixture side's name is missing (NaN) exactly when no team has its id; otherwise it is the short name of a team listed under that id |
| Fetcher.DecodeFixture | fpl_data_fetcher.py:104-107 | `home_team` and `away_team` are the short names of `team_h` and `team_a`, missing exactly when that id is not in the team table; difficulties, `finished` and `event` are carried over unchanged |
| Fetcher.GetFixtures | fpl_data_fetcher.py:96-109 | the table has exactly one row per raw fixture, in payload order, and row i is the decoding of raw fixture i: no fixture is dropped, whatever its team ids |
| Fetcher.KnownSideKept | fpl_data_fetcher.py:104-107 | a fixture whose away id is unknown still names its known home club, so that club keeps counting it, and its away name is missing |
| Fetcher.GetFixturesAppend | fpl_data_fetcher.py:98-107 | decoding works row by row: the table of a concatenated payload is the concatenation of the two tables, so rows keep the payload's order |
| Fetcher.CurrentGameweek | fpl_data_fetcher.py:111-118 | returns the id of the first event flagged current, and None exactly when no event is flagged |
| Scoring.FillUnfill | fpl_player_analyzer.py:40 | filling NaNs with 0 is undone by reading the filled row back as a player: filling it again gives the same row |
| Scoring.MinMax | fpl_player_analyzer.py:52-54 | min-max scaling maps the pool's range into [0, 1], maps the minimum to 0, and maps the maximum to 1 when the range is not empty |
| Scoring.BoundsOf | fpl_player_analyzer.py:52-54 | every row of a non-empty pool lies within the per-metric bounds computed from that pool, and each bound is attained: it is that metric of some row of the pool |
| Scoring.BaseScore | fpl_player_analyzer.py:57-65 | the 0.25/0.25/0.20/0.15/0.15 weighted sum of the five min-max scaled metrics, for metrics within the bounds, lies in [0, 1]; its partners BaseScoreMonotone (more of every metric never lowers it) and BaseScoreExtremes (0 at the lower bounds, 1 at the upper ones) pin down the weighted-sum shape |
| Scoring.MinMaxMonotone | fpl_player_analyzer.py:52-54 | min-max scaling over a non-empty range preserves order |
| Scoring.BaseScoreMonotone | fpl_player_analyzer.py:57-65 | raising none of the five metrics never raises the weighted score: a row no better on every metric scores no higher |
| Scoring.BaseScoreExtremes | fpl_player_analyzer.py:52-65 | a row at every lower bound scores 0; one at every upper bound scores 1 when every range is non-empty, so the weights sum to 1 |
| Scoring.Penalise | fpl_player_analyzer.py:68-69 | a chance below 100 halves the score and a status other than 'a' multiplies it by 0.3, giving four cases (×1, ×0.5, ×0.3, ×0.15); the result never exceeds the base |
| Scoring.CalculateValueScore | fpl_player_analyzer.py:24-72 | fails exactly when no player has minutes (the scaler raises on an empty frame); otherwise returns one row per player with minutes, in order, each the NaN-filled player whose score is the penalised weighted sum of its metrics scaled by the bounds of the whole filled pool, which lies in [0, 1] |
| Scoring.ValueScoreMonotone | fpl_player_analyzer.py:43-69 | of two scored rows with the same penalties, one no better on every metric gets a value score no higher |
| Scoring.RescoringIsIdempotent | fpl_player_analyzer.py:43-69 | scores are rebuilt from the metric columns only: scoring the scored table again gives the same table |
| Scoring.Refill | fpl_player_analyzer.py:40-69 | stripping scores and rescoring with the same bounds gives back the same rows |
| Scoring.MissingChanceCountsAsDoubtful | fpl_player_analyzer.py:40-68 | as written, a player with no reported chance of playing is scored exactly like the same player reported doubtful |
| Scoring.MissingChanceHalved | fpl_player_analyzer.py:40-68 | as written, an available player with no reported chance has their score halved, so it is at most 0.5 |
| Scoring.MissingChanceCountsAsFit | fpl_player_analyzer.py:40-68 | corrected rule: an available player with no reported chance is scored as if the chance were 100, and keeps the unpenalised score |
| Scoring.ReportedChanceAgrees | fpl_player_analyzer.py:68 | when a chance is reported, the as-written rule and the corrected rule give the same row |
| Scoring.RulesAgreeWhenReported | fpl_player_analyzer.py:24-72 | when every player reports a chance of playing, scoring the table with the as-written rule and with the corrected rule gives the same result |
| Analyzer.Mean | fpl_player_analyzer.py:86-87 | the mean of an empty column is NaN (`None`), and only then |
| Analyzer.NanMean | fpl_player_analyzer.py:89 | `nanmean` of the home and away means: their average when both exist, the one that exists otherwise, and NaN only when both are NaN |
| Analyzer.Upcoming | fpl_player_analyzer.py:76-80 | the upcoming fixtures are a prefix of the team's unfinished home-or-away fixtures in table order, of length min(n, their count) (`head(n)` with a negative n drops that many from the end) |
| Analyzer.HomeDifficulties | fpl_player_analyzer.py:86 | the home column is the home difficulty of each upcoming fixture the team hosts, in order: a map over a filter |
| Analyzer.AwayDifficulties | fpl_player_analyzer.py:87 | the away column is the away difficulty of each upcoming fixture the team visits, in order |
| Analyzer.SomeSide | fpl_player_analyzer.py:76-90 | every upcoming fixture is a home or an away game of the team, so a non-empty list has a home or an away column and the NaN fallback of line 90 never fires |
| Analyzer.GetFixtureDifficulty | fpl_player_analyzer.py:74-90 | no upcoming fixture gives the neutral 3; otherwise a team with upcoming fixtures always has a home or an away side, and the result is the average of the home mean and the away mean when both exist, else the one mean that exists |
| Analyzer.FixtureDifficultyBounded | fpl_player_analyzer.py:82-90 | when all difficulties lie in [lo, hi] (a range containing 3), so does the team's fixture difficulty |
| Analyzer.SidesWeighEqually | fpl_player_analyzer.py:86-89 | two home games at 2 and one away game at 5 rate 3.5: the average of the home and away means, not the per-fixture mean 3 |
| Analyzer.Eligible | fpl_player_analyzer.py:99-100 | the pool is exactly the rows at the requested position, or all rows when no position is given |
| Analyzer.RecommendBestPlayers | fpl_player_analyzer.py:92-112 | returns min(top_n, pool size) eligible rows (none for top_n ≤ 0), highest value score first, and they form a sub-multiset of the eligible rows, so no row is returned more often than the pool holds it |
| Analyzer.BestPlayersDominate | fpl_player_analyzer.py:103 | an eligible row left out of the recommendation scores no higher than any row in it |
| Types.Selected | fpl_player_analyzer.py:190 | the selection by id is exactly the rows whose id is listed: the current team here, and the must-haves of the wildcard (fpl_advanced_features.py:260-261) |
| Analyzer.Others | fpl_player_analyzer.py:196 | the available pool is exactly the rows whose id is not among the given ids |
| Analyzer.TeamCountAfter | fpl_player_analyzer.py:227-237 | a replacement is refused exactly when its club is in the squad, differs from the outgoing player's club, and already has 3 players |
| Analyzer.TeamCountAfterIsSwapCount | fpl_player_analyzer.py:227-237 | an accepted `team_count_after` equals the incoming club's count in the squad after the swap |
| Analyzer.Replacements | fpl_player_analyzer.py:211-220 | candidates are pool rows that are available, at the same position, within ±15 tenths of the outgoing price and strictly better scored; there are exactly min(100, number of such rows) of them, best first, and no qualifying row left out scores higher than any taken; the candidates form a sub-multiset of the qualifying rows |
| Analyzer.OffersFor | fpl_player_analyzer.py:222-254 | every offer for one outgoing player takes a listed candidate and passes the club-count check; conversely every listed candidate that passes the check (not skipped, `team_count_after` ≤ 3) yields exactly that swap |
| Analyzer.OffersForAll | fpl_player_analyzer.py:210-254 | every offer replaces a current player with a strictly better pool player under the club check |
| Analyzer.OffersForAllComplete | fpl_player_analyzer.py:210-254 | every current player's candidate that passes the club check appears as a swap among the collected offers: none is lost |
| Analyzer.CandidatesSound | fpl_player_analyzer.py:196-254 | every candidate offer at a position has the outgoing player in the team and the incoming one outside it, both at that position, within the price window, incoming available, with positive improvement and a club count after the swap of at most 3 |
| Analyzer.PositionOffers | fpl_player_analyzer.py:257-261 | a position keeps exactly min(3, number of its candidate swaps) offers, all candidates of that position, highest improvement first, and the offers form a sub-multiset of that position's candidate swaps |
| Analyzer.PositionOffersDominate | fpl_player_analyzer.py:257-261 | a candidate swap of a position left out of its top 3 improves no more than any kept one |
| Analyzer.UpgradeConsidered | fpl_player_analyzer.py:200-261 | a current player's replacement that passes the club check is either among its position's top 3 or improves no more than each of them |
| Analyzer.PositionOffersAt | fpl_player_analyzer.py:200-261 | a position's list holds at most 3 offers of that position and none of any other |
| Analyzer.Offers | fpl_player_analyzer.py:200-271 | the collected offers over GK, DEF, MID and FWD number at most 12 |
| Analyzer.OffersCover | fpl_player_analyzer.py:200-271 | every offer kept at GK, DEF, MID or FWD is in the collected list: `extend` loses nothing |
| Analyzer.OffersPerPosition | fpl_player_analyzer.py:257-271 | the collected offers hold at most 3 per position (the top 3 per position, not per outgoing player) |
| Analyzer.OffersFrom | fpl_player_analyzer.py:200-271 | every collected offer is a candidate of its own position, and that position is one of the four |
| TransferPlanner.Cut | fpl_player_analyzer.py:289 | sorting by improvement and slicing `[:n]` keeps a sorted sub-multiset of exactly min(n, size) offers (size + n, floored at 0, for a negative n, as Python slices) and never raises a position's count |
| TransferPlanner.CutDominates | fpl_player_analyzer.py:289 | an offer cut off by the slice improves no more than any offer kept |
| TransferPlanner.RecommendTransfers | fpl_player_analyzer.py:281-298 | fails (the `drop('team_count_after')` KeyError on an empty frame) exactly when offers were collected but the `[:3·transfers_available]` slice keeps none; otherwise a sub-multiset of the collected offers, sorted by improvement, at most 12 long, and empty exactly when nothing qualified |
| TransferPlanner.Overall | fpl_player_analyzer.py:283-298 | an empty table when nothing was collected, a failure exactly when the slice keeps nothing of a non-empty collection, and otherwise exactly the slice, sorted and of length min(3·transfers_available, size) |
| TransferPlanner.RecommendCount | fpl_player_analyzer.py:289 | when the recommendation succeeds, exactly min(3·transfers_available, number of collected offers) transfers come back; a negative allowance drops that many times 3 from the end, as the slice does |
| TransferPlanner.RecommendPerPosition | fpl_player_analyzer.py:256-289 | a successful recommendation has at most 3 entries of any position, since each position contributed at most 3 |
| TransferPlanner.RecommendDominates | fpl_player_analyzer.py:289 | a collected offer left out of a successful recommendation improves no more than any recommended one |
| TransferPlanner.TransfersSound | fpl_player_analyzer.py:196-298 | every transfer of a successful recommendation satisfies all the candidate conditions (team membership, position, price window, availability, positive improvement, club cap) |
| Squad.Candidates | fpl_player_analyzer.py:135-138 | a position's candidates are exactly the available rows at that position, highest value score first, and as a multiset they are exactly those rows: a permutation of the filtered table |
| Squad.Complete | fpl_player_analyzer.py:143-159 | once all four positions are walked, no club has more than 3 players, the squad has at most 15, and every available player left out was blocked by a full quota, their club's cap or the remaining budget |
| Squad.Visit | fpl_player_analyzer.py:144-157 | one visit of the inner loop changes the state exactly when the position is still open, the club has fewer than 3 and the price fits the budget left; the change appends the player, pays the price and counts one more pick |
| Squad.WalkToLooping | fpl_player_analyzer.py:143-157 | every state the walk of a position reaches while the position is open keeps the squad invariant: budget, club tally, quotas, every skipped candidate blocked, and better players of earlier positions left out only when blocked |
| Squad.WalkToDrawn | fpl_player_analyzer.py:143-157 | the walk takes each candidate at most once: past the starting squad it holds no row more often than the candidates visited |
| Squad.DrawnBound | fpl_player_analyzer.py:134-157 | a walk over one position's candidates, from a squad with nobody of that position, leaves the squad a sub-multiset of the table |
| SquadBuilder.FillPosition | fpl_player_analyzer.py:143-159 | one position's walk over its candidates, best first, keeps the squad invariant (budget, club tally, quotas), leaves every skipped candidate blocked, and leaves no better-scored available player of the position out unless it was blocked; it draws no row more often than the table holds it: the squad stays a sub-multiset of the table |
| SquadBuilder.WalkPosition | fpl_player_analyzer.py:143-157 | the inner loop stops when the quota is reached or the candidates run out, and its final state is the one the step-by-step walk `Squad.WalkTo` reaches |
| SquadBuilder.BuildOptimalSquad | fpl_player_analyzer.py:114-179 | fails exactly when no available player of the formation fits the budget (the empty squad has no `price` column); otherwise the squad holds available players of the formation's positions, costs budget − remaining and never overdraws, has at most 3 per club, at most the quota per position and at most 15 players; any available player left out was blocked by quota, club cap or budget, and so was any left-out player scoring above a squad member of the same position; no player is taken twice: the squad is a sub-multiset of the table |
| Advanced.RunOf | fpl_advanced_features.py:31-50 | a team has a run exactly when it has an upcoming fixture; the run has at most n fixtures, home plus away games equal the fixtures, and its difficulty is the analyzer's fixture difficulty |
| Advanced.Runs | fpl_advanced_features.py:30-50 | the rows are exactly the runs of the listed teams that have upcoming fixtures, and there are exactly as many rows as listed teams with a run |
| Advanced.FixtureRunAnalysis | fpl_advanced_features.py:16-61 | fails exactly when no club has a run (sorting an empty frame raises); otherwise returns the runs sorted by ascending difficulty |
| Advanced.RunAnalysisContents | fpl_advanced_features.py:30-53 | on success, each row is the run of a club in the table, and every club with an upcoming fixture has its run there |
| Advanced.RunAnalysisFails | fpl_advanced_features.py:30-61 | the analysis fails (the empty frame has no column to sort by) exactly when no player's club has an upcoming fixture |
| Advanced.CaptaincyPicks | fpl_advanced_features.py:81-94 | returns min(top_n, #eligible) rows priced at least 8.0, available, with over 450 minutes, best 0.4·form + 0.3·ppg + 30·xGI first, and they form a sub-multiset of the eligible rows |
| Advanced.CaptaincyPicksDominate | fpl_advanced_features.py:94 | an eligible player left out scores no higher than any pick |
| Advanced.Template | fpl_advanced_features.py:115-117 | the template is exactly the rows owned by at least the threshold, most owned first, and as a multiset they are exactly those rows: a permutation of the qualifying rows, as many as qualify |
| Advanced.AlternativesTo | fpl_advanced_features.py:134-141 | exactly min(2, number of alternatives) rows, each an alternative to the template player (same position, within ±5 tenths, owned below the threshold, available, another id), best value score first, and they form a sub-multiset of the alternatives |
| Advanced.AlternativesDominate | fpl_advanced_features.py:134-141 | an alternative left out of the two scores no higher than either kept one |
| Advanced.BreakersFor | fpl_advanced_features.py:131-147 | at most 2 alternatives per template player, each owned below the threshold and available, and every alternative of every listed template player is among them |
| Advanced.TemplateBreakers | fpl_advanced_features.py:107-149 | only the 5 most-owned template players are considered, so at most 10 breakers, each owned below the threshold and available; every alternative of those 5 is among them |
| Advanced.TemplateHeadDominates | fpl_advanced_features.py:116-131 | a template player outside the 5 considered is owned no more than any of those 5 |
| Advanced.BreakerHasTemplate | fpl_advanced_features.py:132-147 | every breaker is an alternative to some template player |
| Advanced.PredictPoints | fpl_advanced_features.py:160-169 | the estimate is form (2.0 when form is 0) plus 0.5·xG plus 0.3·xA, so with non-negative xG and xA it is never below a positive form |
| Advanced.FindById | fpl_advanced_features.py:157 | the lookup finds nothing exactly when no row has the id; otherwise it finds the first row with the id, as `.iloc[0]` does |
| Advanced.PointsPredictionNextGw | fpl_advanced_features.py:151-171 | an unknown id has no estimate (`.iloc[0]` raises); otherwise the estimate is that of the first row with the id |
| Advanced.Differentials | fpl_advanced_features.py:180-185 | one side's differentials are exactly the rows whose id it has and the other side does not |
| Advanced.Threats | fpl_advanced_features.py:213-227 | high threats are exactly the rival differentials with form above 6 or value score above 0.7, and None exactly when there are none |
| Advanced.MiniLeagueStrategy | fpl_advanced_features.py:173-228 | my and the rival's differentials are each side's rows the other lacks and never overlap; the high-threat subset is as in `Threats` |
| Wildcard.GoodFixtureTeams | fpl_advanced_features.py:243-244 | the good teams are the clubs of the first 8 rows of the run table, in order |
| Wildcard.WildcardScore | fpl_advanced_features.py:247-251 | a player of a good club scores 1.2 × value score; anyone else keeps the value score |
| Wildcard.Greedy | fpl_advanced_features.py:278-285 | picks come from the candidates, at most `count` of them, paid from the budget without overdrawing it; if fewer than `count` were picked, every candidate left out costs more than what remains, and no candidate is picked more often than it is listed |
| Wildcard.GreedyOnce | fpl_advanced_features.py:278-285 | the picks form a sub-multiset of the candidates |
| Wildcard.GreedyFromRows | fpl_advanced_features.py:272-285 | the picks for one position form a sub-multiset of the table |
| Wildcard.GreedyEmpty | fpl_advanced_features.py:278-285 | the walk picks nobody exactly when the count is not positive or every candidate costs more than the budget |
| Wildcard.GreedyOrdered | fpl_advanced_features.py:276-285 | walking candidates best first, any candidate skipped in favour of a lower-scored pick costs more than what is left at the end |
| Wildcard.WildCandidates | fpl_advanced_features.py:272-276 | candidates are exactly the available rows at the position not already in the squad, best wildcard score first, and as a multiset they are exactly those rows: a permutation of the open rows |
| Wildcard.Step | fpl_advanced_features.py:268-285 | filling one position appends players of that position only, keeps the wildcard invariant, and leaves priced out both any cheaper-to-skip player when the position stayed short and any same-position player scoring above a pick |
| Wildcard.Fill | fpl_advanced_features.py:253-285 | after the four positions the wildcard invariant holds for all of them; a position left short has every untaken available player of it priced above the budget left; no untaken player of a pick's position with a higher wildcard score fits the budget left |
| Wildcard.EmptyFill | fpl_advanced_features.py:253-287 | the filled squad is empty exactly when there is no must-have and every available player at one of the four positions costs more than the budget |
| Wildcard.WildcardOptimizer | fpl_advanced_features.py:230-296 | fails exactly when the run table fails, a must-have has no position (`formation[nan]` raises), or the squad is empty (no must-have and every positioned available player above budget: `squad_df['price']` raises); otherwise the squad keeps the wildcard invariant, short positions are priced out, and no better-scoring same-position player was affordable; the squad is a sub-multiset of the table, so nobody is picked twice |
| Wildcard.WildcardSquad | fpl_advanced_features.py:253-285 | the squad starts with every must-have; each later pick is available, not a must-have and of a formation position; costs add up, later picks never overdraw, and no position exceeds its quota except through must-haves; there is no club cap |
| FixturePredictor.AttackIsPerPlayer | advanced_fixture_predictor.py:30-35 | attack = Σ xG + Σ xA + Σ points/100 over midfielders and forwards, which is a per-player sum |
| FixturePredictor.DefenseIsPerPlayer | advanced_fixture_predictor.py:38-43 | defense = 2·Σ clean sheets + Σ points/100 − Σ goals conceded/10 over keepers and defenders, which is a per-player sum |
| FixturePredictor.TeamStrength | advanced_fixture_predictor.py:26-51 | overall = attack + defense, each the per-player sum over the club's rows |
| FixturePredictor.StrengthTable | advanced_fixture_predictor.py:20-54 | the table has exactly the clubs of the player table, each with its strength |
| FixturePredictor.Lookup | advanced_fixture_predictor.py:64-65 | an unknown club, or the NaN name of a team missing from the team table, gets attack 50, defense 50, overall 100 |
| FixturePredictor.Clamp | advanced_fixture_predictor.py:96-98 | `max(lo, min(hi, x))` lies in [lo, hi], is x inside it, and is the nearer bound outside it |
| FixturePredictor.RawOutcomeIsDistribution | advanced_fixture_predictor.py:78-93 | in every band the unclamped home/draw/away triple sums to 1, the draw is non-negative, and the stronger side is favoured |
| FixturePredictor.RawOutcomeNotMonotone | advanced_fixture_predictor.py:86-93 | the band rule jumps at −50: a home side 1 point stronger has a lower home-win chance (0.105 against 0.15) |
| FixturePredictor.ClampOutcome | advanced_fixture_predictor.py:95-99 | clamped wins lie in [0.05, 0.85] and the draw in [0.15, 0.40] |
| FixturePredictor.PredictMatchOutcome | advanced_fixture_predictor.py:56-99 | every predicted probability lies within its clamp bounds |
| FixturePredictor.ClampedOutcomeNotRenormalised | advanced_fixture_predictor.py:78-99 | at difference 100 the raw away win is −0.05; clamped to 0.05, the triple sums to 1.1 |
| FixturePredictor.PredictGoals | advanced_fixture_predictor.py:101-123 | home goals lie in [0.3, 3.5], away goals in [0.2, 3.0], total = home + away |
| FixturePredictor.HomeGoalsAdvantage | advanced_fixture_predictor.py:110-117 | between equal clubs (attack ≥ 0, defense ≤ 150) the home side is expected to score at least as many goals |
| FixturePredictor.PredictCleanSheet | advanced_fixture_predictor.py:125-143 | the clean-sheet probability lies in [0.05, 0.65] |
| FixturePredictor.CleanSheetHomeAdvantage | advanced_fixture_predictor.py:137-143 | with a non-negative raw estimate, playing at home never lowers the clean-sheet probability |
| FixturePredictor.FdrBand | advanced_fixture_predictor.py:195-202 | the rating is between 2 and 5; it is never 1 |
| FixturePredictor.FdrBandAntitone | advanced_fixture_predictor.py:195-202 | a higher win probability never gives a harder rating |
| FixturePredictor.Rate | advanced_fixture_predictor.py:160-202 | venue and opponent follow the fixture; the rating is the band of the team's own win probability; BTTS = 1 − cs·cs' lies in [1 − 0.65², 1 − 0.05²] |
| FixturePredictor.RateAll | advanced_fixture_predictor.py:160-222 | one rating per fixture, in order, each between 2 and 5 |
| FixturePredictor.CalculateAdvancedFdr | advanced_fixture_predictor.py:145-224 | one row per upcoming fixture of the team (at most n), each between 2 and 5 |
| FixturePredictor.MeanFdr | advanced_fixture_predictor.py:238 | the mean of ratings in [2, 5] lies in [2, 5] and times the count gives their sum |
| FixturePredictor.TeamEntry | advanced_fixture_predictor.py:236-242 | a team gets an entry exactly when it has an upcoming fixture; the entry's mean lies in [2, 5] |
| FixturePredictor.Teams | advanced_fixture_predictor.py:228-235 | the sorted distinct clubs: exactly the clubs of the table, ascending |
| FixturePredictor.AllTeamsFdr | advanced_fixture_predictor.py:226-256 | entries come in alphabetical order; each belongs to a club of the table, and every club with fixtures has one |
| FixturePredictor.EasiestFirst | advanced_fixture_predictor.py:245 | the printed view is the entries reordered by ascending mean rating |
| FixturePredictor.SortStrings | advanced_fixture_predictor.py:235 | `sorted(teams)`: ascending, and a permutation of its input |
| Prices.TransferIndex | price_predictor.py:36-40 | index × (ownership·1000 + 1) = in − out; NaN exactly when ownership is missing |
| Prices.RiseProbability | price_predictor.py:43-47 | lies in [0, 100], and is positive exactly when the index exceeds 0.005 |
| Prices.DropProbability | price_predictor.py:49-53 | lies in [0, 100], and is positive exactly when the index is below −0.005 |
| Prices.Predict | price_predictor.py:27-60 | a row never has both a rise and a drop; a rise needs net transfers in and a drop net transfers out |
| Prices.IndexSign | price_predictor.py:36-40 | the index has the sign of the net transfers |
| Prices.GetPriceChangePredictions | price_predictor.py:16-62 | one prediction per element, in order |
| Prices.RiseDropMirror | price_predictor.py:43-53 | swapping transfers in and out swaps rise and drop probabilities |
| Prices.RiseMonotone | price_predictor.py:39-47 | at equal ownership, more net transfers in never lower the rise probability |
| Prices.GetRisingPlayers | price_predictor.py:64-71 | min(top_n, #qualifying) available players with rise above 30, likeliest first, and they form a sub-multiset of the qualifying predictions |
| Prices.RisersDominate | price_predictor.py:68-71 | a qualifying player left out is no likelier to rise than any listed one |
| Prices.GetDroppingPlayers | price_predictor.py:87-94 | min(top_n, #qualifying) available players with drop above 30, likeliest first, and they form a sub-multiset of the qualifying predictions |
| Prices.FallersDominate | price_predictor.py:91-94 | a qualifying player left out is no likelier to drop than any listed one |
| Prices.RisersAndFallersDisjoint | price_predictor.py:64-94 | no player is listed both as a riser and as a faller |
| Prices.CheckMyTeamPrices | price_predictor.py:110-135 | rising is exactly the squad's predictions with rise above 50, dropping those with drop above 50, and the two are disjoint |
| Prices.QuickValue | price_predictor.py:142-148 | value × price = 0.5·form + 0.5·ppg, with missing values read as 0 |
| Prices.GetBestBuysBeforeRise | price_predictor.py:137-155 | exactly min(top_n, number of qualifying) predictions (none for top_n ≤ 0), each available with rise above 40 and quick value above 0.5, best value first, and they form a sub-multiset of the qualifying predictions |
| Prices.BestBuysDominate | price_predictor.py:151-153 | a qualifying prediction left out has quick value no higher than any listed one |
| Live.LiveStats | live_tracker.py:35-52 | a pick absent from the live data gets empty stats (0 points); otherwise the stats of the last entry with its id, as building the id-keyed dict keeps the last one |
| Live.NameOf | live_tracker.py:39-59 | an element absent from the bootstrap data is named "Unknown"; otherwise it gets the web name of the last entry with its id |
| Live.LiveRowOf | live_tracker.py:45-72 | final points = live points × multiplier; captain exactly when the multiplier is 2; slot, vice flag and stats carried |
| Live.TrackMyTeamLive | live_tracker.py:24-83 | one row per pick in pick order, each the pick's row; the total is the sum of final points over slots 1..11 |
| Live.BenchNeverCounts | live_tracker.py:74-76 | the bench never counts: with every starter at 0, the total is 0 whatever the bench scored |
| Live.TotalCoversRow | live_tracker.py:74-76 | with no negative final points, every starter's final points are within the total |
| Live.GetBonusPointsSystem | live_tracker.py:120-148 | rows are exactly the live elements with positive BPS, highest first; fails exactly when there is none (the empty frame has no `bps` column to sort); as a multiset the rows are exactly the positive-BPS rows, a permutation of them |
| Live.GetPriceChangeImpact | live_tracker.py:150-179 | the change in millions × 10 is the sum of `cost_change_event` over the picked players; gained or lost exactly by its sign |
| Live.NoFallNoLoss | live_tracker.py:165-177 | a team none of whose players fell never reports a loss |
| League.CompareVsRival | mini_league.py:101-159 | fails (the `.iloc[0]` IndexError) exactly when both captains are found with non-zero ids and one of them has no row in the player table; otherwise mine − rival, rival − mine and mine ∩ rival are pairwise disjoint, shared ∪ each side's differentials is that side's set, and difference + rival points = my points |
| League.CompareSucceeds | mini_league.py:153-159 | the comparison succeeds when I have no captain or when every pick of both sides has a row in the player table |
| League.StandingOf | mini_league.py:101-107 | ahead exactly for a positive difference, behind exactly for a negative one |
| League.CompareSymmetric | mini_league.py:101-159 | comparing the other way fails exactly when this way does; on success it swaps the differential sets, keeps the shared set, and turns ahead into behind |
| League.CaptainOf | mini_league.py:154-155 | the element of the first pick flagged captain, and None exactly when no pick is flagged |
| League.AllTeamsFailure | mini_league.py:21-33 | the paging fails (asks for a page that does not exist) exactly when every page from the start claims a successor |
| League.AllTeamsIsConcatenation | mini_league.py:21-33 | otherwise the result is the concatenation, in page order, of the pages up to the first without a successor |
| League.TemplateStatusOf | mini_league.py:248-253 | following the template exactly at 10 or more, heavy differentials exactly at 7 or fewer, balanced in between |
| League.Assign | mini_league.py:201 | a dict assignment: the manager's entry holds the new list, other entries stay, and no manager appears twice |
| League.Gather | mini_league.py:195-203 | one entry per manager whose picks were fetched, holding those picks; failed fetches are skipped |
| League.Squads | mini_league.py:196 | only the first ten standings entries are gathered |
| League.TemplateIds | mini_league.py:205-212 | exactly min(15, number of distinct owned ids) ids, without repeats, each owned by some gathered squad, and no owned id left out is more common than one kept |
| League.TemplateDominates | mini_league.py:205-212 | an owned id left out of the 15 most common is picked by no more gathered squads than any id kept |
| League.OccurrencesBounded | mini_league.py:205-225 | with no duplicate within a squad, a player occurs at most once per gathered squad, so league ownership is at most 100% |
| League.MyPicks | mini_league.py:238 | the manager's gathered picks, or none when they were not gathered |
| League.TemplateRows | mini_league.py:218-232 | one row per known template id, with its count and ownership × squads = count × 100 |
| League.AnalyzeEntireLeague | mini_league.py:179-255 | the template count is the size of my picks ∩ the template ids, at most 15, and the verdict is `TemplateStatusOf` that count |
| League.PredictLeagueWinner | mini_league.py:257-272 | every entry is projected to total + 10 × event total; highest projection first; the table has one row per entry and, as a multiset, is exactly the entries' projections (a permutation of them) |
| League.FindWeakRivals | mini_league.py:274-288 | the standings reordered by ascending total |
| Predictor.Per90 | points_predictor.py:33-36 | per-90 × (minutes + 1) = stat × 90; defined for every minutes value but −1 |
| Predictor.Per90Bounds | points_predictor.py:33-36 | at non-negative minutes a non-negative stat gives a per-90 rate in [0, 90·stat] |
| Predictor.Encode | points_predictor.py:40-41 | GK/DEF/MID/FWD encode as 0..3 by rank, and an unmapped position as NaN |
| Predictor.EncodeRoundTrip | points_predictor.py:40-41 | the encoding is a bijection between the four positions and 0..3 |
| Predictor.PrepareFeatures | points_predictor.py:18-43 | form momentum = form × ppg, the position encoding and the per-90 rates as above |
| Predictor.TrainModel | points_predictor.py:45-78 | the model is fitted afterwards exactly when it already was or at least 50 rows have minutes above 90 and positive form |
| Predictor.TrainingMonotone | points_predictor.py:62-66 | adding rows never makes a successful training fail |
| Predictor.ConfidenceOf | points_predictor.py:116-119 | HIGH exactly when form > 6, LOW exactly when form ≤ 3, MEDIUM between |
| Predictor.ConfidenceMonotone | points_predictor.py:116-119 | higher form never lowers the confidence |
| Predictor.Clip | points_predictor.py:113 | `clip(x, 0, 20)` lies in [0, 20], is x inside it, and is the nearer bound outside it |
| Predictor.PredictNextGameweek | points_predictor.py:80-134 | fails exactly when training failed and some player is predictable (the unfitted scaler raises); otherwise min(top_n, #predictable) available players with over 90 minutes, each with clipped points and form-based confidence, highest first, and the table is a sub-multiset of the predictions of the predictable rows |
| Predictor.PredictionsDominate | points_predictor.py:122 | a predictable player left out has no more predicted points than any listed one |
| Predictor.CaptainsAmong | points_predictor.py:141 | captain options are a subsequence of the table, all priced at least 8.0, exactly min(top_n, number of premium rows) of them (a negative top_n drops from the end, as `head` does); with top_n covering the table none is lost |
| Predictor.CaptainsDominate | points_predictor.py:138-141 | over a table sorted by points, a premium row left out has no more predicted points than any captain option |
| Predictor.PredictCaptainOptions | points_predictor.py:136-148 | the captain options of the top-100 prediction table; fails exactly when that table fails or has no predictable player, the column-less frame failing with its own error; also reports the training state |
| Predictor.DifferentialsAmong | points_predictor.py:154-156 | differentials are a subsequence of the table, owned at most the bound, exactly min(top_n, number of such rows) of them (a negative top_n drops from the end); with top_n covering the table none is lost |
| Predictor.DifferentialsDominate | points_predictor.py:152-156 | over a table sorted by points, a low-owned row left out has no more predicted points than any differential |
| Predictor.PredictDifferentials | points_predictor.py:150-163 | the differentials of the top-200 prediction table; fails exactly when that table fails or has no predictable player, the column-less frame failing with its own error |
| Predictor.ValueOf | points_predictor.py:169 | value ratio × price in millions = predicted points |
| Predictor.BestValueAmong | points_predictor.py:169-171 | min(top_n, table size) rows (none for top_n ≤ 0), each carrying its own points-per-million ratio, best ratio first, and the picks form a sub-multiset of the table's value picks |
| Predictor.BestValueDominates | points_predictor.py:169-171 | a table row whose value pick was left out has a ratio no higher than any listed one |
| Predictor.ComparePredictionVsPrice | points_predictor.py:165-181 | the best-value rows of the top-200 prediction table; fails exactly when that table fails or has no predictable player, the column-less frame failing with its own error |
| App.Initialize | fpl_main_app.py:21-39 | fails exactly when no player has minutes; otherwise one scored row per player with minutes, in order, each the player with NaNs filled by 0 as the code does (a missing chance counts as 0), scored by the penalised weighted sum over the filled pool's bounds, in [0, 1], and the saved team as found |
| App.SaveMyTeam | fpl_main_app.py:67-85 | anything but 15 ids leaves the assistant unchanged; otherwise the saved ids are exactly those given, with exactly the table's rows for them |
| App.GetTransferRecommendations | fpl_main_app.py:147-161 | None exactly when no team is saved; otherwise a failure exactly when offers exist but the slice keeps none (the KeyError the analyzer raises), and on success a sub-multiset of the saved team's per-position offers, sorted by improvement, at most 12 long and exactly min(3 × transfers, number of offers) long for a non-negative allowance |
| App.RecommendationsBest | fpl_main_app.py:147-161 | an offer for the saved team that a successful recommendation leaves out improves no more than any recommendation |
| App.SaveThenRecommend | fpl_main_app.py:67-161 | after saving 15 ids the recommendations are those for exactly those ids; a rejected save changes nothing |
| App.RecommendationsSound | fpl_main_app.py:147-161 | each transfer of a successful recommendation sends out a saved player for an unsaved one, with positive improvement |
| App.LowerIdempotent | fpl_main_app.py:166 | lower-casing twice is lower-casing once |
| App.ContainsIff | fpl_main_app.py:166 | the substring test holds exactly when the needle occurs at some index of the haystack |
| App.SearchPlayer | fpl_main_app.py:163-180 | None exactly when no name matches; otherwise exactly the matching rows, in table order |
| App.SearchIgnoresCase | fpl_main_app.py:166 | searching for a name and for its lower-case form give the same result |
| App.SearchFindsOccurrence | fpl_main_app.py:166-170 | a row is found exactly when the lower-cased query occurs in its lower-cased name |
| App.EmptyQueryFindsAll | fpl_main_app.py:166 | the empty query finds the whole table |
| App.ComparePlayers | fpl_main_app.py:182-201 | None exactly when no row has a given id; otherwise exactly those rows, in table order |
| App.SavedRowsAreCompared | fpl_main_app.py:77-79 | the rows a save stores are the rows the comparison returns for the same ids |
| App.GetMyTeamSummary | fpl_main_app.py:203-236 | None exactly when no team is saved; otherwise the saved team's rows, their value as the sum of their prices, and a mean score that is NaN exactly for an empty team |
| App.MeanScore | fpl_main_app.py:228 | the mean value score is NaN (None) exactly for an empty team; otherwise, times the team size, it gives the sum of the scores |
| App.GetDifferentials | fpl_main_app.py:238-256 | min(top_n, #qualifying) available rows owned at most the bound with over 180 minutes, best value score first, and they form a sub-multiset of the qualifying rows |
| App.DifferentialsDominate | fpl_main_app.py:246 | a qualifying row left out scores no higher than any listed one |
| App.DifferentialsWiden | fpl_main_app.py:242-246 | raising the ownership bound never shortens the list |

## Left out

- HTTP access (every `fetch_*` method, the live-points and standings requests): the decoded payloads are parameters, and the picks fetch of `analyze_entire_league` is a function that may fail.
- Printing, `to_string` tables and emoji output: no computed value depends on them.
- `round(..., 1)` and `round(..., 2)`: values are unrounded reals. In the run table and the all-teams view, sorting uses unrounded means.
- The `exp`-based over/under goal probabilities and the 0–0 probability (advanced_fixture_predictor.py:183-186, 221): transcendental, and they feed no other output.
- Float representation: prices are exact tenths and scores exact reals, so a float budget that drifts by a rounding error is not modelled.
- The regressor and the scaler of points_predictor.py are foreign code: a trained model is a function parameter `Model` from features to points. Only its fitted or unfitted state is tracked. The influence, creativity, threat, bonus and bps feature columns are carried by that function, not listed.
- FixturePredictor.TeamStrength: the `avg_points` entry of the strength table is never read by any prediction and is not computed.
- Advanced.CaptaincyPicks: the `next_fixtures` frame (fpl_advanced_features.py:75-78) is computed and never used, so it is not modelled.
- Tie order: pandas `sort_values`, `nlargest` and `Counter.most_common` break ties in ways the code does not control. Rankings are specified up to ties.
- Fetcher.DecodePlayer: an element whose team id is unknown or whose `now_cost` is not positive is dropped. The source would keep it with a NaN club or a non-positive price; the live API never sends either.
- Prices.QuickValue: a non-positive price, where the division gives an infinity or NaN, yields `None`.
- App.SearchPlayer: `str.contains` treats the query as a regular expression and folds Unicode case. The model matches the literal query and folds ASCII letters only.
- `load_my_team_from_fpl` (fpl_main_app.py:95-145): it only fetches data and stores it. Its stored ids feed the same transfer path as `save_my_team`.
- Writing and reading the team file, and timestamps: the saved team found at start-up is a parameter of `App.Initialize`.
- The CLI scripts (interactive_menu.py, quick_start.py, load_my_team.py), `show_winning_menu` and `main`, and the Flask routes of app.py: UI and web plumbing.
- The `add_*_to_assistant` helpers and the one-line delegations of fpl_main_app.py:50-65 and 260-282: each forwards its arguments unchanged to a member modelled above.
- `bench_boost_analyzer` (fpl_advanced_features.py:298-318): it returns the 10-gameweek fixture-run table, which is `Advanced.FixtureRunAnalysis` with n = 10.
- `display_live_team` and `analyze_league` print data already computed elsewhere. `get_differential_performance` (live_tracker.py:181-215) filters the live table to picks owned below 10%: an ownership filter over the live table, outside the core. The high-threat list that `compare_vs_rival` prints (value score above 0.6) is not part of its result.
- League.PredictLeagueWinner and League.FindWeakRivals: an empty standings list gives an empty table, where pandas would raise for the missing column. A league always holds the manager who asks.
- The club-tally printouts of `build_optimal_squad` and `recommend_transfers` (fpl_player_analyzer.py:173, 279): display only. The model keeps the tally as counts over the squad (`Squad.ClubCount`).

## Findings

| source | as written | input that shows it | evidently intended | confidence | as-written member | corrected member |
|---|---|---|---|---|---|---|
| fpl_player_analyzer.py:40-68 | `fillna(0)` runs before the `chance_of_playing_next_round < 100` penalty, so a missing chance counts as 0% | an available player whose chance of playing is null, which is how the FPL API reports fit players: the score is halved like a doubtful player's | a missing chance means no doubt and carries no penalty | medium, not executed | Scoring.MissingChanceCountsAsDoubtful | Scoring.MissingChanceCountsAsFit |

`Scoring.CalculateValueScore` takes the rule for a missing chance as a
parameter. The assistant (`App.Initialize`) scores with the rule as written,
because that is what the program computes; the corrected rule is the one the
model's own properties about fit players are stated for
(`Scoring.MissingChanceCountsAsFit`), and `Scoring.RulesAgreeWhenReported`
shows the two tables coincide whenever every player reports a chance.

=== FILE: advanced.dfy ===
/** `FPLAdvancedAnalyzer` (fpl_advanced_features.py): fixture runs, captaincy
    picks, template breakers, the one-player point estimate and the
    head-to-head comparison. The wildcard optimiser is in `Wildcard`. */
module Advanced {
  import opened Wrappers
  import opened Seqs
  import opened Types
  import opened Analyzer

  /* ---------------------------------------------------------------------
     get_fixture_run_analysis
     --------------------------------------------------------------------- */

  /** One row of the fixture-run table. */
  datatype TeamRun = TeamRun(team: string, avgDifficulty: real, fixtures: nat, homeGames: nat, awayGames: nat)

  /** Sorting the table of a run where no team had a fixture fails: the
      empty frame has no `avg_difficulty` column. */
  datatype RunError = NoFixtures

  function AvgDifficulty(r: TeamRun): real {
    r.avgDifficulty
  }

  /** The `team_short` column. */
  function Clubs(rows: seq<Row>): (cs: seq<string>)
    ensures |cs| == |rows|
    ensures forall i :: 0 <= i < |rows| ==> cs[i] == rows[i].club
  {
    Map(rows, (r: Row) => r.club)
  }

  /** A team's row, or `None` when it has no upcoming fixture in the window.
      The difficulty is that of `get_fixture_difficulty`. */
  function RunOf(fixtures: seq<Fixture>, team: string, n: int): (run: Option<TeamRun>)
    ensures run.None? <==> Upcoming(fixtures, team, n) == []
    ensures run.Some? ==>
              && run.value.team == team
              && run.value.fixtures == |Upcoming(fixtures, team, n)| > 0
              && (n >= 0 ==> run.value.fixtures <= n)
              && run.value.homeGames + run.value.awayGames == run.value.fixtures
              && run.value.avgDifficulty == GetFixtureDifficulty(fixtures, team, n)
  {
    var games := Upcoming(fixtures, team, n);
    if games == [] then None
    else
      var home := |HomeDifficulties(games, team)|;
      Some(TeamRun(team, GetFixtureDifficulty(fixtures, team, n), |games|, home, |games| - home))
  }

  /** The rows of the teams in `teams` that have a fixture, in team order. */
  function Runs(fixtures: seq<Fixture>, teams: seq<string>, n: int): (runs: seq<TeamRun>)
    ensures forall r :: r in runs ==> r.team in teams && RunOf(fixtures, r.team, n) == Some(r)
    ensures forall t :: t in teams && RunOf(fixtures, t, n).Some? ==> RunOf(fixtures, t, n).value in runs
    ensures |runs| == Count(teams, t => RunOf(fixtures, t, n).Some?)
  {
    var f := (t: string) => RunOf(fixtures, t, n);
    var runs := Collect(teams, f);
    forall r | r in runs ensures r.team in teams && RunOf(fixtures, r.team, n) == Some(r) {
      var t :| t in teams && f(t) == Some(r);
    }
    FilterExt(teams, Yields(f), t => RunOf(fixtures, t, n).Some?);
    runs
  }

  /** `get_fixture_run_analysis`: one row per club with an upcoming fixture
      in its next `n`, easiest run first; a failure when no club has one. */
  function FixtureRunAnalysis(rows: seq<Row>, fixtures: seq<Fixture>, n: int): (res: Result<seq<TeamRun>, RunError>)
    ensures res.Failure? <==> Runs(fixtures, Distinct(Clubs(rows)), n) == []
    ensures res.Success? ==>
              && SortedAsc(res.value, AvgDifficulty)
              && multiset(res.value) == multiset(Runs(fixtures, Distinct(Clubs(rows)), n))
  {
    var runs := Runs(fixtures, Distinct(Clubs(rows)), n);
    if runs == [] then Failure(NoFixtures)
    else Success(SortAsc(runs, AvgDifficulty))
  }

  /** Every row's club is among the clubs listed. */
  lemma RowClubs(rows: seq<Row>)
    ensures forall r :: r in rows ==> r.club in Clubs(rows)
  {
    forall r | r in rows ensures r.club in Clubs(rows) {
      var i :| 0 <= i < |rows| && rows[i] == r;
    }
  }

  /** The table is empty (a failure) exactly when no club of `rows` has an
      upcoming fixture. */
  lemma RunAnalysisFails(rows: seq<Row>, fixtures: seq<Fixture>, n: int)
    ensures FixtureRunAnalysis(rows, fixtures, n).Failure? <==>
              forall r :: r in rows ==> Upcoming(fixtures, r.club, n) == []
  {
    var cs := Clubs(rows);
    var runs := Runs(fixtures, Distinct(cs), n);
    RowClubs(rows);
    if runs == [] {
      forall r | r in rows ensures Upcoming(fixtures, r.club, n) == [] {
        assert r.club in Distinct(cs);
        assert RunOf(fixtures, r.club, n).None?;
      }
    } else {
      var run := runs[0];
      var i :| 0 <= i < |cs| && cs[i] == run.team;
      assert rows[i] in rows && Upcoming(fixtures, rows[i].club, n) != [];
    }
  }

  /** The table holds exactly the clubs of `rows` that have an upcoming
      fixture, each with its own run. */
  lemma RunAnalysisContents(rows: seq<Row>, fixtures: seq<Fixture>, n: int)
    ensures FixtureRunAnalysis(rows, fixtures, n).Success? ==>
              && (forall run :: run in FixtureRunAnalysis(rows, fixtures, n).value ==>
                    run.team in Clubs(rows) && RunOf(fixtures, run.team, n) == Some(run))
              && (forall r :: r in rows && Upcoming(fixtures, r.club, n) != [] ==>
                    RunOf(fixtures, r.club, n).value in FixtureRunAnalysis(rows, fixtures, n).value)
  {
    var runs := Runs(fixtures, Distinct(Clubs(rows)), n);
    RowClubs(rows);
    if runs != [] {
      var sorted := SortAsc(runs, AvgDifficulty);
      assert forall x :: x in sorted <==> x in runs;
    }
  }

  /* ---------------------------------------------------------------------
     get_captaincy_picks
     --------------------------------------------------------------------- */

  /** 0.4·form + 0.3·points-per-game + 100·0.3·xGI. */
  function CaptaincyScore(r: Row): real {
    0.4 * r.form + 0.3 * r.ppg + 30.0 * r.xgi
  }

  /** Premium (8.0 or more), available, and more than 450 minutes played. */
  predicate CaptainEligible(r: Row) {
    r.price >= 80 && IsAvailable(r.status) && r.minutes > 450
  }

  /** `get_captaincy_picks`: the `topN` eligible players of highest
      captaincy score, best first. */
  function CaptaincyPicks(rows: seq<Row>, topN: int): (picks: seq<Row>)
    ensures forall r :: r in picks ==> r in rows && CaptainEligible(r)
    ensures multiset(picks) <= multiset(Filter(rows, CaptainEligible))
    ensures SortedDesc(picks, CaptaincyScore)
    ensures |picks| == if topN <= 0 then 0 else Min(topN, Count(rows, CaptainEligible))
  {
    NLargest(Filter(rows, CaptainEligible), topN, CaptaincyScore)
  }

  /** An eligible player left out scores no higher than any pick. */
  lemma CaptaincyPicksDominate(rows: seq<Row>, topN: int, x: Row, k: int)
    requires x in rows && CaptainEligible(x) && x !in CaptaincyPicks(rows, topN)
    requires 0 <= k < |CaptaincyPicks(rows, topN)|
    ensures CaptaincyScore(x) <= CaptaincyScore(CaptaincyPicks(rows, topN)[k])
  {
    NLargestDominates(Filter(rows, CaptainEligible), topN, CaptaincyScore, x, k);
  }

  /* ---------------------------------------------------------------------
     find_template_breakers
     --------------------------------------------------------------------- */

  function Ownership(r: Row): real {
    r.ownership
  }

  /** The template: players owned by at least `threshold` percent, most
      owned first. */
  function Template(rows: seq<Row>, threshold: real): (tpl: seq<Row>)
    ensures forall r :: r in tpl <==> r in rows && r.ownership >= threshold
    ensures multiset(tpl) == multiset(Filter(rows, OwnedAtLeast(threshold)))
    ensures |tpl| == Count(rows, OwnedAtLeast(threshold))
    ensures SortedDesc(tpl, Ownership)
  {
    SortDesc(Filter(rows, OwnedAtLeast(threshold)), Ownership)
  }

  /** The mask of the players owned by at least `threshold` percent. */
  function OwnedAtLeast(threshold: real): Row -> bool {
    (r: Row) => r.ownership >= threshold
  }

  /** `alt` is an alternative to template player `t`: same position, within
      0.5 of the price, under the threshold, available, another player. */
  predicate Breaks(t: Row, alt: Row, threshold: real) {
    && alt.position == t.position
    && t.price - 5 <= alt.price <= t.price + 5
    && alt.ownership < threshold
    && IsAvailable(alt.status)
    && alt.id != t.id
  }

  /** The mask of the alternatives to `t`. */
  function BreaksOf(t: Row, threshold: real): Row -> bool {
    (a: Row) => Breaks(t, a, threshold)
  }

  /** `nlargest(2, 'value_score')` of the alternatives to `t`: both of them
      when there are at most two, else the two best-scored. */
  function AlternativesTo(rows: seq<Row>, t: Row, threshold: real): (alts: seq<Row>)
    ensures |alts| == Min(2, Count(rows, BreaksOf(t, threshold)))
    ensures forall a :: a in alts ==> a in rows && Breaks(t, a, threshold)
    ensures multiset(alts) <= multiset(Filter(rows, BreaksOf(t, threshold)))
    ensures SortedDesc(alts, ValueScore)
  {
    NLargest(Filter(rows, BreaksOf(t, threshold)), 2, ValueScore)
  }

  /** An alternative left out scores no higher than either one listed. */
  lemma AlternativesDominate(rows: seq<Row>, t: Row, threshold: real, a: Row, k: int)
    requires a in rows && Breaks(t, a, threshold) && a !in AlternativesTo(rows, t, threshold)
    requires 0 <= k < |AlternativesTo(rows, t, threshold)|
    ensures a.valueScore <= AlternativesTo(rows, t, threshold)[k].valueScore
  {
    NLargestDominates(Filter(rows, BreaksOf(t, threshold)), 2, ValueScore, a, k);
  }

  /** The alternatives for each of `ts`, in order (`breakers.extend`). */
  function BreakersFor(rows: seq<Row>, ts: seq<Row>, threshold: real): (bs: seq<Row>)
    ensures |bs| <= 2 * |ts|
    ensures forall a :: a in bs ==> a in rows && a.ownership < threshold && IsAvailable(a.status)
    ensures forall t, a :: t in ts && a in AlternativesTo(rows, t, threshold) ==> a in bs
  {
    if ts == [] then []
    else
      var init, last := ts[..|ts| - 1], ts[|ts| - 1];
      assert forall t :: t in ts ==> t in init || t == last;
      BreakersFor(rows, init, threshold) + AlternativesTo(rows, last, threshold)
  }

  /** `find_template_breakers`: alternatives to the five most-owned template
      players, at most two each, and every such alternative. */
  function TemplateBreakers(rows: seq<Row>, threshold: real): (bs: seq<Row>)
    ensures |bs| <= 10
    ensures forall a :: a in bs ==> a in rows && a.ownership < threshold && IsAvailable(a.status)
    ensures forall t, a :: t in Take(Template(rows, threshold), 5) && a in AlternativesTo(rows, t, threshold) ==> a in bs
  {
    BreakersFor(rows, Take(Template(rows, threshold), 5), threshold)
  }

  /** Each breaker is one of the listed alternatives to one of the template
      players walked. */
  lemma {:induction false} BreakerHasTemplate(rows: seq<Row>, ts: seq<Row>, threshold: real, a: Row)
    requires a in BreakersFor(rows, ts, threshold)
    ensures exists t :: t in ts && a in AlternativesTo(rows, t, threshold)
  {
    var init := ts[..|ts| - 1];
    if a in BreakersFor(rows, init, threshold) {
      BreakerHasTemplate(rows, init, threshold, a);
      var t :| t in init && a in AlternativesTo(rows, t, threshold);
      assert t in ts;
    } else {
      assert ts[|ts| - 1] in ts;
    }
  }

  /** The five template players walked are the most owned: a template
      player left out is owned no more than any of them. */
  lemma TemplateHeadDominates(rows: seq<Row>, threshold: real, t: Row, k: int)
    requires t in rows && t.ownership >= threshold && t !in Take(Template(rows, threshold), 5)
    requires 0 <= k < |Take(Template(rows, threshold), 5)|
    ensures t.ownership <= Take(Template(rows, threshold), 5)[k].ownership
  {
    var tpl := Template(rows, threshold);
    var head := Take(tpl, 5);
    var j :| 0 <= j < |tpl| && tpl[j] == t;
    OutsidePrefix(tpl, |head|, j);
    assert head[k] == tpl[k];
  }

  /* ---------------------------------------------------------------------
     points_prediction_next_gw
     --------------------------------------------------------------------- */

  /** The estimate for one row: form (2 when form is 0) times the fixed
      multiplier 1, plus half the xG and 0.3 of the xA. */
  function PredictPoints(r: Row): (p: real)
    ensures p == (if r.form != 0.0 then r.form else 2.0) + 0.5 * r.xg + 0.3 * r.xa
    ensures r.xg >= 0.0 && r.xa >= 0.0 && r.form > 0.0 ==> p >= r.form
  {
    var base := if r.form != 0.0 then r.form else 2.0;
    base * 1.0 + (if r.xg != 0.0 then r.xg * 0.5 else 0.0) + (if r.xa != 0.0 then r.xa * 0.3 else 0.0)
  }

  /** The first row with id `id` (`.iloc[0]`), if any. */
  function FindById(rows: seq<Row>, id: int): (r: Option<Row>)
    ensures r.None? <==> forall x :: x in rows ==> x.id != id
    ensures r.Some? ==> exists i :: 0 <= i < |rows| && rows[i] == r.value && r.value.id == id && FirstWithId(rows, id, i)
  {
    if rows == [] then None
    else if rows[0].id == id then
      assert FirstWithId(rows, id, 0);
      Some(rows[0])
    else
      var r := FindById(rows[1..], id);
      assert forall x :: x in rows ==> x == rows[0] || x in rows[1..];
      if r.Some? then
        FirstShift(rows, id, r.value);
        r
      else r
  }

  /** A first match past a non-matching head is the first match of the whole. */
  lemma FirstShift(rows: seq<Row>, id: int, v: Row)
    requires rows != [] && rows[0].id != id
    requires exists i :: 0 <= i < |rows[1..]| && rows[1..][i] == v && v.id == id && FirstWithId(rows[1..], id, i)
    ensures exists i :: 0 <= i < |rows| && rows[i] == v && v.id == id && FirstWithId(rows, id, i)
  {
    var i :| 0 <= i < |rows[1..]| && rows[1..][i] == v && v.id == id && FirstWithId(rows[1..], id, i);
    assert rows[i + 1] == v;
    assert FirstWithId(rows, id, i + 1);
  }

  /** No row before index `i` has id `id`. */
  ghost predicate FirstWithId(rows: seq<Row>, id: int, i: int) {
    forall j :: 0 <= j < i && j < |rows| ==> rows[j].id != id
  }

  /** `points_prediction_next_gw`: `None` where `.iloc[0]` raises for an
      unknown id. */
  function PointsPredictionNextGw(rows: seq<Row>, id: int): (p: Option<real>)
    ensures p.None? <==> forall x :: x in rows ==> x.id != id
    ensures p.Some? ==> exists i :: 0 <= i < |rows| && rows[i].id == id && FirstWithId(rows, id, i) && p.value == PredictPoints(rows[i])
  {
    match FindById(rows, id)
    case None => None
    case Some(r) => Some(PredictPoints(r))
  }

  /* ---------------------------------------------------------------------
     mini_league_strategy
     --------------------------------------------------------------------- */

  /** The head-to-head frames; `highThreat` is `None` when empty. */
  datatype HeadToHead = HeadToHead(myDifferentials: seq<Row>, rivalDifferentials: seq<Row>, highThreat: Option<seq<Row>>)

  /** A rival differential worth covering: form above 6 or value score above
      0.7. */
  predicate HighThreat(r: Row) {
    r.form > 6.0 || r.valueScore > 0.7
  }

  /** The rows of `ids` whose id is not among `others`. */
  function Differentials(rows: seq<Row>, ids: seq<int>, others: seq<int>): (diff: seq<Row>)
    ensures forall r :: r in diff <==> r in rows && r.id in ids && r.id !in others
  {
    Filter(Filter(rows, (r: Row) => r.id in ids), (r: Row) => r.id !in others)
  }

  /** The high-threat rows, `None` when there are none. */
  function Threats(diff: seq<Row>): (t: Option<seq<Row>>)
    ensures t.None? <==> forall r :: r in diff ==> !HighThreat(r)
    ensures t.Some? ==> forall r :: r in t.value <==> r in diff && HighThreat(r)
  {
    var threat := Filter(diff, HighThreat);
    if |threat| > 0 then
      assert threat[0] in threat;
      Some(threat)
    else None
  }

  /** `mini_league_strategy`: the players only I have, the players only the
      rival has, and the rival's dangerous ones. */
  function MiniLeagueStrategy(rows: seq<Row>, mine: seq<int>, rival: seq<int>): (h: HeadToHead)
    ensures forall r :: r in h.myDifferentials <==> r in rows && r.id in mine && r.id !in rival
    ensures forall r :: r in h.rivalDifferentials <==> r in rows && r.id in rival && r.id !in mine
    ensures forall r :: r in h.myDifferentials ==> r !in h.rivalDifferentials
    ensures h.highThreat.None? <==> forall r :: r in h.rivalDifferentials ==> !HighThreat(r)
    ensures h.highThreat.Some? ==>
              forall r :: r in h.highThreat.value <==> r in h.rivalDifferentials && HighThreat(r)
  {
    var rivalDiff := Differentials(rows, rival, mine);
    HeadToHead(Differentials(rows, mine, rival), rivalDiff, Threats(rivalDiff))
  }
}

=== FILE: analyzer.dfy ===
/** The selection side of `FPLPlayerAnalyzer` (fpl_player_analyzer.py;
    analyze_my_team.py repeats the class line for line): fixture difficulty,
    best players and transfer recommendations. The squad builder is in
    `Squad`/`SquadBuilder`, the value score in `Scoring`. */
module Analyzer {
  import opened Wrappers
  import opened Seqs
  import opened Types
  import opened Squad

  /* ---------------------------------------------------------------------
     get_fixture_difficulty
     --------------------------------------------------------------------- */

  /** Sum of a column of integers. */
  function Total(xs: seq<int>): int {
    if xs == [] then 0 else Total(xs[..|xs| - 1]) + xs[|xs| - 1]
  }

  /** `Series.mean()`: `None` (NaN) for an empty column. */
  function Mean(xs: seq<int>): (m: Option<real>)
    ensures m.None? <==> xs == []
  {
    if xs == [] then None else Some(Total(xs) as real / |xs| as real)
  }

  /** `np.nanmean([a, b])`: the mean of the values that are not NaN, NaN when
      both are. */
  function NanMean(a: Option<real>, b: Option<real>): (m: Option<real>)
    ensures m.None? <==> a.None? && b.None?
    ensures a.Some? && b.Some? ==> m == Some((a.value + b.value) / 2.0)
    ensures a.Some? && b.None? ==> m == a
    ensures a.None? && b.Some? ==> m == b
  {
    match (a, b)
    case (Some(x), Some(y)) => Some((x + y) / 2.0)
    case (Some(x), None) => Some(x)
    case (None, Some(y)) => Some(y)
    case (None, None) => None
  }

  /** An unfinished fixture in which `team` plays, home or away. */
  function Pending(team: string): Fixture -> bool {
    (f: Fixture) => !f.finished && (f.homeTeam == Some(team) || f.awayTeam == Some(team))
  }

  /** The team's next `n` unfinished fixtures, home or away, in table order:
      a prefix of all of them, `head(n)` long (a negative `n` drops that
      many from the end). */
  function Upcoming(fixtures: seq<Fixture>, team: string, n: int): (up: seq<Fixture>)
    ensures forall f :: f in up ==> f in fixtures && !f.finished && (f.homeTeam == Some(team) || f.awayTeam == Some(team))
    ensures n >= 0 ==> |up| <= n
    ensures |up| <= |Filter(fixtures, Pending(team))|
    ensures up == Filter(fixtures, Pending(team))[..|up|]
    ensures |up| == if n >= 0 then Min(n, Count(fixtures, Pending(team)))
                    else Max(0, Count(fixtures, Pending(team)) + n)
  {
    Take(Filter(fixtures, Pending(team)), n)
  }

  /** `team` is the home side / the away side of a fixture. */
  function HomeOf(team: string): Fixture -> bool {
    (f: Fixture) => f.homeTeam == Some(team)
  }
  function AwayOf(team: string): Fixture -> bool {
    (f: Fixture) => f.awayTeam == Some(team)
  }

  /** The `team_h_difficulty` and `team_a_difficulty` columns. */
  function HomeRating(f: Fixture): int {
    f.homeDifficulty
  }
  function AwayRating(f: Fixture): int {
    f.awayDifficulty
  }

  /** Home-game difficulties of `team` among `up`: the home rating of each
      fixture `team` hosts, in order. */
  function HomeDifficulties(up: seq<Fixture>, team: string): (hs: seq<int>)
    ensures hs == Map(Filter(up, HomeOf(team)), HomeRating)
    ensures |hs| <= |up|
  {
    if up == [] then []
    else
      var f := up[|up| - 1];
      var front := up[..|up| - 1];
      assert up == front + [f];
      FilterSnoc(front, f, HomeOf(team));
      MapSnoc(Filter(front, HomeOf(team)), f, HomeRating);
      HomeDifficulties(front, team) + (if f.homeTeam == Some(team) then [f.homeDifficulty] else [])
  }

  /** Away-game difficulties of `team` among `up`: the away rating of each
      fixture `team` visits, in order. */
  function AwayDifficulties(up: seq<Fixture>, team: string): (as_: seq<int>)
    ensures as_ == Map(Filter(up, AwayOf(team)), AwayRating)
  {
    if up == [] then []
    else
      var f := up[|up| - 1];
      var front := up[..|up| - 1];
      assert up == front + [f];
      FilterSnoc(front, f, AwayOf(team));
      MapSnoc(Filter(front, AwayOf(team)), f, AwayRating);
      AwayDifficulties(front, team) + (if f.awayTeam == Some(team) then [f.awayDifficulty] else [])
  }

  /** Every upcoming fixture is a home or an away game of the team, so a
      team with fixtures has a home or an away mean: the NaN fallback after
      `nanmean` never fires. */
  lemma {:induction false} SomeSide(up: seq<Fixture>, team: string)
    requires forall f :: f in up ==> f.homeTeam == Some(team) || f.awayTeam == Some(team)
    ensures up != [] ==> HomeDifficulties(up, team) != [] || AwayDifficulties(up, team) != []
    decreases |up|
  {
    if up != [] {
      var f := up[|up| - 1];
      assert f in up;
      var front := up[..|up| - 1];
      if f.homeTeam != Some(team) {
        assert AwayDifficulties(up, team) == AwayDifficulties(front, team) + [f.awayDifficulty];
      } else {
        assert HomeDifficulties(up, team) == HomeDifficulties(front, team) + [f.homeDifficulty];
      }
    }
  }

  /** `get_fixture_difficulty`: 3 when the team has no upcoming fixture;
      otherwise the mean of the home-game mean and the away-game mean (each
      side weighs the same however many games it has), or the one side that
      exists. */
  function GetFixtureDifficulty(fixtures: seq<Fixture>, team: string, n: int): (d: real)
    ensures var up := Upcoming(fixtures, team, n);
            var hs, as_ := HomeDifficulties(up, team), AwayDifficulties(up, team);
            && (up == [] ==> d == 3.0)
            && (up != [] ==> hs != [] || as_ != [])
            && (hs != [] && as_ != [] ==> d == (Mean(hs).value + Mean(as_).value) / 2.0)
            && (hs != [] && as_ == [] ==> d == Mean(hs).value)
            && (hs == [] && as_ != [] ==> d == Mean(as_).value)
  {
    SomeSide(Upcoming(fixtures, team, n), team);
    var up := Upcoming(fixtures, team, n);
    if |up| == 0 then 3.0
    else
      match NanMean(Mean(HomeDifficulties(up, team)), Mean(AwayDifficulties(up, team)))
      case Some(m) => m
      case None => 3.0
  }

  /** Every value of `xs` in [lo, hi] puts the total in [lo·n, hi·n]. */
  lemma {:induction false} TotalBounds(xs: seq<int>, lo: int, hi: int)
    requires forall i :: 0 <= i < |xs| ==> lo <= xs[i] <= hi
    ensures lo * |xs| <= Total(xs) <= hi * |xs|
  {
    if xs != [] {
      var init, n := xs[..|xs| - 1], |xs| - 1;
      TotalBounds(init, lo, hi);
      assert Total(xs) == Total(init) + xs[n];
      assert lo <= xs[n] <= hi;
      assert lo * |xs| == lo * n + lo;
      assert hi * |xs| == hi * n + hi;
    }
  }

  lemma QuotientBounds(t: real, n: real, lo: real, hi: real)
    requires 0.0 < n && lo * n <= t <= hi * n
    ensures lo <= t / n <= hi
  {
    assert (t / n) * n == t;
  }

  /** A mean lies between the column's bounds. */
  lemma MeanBounds(xs: seq<int>, lo: int, hi: int)
    requires xs != []
    requires forall i :: 0 <= i < |xs| ==> lo <= xs[i] <= hi
    ensures lo as real <= Mean(xs).value <= hi as real
  {
    TotalBounds(xs, lo, hi);
    QuotientBounds(Total(xs) as real, |xs| as real, lo as real, hi as real);
  }

  lemma {:induction false} HomeDifficultiesIn(up: seq<Fixture>, team: string, lo: int, hi: int)
    requires forall f :: f in up ==> lo <= f.homeDifficulty <= hi
    ensures forall i :: 0 <= i < |HomeDifficulties(up, team)| ==> lo <= HomeDifficulties(up, team)[i] <= hi
  {
    if up != [] {
      HomeDifficultiesIn(up[..|up| - 1], team, lo, hi);
      assert up[|up| - 1] in up;
    }
  }

  lemma {:induction false} AwayDifficultiesIn(up: seq<Fixture>, team: string, lo: int, hi: int)
    requires forall f :: f in up ==> lo <= f.awayDifficulty <= hi
    ensures forall i :: 0 <= i < |AwayDifficulties(up, team)| ==> lo <= AwayDifficulties(up, team)[i] <= hi
  {
    if up != [] {
      AwayDifficultiesIn(up[..|up| - 1], team, lo, hi);
      assert up[|up| - 1] in up;
    }
  }

  /** With every difficulty rating in [lo, hi] and the neutral 3 in that
      range too, the team's fixture difficulty lies in [lo, hi]: FPL's 1-5
      ratings give a difficulty in [1, 5]. */
  lemma FixtureDifficultyBounded(fixtures: seq<Fixture>, team: string, n: int, lo: int, hi: int)
    requires lo <= 3 <= hi
    requires forall f :: f in fixtures ==> lo <= f.homeDifficulty <= hi && lo <= f.awayDifficulty <= hi
    ensures lo as real <= GetFixtureDifficulty(fixtures, team, n) <= hi as real
  {
    var up := Upcoming(fixtures, team, n);
    var hs, as_ := HomeDifficulties(up, team), AwayDifficulties(up, team);
    HomeDifficultiesIn(up, team, lo, hi);
    AwayDifficultiesIn(up, team, lo, hi);
    if hs != [] { MeanBounds(hs, lo, hi); }
    if as_ != [] { MeanBounds(as_, lo, hi); }
  }

  /** The two sides weigh the same: two easy home games (2) and one hard away
      game (5) rate 3.5, not the per-fixture mean 3. */
  lemma SidesWeighEqually()
    ensures GetFixtureDifficulty(ExampleRun(), "ARS", 5) == 3.5
  {
    ExampleUpcoming();
    ExampleHome();
    ExampleAway();
    assert Mean([2, 2]) == Some(2.0) by {
      assert [2, 2][..1] == [2] && [2][..0] == [];
      assert Total([2, 2]) == 4;
    }
    assert Mean([5]) == Some(5.0) by {
      assert [5][..0] == [];
      assert Total([5]) == 5;
    }
  }

  function ExampleRun(): seq<Fixture> {
    [Fixture(Some(1), false, Some("ARS"), Some("CHE"), 2, 4),
     Fixture(Some(2), false, Some("ARS"), Some("LIV"), 2, 4),
     Fixture(Some(3), false, Some("MCI"), Some("ARS"), 3, 5)]
  }

  lemma ExampleUpcoming()
    ensures Upcoming(ExampleRun(), "ARS", 5) == ExampleRun()
  {
    FilterAll(ExampleRun(), Pending("ARS"));
  }

  lemma ExampleHome()
    ensures HomeDifficulties(ExampleRun(), "ARS") == [2, 2]
  {
    var fs := ExampleRun();
    assert fs[..2] == [fs[0], fs[1]] && [fs[0], fs[1]][..1] == [fs[0]] && [fs[0]][..0] == [];
    assert fs[2].homeTeam != Some("ARS") by { assert fs[2].homeTeam.value[0] != 'A'; }
    assert HomeDifficulties([fs[0]], "ARS") == [2];
    assert HomeDifficulties([fs[0], fs[1]], "ARS") == [2, 2];
  }

  lemma ExampleAway()
    ensures AwayDifficulties(ExampleRun(), "ARS") == [5]
  {
    var fs := ExampleRun();
    assert fs[..2] == [fs[0], fs[1]] && [fs[0], fs[1]][..1] == [fs[0]] && [fs[0]][..0] == [];
    assert fs[0].awayTeam != Some("ARS") by { assert fs[0].awayTeam.value[0] != 'A'; }
    assert fs[1].awayTeam != Some("ARS") by { assert fs[1].awayTeam.value[0] != 'A'; }
    assert AwayDifficulties([fs[0]], "ARS") == [];
    assert AwayDifficulties([fs[0], fs[1]], "ARS") == [];
  }

  /* ---------------------------------------------------------------------
     recommend_best_players
     --------------------------------------------------------------------- */

  /** Whether a row passes the optional position filter (`if position:`). */
  predicate AtPosition(r: Row, position: Option<Position>) {
    position.None? || r.position == position.value
  }

  /** The rows passing the position filter. */
  function Eligible(rows: seq<Row>, position: Option<Position>): (pool: seq<Row>)
    ensures forall r :: r in pool <==> r in rows && AtPosition(r, position)
  {
    Filter(rows, (r: Row) => AtPosition(r, position))
  }

  /** `recommend_best_players`: the `topN` best-scored rows, restricted to
      one position when one is given, best first. */
  function RecommendBestPlayers(rows: seq<Row>, position: Option<Position>, topN: int): (best: seq<Row>)
    ensures |best| == (if topN <= 0 then 0 else Min(topN, |Eligible(rows, position)|))
    ensures forall r :: r in best ==> r in rows && AtPosition(r, position)
    ensures multiset(best) <= multiset(Eligible(rows, position))
    ensures SortedDesc(best, ValueScore)
  {
    NLargest(Eligible(rows, position), topN, ValueScore)
  }

  /** Every row passing the filter that is left out scores no higher than
      any row recommended. */
  lemma BestPlayersDominate(rows: seq<Row>, position: Option<Position>, topN: int, x: Row, k: int)
    requires x in rows && AtPosition(x, position)
    requires x !in RecommendBestPlayers(rows, position, topN)
    requires 0 <= k < |RecommendBestPlayers(rows, position, topN)|
    ensures x.valueScore <= RecommendBestPlayers(rows, position, topN)[k].valueScore
  {
    NLargestDominates(Eligible(rows, position), topN, ValueScore, x, k);
  }

  /* ---------------------------------------------------------------------
     recommend_transfers
     --------------------------------------------------------------------- */

  /** One recommended swap. Prices are in tenths. */
  datatype Transfer = Transfer(
    position: Position,
    outgoing: Row,
    incoming: Row,
    priceChange: int,
    improvement: real,
    teamCountAfter: int)

  /** Players not in the current team. */
  function Others(rows: seq<Row>, ids: seq<int>): (others: seq<Row>)
    ensures forall r :: r in others <==> r in rows && r.id !in ids
  {
    Filter(rows, (r: Row) => r.id !in ids)
  }

  /** A replacement for `out`: same position, priced within 1.5 either way,
      scored strictly higher, available. */
  predicate Upgrade(out: Row, cand: Row) {
    && cand.position == out.position
    && out.price - 15 <= cand.price <= out.price + 15
    && cand.valueScore > out.valueScore
    && IsAvailable(cand.status)
  }

  /** The club count after bringing `inc` in for `out`; `None` is the
      `continue` for a third club already holding 3. */
  function TeamCountAfter(current: seq<Row>, out: Row, inc: Row): (after: Option<int>)
    ensures after.None? <==> 0 < ClubCount(current, inc.club) && inc.club != out.club
                             && ClubCount(current, inc.club) >= ClubCap
  {
    var n := ClubCount(current, inc.club);
    if n > 0 then
      if inc.club == out.club then Some(n)
      else if n >= ClubCap then None
      else Some(n + 1)
    else Some(1)
  }

  /** Replacing one player changes each club count by what leaves and what
      comes in. */
  lemma {:induction false} ClubCountUpdate(s: seq<Row>, i: int, x: Row, c: string)
    requires 0 <= i < |s|
    ensures ClubCount(s[i := x], c)
            == ClubCount(s, c) - (if s[i].club == c then 1 else 0) + (if x.club == c then 1 else 0)
    decreases |s|
  {
    var n := |s| - 1;
    if i < n {
      ClubCountUpdate(s[..n], i, x, c);
      assert s[i := x][..n] == s[..n][i := x];
    } else {
      assert s[i := x][..n] == s[..n];
    }
  }

  /** `team_count_after` is the incoming player's club count in the squad
      after the swap. */
  lemma TeamCountAfterIsSwapCount(current: seq<Row>, i: int, inc: Row)
    requires 0 <= i < |current|
    requires TeamCountAfter(current, current[i], inc).Some?
    ensures TeamCountAfter(current, current[i], inc).value == ClubCount(current[i := inc], inc.club)
  {
    ClubCountUpdate(current, i, inc, inc.club);
    if ClubCount(current, inc.club) == 0 {
      assert current[i].club != inc.club by {
        ClubCountUpdate(current, i, current[i], current[i].club);
        ClubCountOf(current, i);
      }
    }
  }

  lemma {:induction false} ClubCountOf(s: seq<Row>, i: int)
    requires 0 <= i < |s|
    ensures ClubCount(s, s[i].club) > 0
    decreases |s|
  {
    if i < |s| - 1 {
      ClubCountOf(s[..|s| - 1], i);
    }
  }

  /** What the loop body checks of a swap, given the current team. */
  predicate Offer(current: seq<Row>, t: Transfer) {
    && t.position == t.outgoing.position
    && t.priceChange == t.incoming.price - t.outgoing.price
    && t.improvement == t.incoming.valueScore - t.outgoing.valueScore
    && TeamCountAfter(current, t.outgoing, t.incoming) == Some(t.teamCountAfter)
    && t.teamCountAfter <= ClubCap
  }

  /** Everything every recommendation satisfies: a current player out, an
      available upgrade from outside the team in, and the club rule kept. */
  ghost predicate Sound(rows: seq<Row>, ids: seq<int>, t: Transfer) {
    && t.outgoing in rows && t.outgoing.id in ids
    && t.incoming in rows && t.incoming.id !in ids
    && Upgrade(t.outgoing, t.incoming)
    && t.improvement > 0.0
    && Offer(Selected(rows, ids), t)
  }

  /** `Upgrade(out, _)` as a mask. */
  function UpgradeOf(out: Row): Row -> bool {
    (c: Row) => Upgrade(out, c)
  }

  /** The (at most 100) best upgrades on offer for `out`, best first: every
      upgrade in the pool is kept unless 100 better-scored ones are. */
  function Replacements(pool: seq<Row>, out: Row): (repl: seq<Row>)
    ensures forall r :: r in repl ==> r in pool && Upgrade(out, r)
    ensures multiset(repl) <= multiset(Filter(pool, UpgradeOf(out)))
    ensures |repl| == Min(100, Count(pool, UpgradeOf(out)))
    ensures SortedDesc(repl, ValueScore)
    ensures forall x, k :: x in pool && Upgrade(out, x) && x !in repl && 0 <= k < |repl| ==>
              x.valueScore <= repl[k].valueScore
  {
    var ups := Filter(pool, UpgradeOf(out));
    var repl := NLargest(ups, 100, ValueScore);
    forall x, k | x in pool && Upgrade(out, x) && x !in repl && 0 <= k < |repl|
      ensures x.valueScore <= repl[k].valueScore
    {
      NLargestDominates(ups, 100, ValueScore, x, k);
    }
    repl
  }

  /** The record the loop appends for `inc` replacing `out`, with the club
      count `n` after the swap. */
  function Swap(out: Row, inc: Row, n: int): Transfer {
    Transfer(out.position, out, inc, inc.price - out.price, inc.valueScore - out.valueScore, n)
  }

  /** The swap passes the club check: not skipped, and at most 3 after. */
  predicate Passes(current: seq<Row>, out: Row, inc: Row) {
    TeamCountAfter(current, out, inc).Some? && TeamCountAfter(current, out, inc).value <= ClubCap
  }

  /** The recommendations for `out`: exactly one per replacement that
      passes the club check, in replacement order. */
  function OffersFor(current: seq<Row>, out: Row, repl: seq<Row>): (offers: seq<Transfer>)
    ensures forall t :: t in offers ==> t.outgoing == out && t.incoming in repl && Offer(current, t)
    ensures forall inc :: inc in repl && Passes(current, out, inc) ==>
              Swap(out, inc, TeamCountAfter(current, out, inc).value) in offers
    ensures |offers| <= |repl|
  {
    if repl == [] then []
    else
      var inc := repl[|repl| - 1];
      var rest := OffersFor(current, out, repl[..|repl| - 1]);
      assert forall x :: x in repl ==> x in repl[..|repl| - 1] || x == inc;
      match TeamCountAfter(current, out, inc)
      case None => rest
      case Some(n) =>
        if n <= ClubCap then rest + [Swap(out, inc, n)]
        else rest
  }

  /** The recommendations for every outgoing player in `outs`, in order:
      each is an upgrade passing the club check. */
  function OffersForAll(current: seq<Row>, outs: seq<Row>, pool: seq<Row>): (offers: seq<Transfer>)
    ensures forall t :: t in offers ==>
              t.outgoing in outs && t.incoming in pool && Upgrade(t.outgoing, t.incoming) && Offer(current, t)
  {
    if outs == [] then []
    else
      var out := outs[|outs| - 1];
      OffersForAll(current, outs[..|outs| - 1], pool) + OffersFor(current, out, Replacements(pool, out))
  }

  /** Nothing is lost on the way: every passing swap of an outgoing player
      for one of their replacements is among the offers. */
  lemma {:induction false} OffersForAllComplete(current: seq<Row>, outs: seq<Row>, pool: seq<Row>, out: Row, inc: Row)
    requires out in outs && inc in Replacements(pool, out) && Passes(current, out, inc)
    ensures Swap(out, inc, TeamCountAfter(current, out, inc).value) in OffersForAll(current, outs, pool)
    decreases |outs|
  {
    var last := outs[|outs| - 1];
    var front := outs[..|outs| - 1];
    assert OffersForAll(current, outs, pool)
           == OffersForAll(current, front, pool) + OffersFor(current, last, Replacements(pool, last));
    if out != last {
      assert out in front;
      OffersForAllComplete(current, front, pool, out, inc);
    }
  }

  function Improvement(t: Transfer): real {
    t.improvement
  }

  /** The candidate swaps at position `p`, in the order the loops meet them. */
  function PositionCandidates(rows: seq<Row>, ids: seq<int>, p: Position): seq<Transfer> {
    var current := Selected(rows, ids);
    OffersForAll(current, Filter(current, (r: Row) => r.position == p),
                 Filter(Others(rows, ids), (r: Row) => r.position == p))
  }

  lemma CandidatesSound(rows: seq<Row>, ids: seq<int>, p: Position, t: Transfer)
    requires t in PositionCandidates(rows, ids, p)
    ensures t.position == p && Sound(rows, ids, t)
  {
  }

  /** One position's list: the three largest improvements (over all its
      outgoing players together, not three per player). */
  function PositionOffers(rows: seq<Row>, ids: seq<int>, p: Position): (top: seq<Transfer>)
    ensures |top| <= 3
    ensures |top| == Min(3, |PositionCandidates(rows, ids, p)|)
    ensures SortedDesc(top, Improvement)
    ensures forall t :: t in top ==> t.position == p && t in PositionCandidates(rows, ids, p)
    ensures multiset(top) <= multiset(PositionCandidates(rows, ids, p))
  {
    var offers := PositionCandidates(rows, ids, p);
    forall t | t in offers ensures t.position == p {
      CandidatesSound(rows, ids, p, t);
    }
    SortTake(offers, 3, Improvement)
  }

  /** A candidate swap that misses its position's list improves no more
      than any swap on it. */
  lemma PositionOffersDominate(rows: seq<Row>, ids: seq<int>, p: Position, t: Transfer, k: int)
    requires t in PositionCandidates(rows, ids, p) && t !in PositionOffers(rows, ids, p)
    requires 0 <= k < |PositionOffers(rows, ids, p)|
    ensures t.improvement <= PositionOffers(rows, ids, p)[k].improvement
  {
    SortTakeDominates(PositionCandidates(rows, ids, p), 3, Improvement, t, k);
  }

  /** From the team to a position's list: an upgrade for a current player
      at `p`, among that player's replacements and passing the club check,
      is on the list or improves no more than any swap that is. */
  lemma UpgradeConsidered(rows: seq<Row>, ids: seq<int>, p: Position, out: Row, inc: Row, k: int)
    requires out in rows && out.id in ids && out.position == p
    requires inc in Replacements(Filter(Others(rows, ids), (r: Row) => r.position == p), out)
    requires Passes(Selected(rows, ids), out, inc)
    requires 0 <= k < |PositionOffers(rows, ids, p)|
    ensures var t := Swap(out, inc, TeamCountAfter(Selected(rows, ids), out, inc).value);
            t in PositionOffers(rows, ids, p) || t.improvement <= PositionOffers(rows, ids, p)[k].improvement
  {
    var t := Swap(out, inc, TeamCountAfter(Selected(rows, ids), out, inc).value);
    var current := Selected(rows, ids);
    OffersForAllComplete(current, Filter(current, (r: Row) => r.position == p),
                         Filter(Others(rows, ids), (r: Row) => r.position == p), out, inc);
    assert t in PositionCandidates(rows, ids, p);
    if t !in PositionOffers(rows, ids, p) {
      PositionOffersDominate(rows, ids, p, t, k);
    }
  }

  /** The recommendations at position `p`. */
  function At(p: Position): Transfer -> bool {
    (t: Transfer) => t.position == p
  }

  function CountAt(ts: seq<Transfer>, p: Position): nat {
    |Filter(ts, At(p))|
  }

  /** One position's list holds only that position, at most 3 of it. */
  lemma PositionOffersAt(rows: seq<Row>, ids: seq<int>, q: Position, p: Position)
    ensures CountAt(PositionOffers(rows, ids, q), p) <= (if p == q then 3 else 0)
  {
    if p != q {
      FilterNone(PositionOffers(rows, ids, q), At(p));
    }
  }

  /** The per-position lists, GK to FWD. */
  function Offers(rows: seq<Row>, ids: seq<int>): (all: seq<Transfer>)
    ensures |all| <= 12
  {
    PositionOffers(rows, ids, GK) + PositionOffers(rows, ids, DEF)
    + PositionOffers(rows, ids, MID) + PositionOffers(rows, ids, FWD)
  }

  /** Every entry of every position's list reaches the overall list. */
  lemma OffersCover(rows: seq<Row>, ids: seq<int>, p: Position, t: Transfer)
    requires p in Formation && t in PositionOffers(rows, ids, p)
    ensures t in Offers(rows, ids)
  {
    var g, d, m, f := PositionOffers(rows, ids, GK), PositionOffers(rows, ids, DEF),
                      PositionOffers(rows, ids, MID), PositionOffers(rows, ids, FWD);
    assert Offers(rows, ids) == g + d + m + f;
    var k := Rank(p);
    assert Formation[k] == p;
    if k == 0 {
      assert t in g;
    } else if k == 1 {
      assert t in d;
    } else if k == 2 {
      assert t in m;
    } else {
      assert p == FWD;
      assert t in f;
    }
  }

  /** At most 3 recommendations per position reach the overall list. */
  lemma OffersPerPosition(rows: seq<Row>, ids: seq<int>, p: Position)
    ensures CountAt(Offers(rows, ids), p) <= 3
  {
    var g, d, m, f := PositionOffers(rows, ids, GK), PositionOffers(rows, ids, DEF),
                      PositionOffers(rows, ids, MID), PositionOffers(rows, ids, FWD);
    FilterAppend(g, d, At(p));
    FilterAppend(g + d, m, At(p));
    FilterAppend(g + d + m, f, At(p));
    PositionOffersAt(rows, ids, GK, p);
    PositionOffersAt(rows, ids, DEF, p);
    PositionOffersAt(rows, ids, MID, p);
    PositionOffersAt(rows, ids, FWD, p);
  }

  /** Any part of the per-position lists holds at most 3 of any position. */
  lemma CapAt(rows: seq<Row>, ids: seq<int>, recs: seq<Transfer>, p: Position)
    requires multiset(recs) <= multiset(Offers(rows, ids))
    ensures CountAt(recs, p) <= 3
  {
    OffersPerPosition(rows, ids, p);
    FilterMonotone(recs, Offers(rows, ids), At(p));
  }

  /** Each entry of the per-position lists is a candidate swap at one of
      the four positions. */
  lemma OffersFrom(rows: seq<Row>, ids: seq<int>, t: Transfer)
    requires t in Offers(rows, ids)
    ensures t.position in Formation && t in PositionCandidates(rows, ids, t.position)
  {
  }
}

/** `recommend_transfers` itself: the overall cut over the per-position
    lists of `Analyzer`. */
module TransferPlanner {
  import opened Wrappers
  import opened Seqs
  import opened Types
  import opened Analyzer

  /** The overall cut: the `n` largest improvements, or nothing when
      there is nothing to cut from. Each position keeps at most what it had. */
  function Cut(all: seq<Transfer>, n: int): (recs: seq<Transfer>)
    ensures multiset(recs) <= multiset(all)
    ensures SortedDesc(recs, Improvement)
    ensures |recs| <= |all|
    ensures |recs| == if n >= 0 then Min(n, |all|) else Max(0, |all| + n)
    ensures forall p :: CountAt(recs, p) <= CountAt(all, p)
  {
    var recs := if all == [] then [] else SortTake(all, n, Improvement);
    forall p ensures CountAt(recs, p) <= CountAt(all, p) {
      FilterMonotone(recs, all, At(p));
    }
    recs
  }

  /** An offer the cut leaves out improves no more than any it keeps. */
  lemma CutDominates(all: seq<Transfer>, n: int, t: Transfer, k: int)
    requires t in all && t !in Cut(all, n)
    requires 0 <= k < |Cut(all, n)|
    ensures t.improvement <= Cut(all, n)[k].improvement
  {
    SortTakeDominates(all, n, Improvement, t, k);
  }

  /** Why `recommend_transfers` raises: a slice that keeps no offer gives a
      frame with no columns, and dropping `team_count_after` from it is a
      `KeyError`. */
  datatype TransferError = NoColumnToDrop

  /** The slice `[:3 * transfersAvailable]` of a non-empty offer list keeps
      nothing: no transfer allowed, or a negative allowance dropping every
      offer from the end. */
  predicate EmptySlice(offers: int, transfersAvailable: int) {
    offers > 0 && (transfersAvailable == 0 || offers + 3 * transfersAvailable <= 0)
  }

  /** `recommend_transfers`: per position, the three best upgrades of the
      current team's players; overall, the `transfersAvailable * 3` largest
      improvements among those (a Python slice, so a negative bound drops
      from the end). An empty table when no upgrade qualifies; a failure
      when upgrades qualify but the slice keeps none of them. */
  function RecommendTransfers(rows: seq<Row>, ids: seq<int>, transfersAvailable: int): (res: Result<seq<Transfer>, TransferError>)
    ensures res.Failure? <==> EmptySlice(|Offers(rows, ids)|, transfersAvailable)
    ensures res.Success? ==> multiset(res.value) <= multiset(Offers(rows, ids))
    ensures res.Success? ==> SortedDesc(res.value, Improvement)
    ensures res.Success? ==> |res.value| <= 12
    ensures res.Success? ==> (res.value == [] <==> Offers(rows, ids) == [])
  {
    Overall(Offers(rows, ids), transfersAvailable)
  }

  /** The overall step of `recommend_transfers` over the collected offers
      `all`: the table is empty when `all` is, the slice when it keeps
      something, and a failure otherwise. */
  function Overall(all: seq<Transfer>, transfersAvailable: int): (res: Result<seq<Transfer>, TransferError>)
    ensures res.Failure? <==> EmptySlice(|all|, transfersAvailable)
    ensures res.Success? ==> multiset(res.value) <= multiset(all) && SortedDesc(res.value, Improvement)
    ensures res.Success? ==> |res.value| <= |all|
    ensures res.Success? ==> (res.value == [] <==> all == [])
    ensures res.Success? ==> |res.value| == if transfersAvailable >= 0 then Min(3 * transfersAvailable, |all|)
                                             else Max(0, |all| + 3 * transfersAvailable)
    ensures res.Success? && all != [] ==> res.value == Cut(all, 3 * transfersAvailable)
  {
    if all == [] then Success([])
    else
      var recs := Cut(all, 3 * transfersAvailable);
      if recs == [] then Failure(NoColumnToDrop) else Success(recs)
  }

  /** The overall cut keeps `3 * transfersAvailable` offers, or all when
      fewer qualify; a negative bound drops that many from the end. */
  lemma RecommendCount(rows: seq<Row>, ids: seq<int>, transfersAvailable: int)
    requires RecommendTransfers(rows, ids, transfersAvailable).Success?
    ensures var n, all := |RecommendTransfers(rows, ids, transfersAvailable).value|, |Offers(rows, ids)|;
            && (transfersAvailable >= 0 ==> n == Min(3 * transfersAvailable, all))
            && (transfersAvailable < 0 ==> n == Max(0, all + 3 * transfersAvailable))
  {
  }

  /** No position has more than 3 recommendations. */
  lemma RecommendPerPosition(rows: seq<Row>, ids: seq<int>, transfersAvailable: int, p: Position)
    requires RecommendTransfers(rows, ids, transfersAvailable).Success?
    ensures CountAt(RecommendTransfers(rows, ids, transfersAvailable).value, p) <= 3
  {
    CapAt(rows, ids, RecommendTransfers(rows, ids, transfersAvailable).value, p);
  }

  /** A per-position offer the overall cut leaves out improves no more
      than any recommendation kept. */
  lemma RecommendDominates(rows: seq<Row>, ids: seq<int>, transfersAvailable: int, t: Transfer, k: int)
    requires RecommendTransfers(rows, ids, transfersAvailable).Success?
    requires t in Offers(rows, ids) && t !in RecommendTransfers(rows, ids, transfersAvailable).value
    requires 0 <= k < |RecommendTransfers(rows, ids, transfersAvailable).value|
    ensures t.improvement <= RecommendTransfers(rows, ids, transfersAvailable).value[k].improvement
  {
    CutDominates(Offers(rows, ids), 3 * transfersAvailable, t, k);
  }

  /** Every recommendation is sound: a current player out, an available
      upgrade from outside the team in, the club rule kept. */
  lemma TransfersSound(rows: seq<Row>, ids: seq<int>, transfersAvailable: int, t: Transfer)
    requires RecommendTransfers(rows, ids, transfersAvailable).Success?
    requires t in RecommendTransfers(rows, ids, transfersAvailable).value
    ensures t.position in Formation && Sound(rows, ids, t)
  {
    assert t in multiset(Offers(rows, ids));
    OffersFrom(rows, ids, t);
    CandidatesSound(rows, ids, t.position, t);
  }
}

=== FILE: app.dfy ===
/** `FPLAssistant` (fpl_main_app.py): the saved team and the queries the
    assistant answers itself rather than handing to an analyzer. Loading and
    writing the team file is not modelled: the team read at start-up is a
    parameter. */
module App {
  import opened Wrappers
  import opened Seqs
  import opened Types
  import opened Scoring
  import opened Analyzer
  import opened TransferPlanner

  /** The team a manager saved: the ids as given and the rows they name. */
  datatype SavedTeam = SavedTeam(playerIds: seq<int>, players: seq<Row>)

  /** The assistant's state: the scored player table and the saved team. */
  datatype Assistant = Assistant(rows: seq<Row>, myTeam: Option<SavedTeam>)

  /** A squad has this many players. */
  const SquadSize: nat := 15

  /** `initialize`: scores the players as the analyzer does, a missing
      chance of playing filled with 0 (`Scoring.MissingChanceHalved` shows
      what that costs a fit player), and takes the saved team found on disk,
      if any. Fails exactly when no player has minutes. */
  function Initialize(players: seq<Player>, saved: Option<SavedTeam>): (res: Result<Assistant, ScoreError>)
    ensures res.Failure? <==> forall p :: p in players ==> !Played(p)
    ensures res.Success? ==> res.value.myTeam == saved
    ensures res.Success? ==> |res.value.rows| == Count(players, Played)
    ensures res.Success? ==> ScoredFrom(res.value.rows, Filter(players, Played), MissingAsZero)
    ensures res.Success? ==> forall r :: r in res.value.rows ==> r.minutes > 0 && 0.0 <= r.valueScore <= 1.0
  {
    match CalculateValueScore(players, MissingAsZero)
    case Failure(e) => Failure(e)
    case Success(rows) => Success(Assistant(rows, saved))
  }

  /** `save_my_team(ids)`: anything but exactly 15 ids leaves the assistant
      as it was; otherwise the saved team is those ids, as given, with the
      table's rows whose id is among them. */
  function SaveMyTeam(a: Assistant, ids: seq<int>): (b: Assistant)
    ensures |ids| != SquadSize ==> b == a
    ensures b.rows == a.rows
    ensures |ids| == SquadSize ==> b.myTeam.Some? && b.myTeam.value.playerIds == ids
    ensures |ids| == SquadSize ==> forall r :: r in b.myTeam.value.players <==> r in a.rows && r.id in ids
  {
    if |ids| != SquadSize then a
    else Assistant(a.rows, Some(SavedTeam(ids, Selected(a.rows, ids))))
  }

  /** `get_transfer_recommendations(transfers_available)`: nothing without
      a saved team; otherwise the analyzer's answer for the saved ids, which
      fails where `recommend_transfers` raises. */
  function GetTransferRecommendations(a: Assistant, transfersAvailable: int): (recs: Option<Result<seq<Transfer>, TransferError>>)
    ensures recs.None? <==> a.myTeam.None?
    ensures recs.Some? ==>
              (recs.value.Failure? <==> EmptySlice(|Offers(a.rows, a.myTeam.value.playerIds)|, transfersAvailable))
    ensures recs.Some? && recs.value.Success? ==>
              |recs.value.value| <= 12 && SortedDesc(recs.value.value, Improvement)
    ensures recs.Some? && recs.value.Success? ==>
              multiset(recs.value.value) <= multiset(Offers(a.rows, a.myTeam.value.playerIds))
    ensures recs.Some? && recs.value.Success? && transfersAvailable >= 0 ==>
              |recs.value.value| == Min(3 * transfersAvailable, |Offers(a.rows, a.myTeam.value.playerIds)|)
  {
    match a.myTeam
    case None => None
    case Some(t) =>
      var res := RecommendTransfers(a.rows, t.playerIds, transfersAvailable);
      if res.Failure? then Some(res)
      else
        RecommendCount(a.rows, t.playerIds, transfersAvailable);
        Some(res)
  }

  /** A per-position offer for the saved team that is not recommended
      improves no more than any recommendation. */
  lemma RecommendationsBest(a: Assistant, transfersAvailable: int, t: Transfer, k: int)
    requires GetTransferRecommendations(a, transfersAvailable).Some?
    requires GetTransferRecommendations(a, transfersAvailable).value.Success?
    requires t in Offers(a.rows, a.myTeam.value.playerIds)
    requires t !in GetTransferRecommendations(a, transfersAvailable).value.value
    requires 0 <= k < |GetTransferRecommendations(a, transfersAvailable).value.value|
    ensures t.improvement <= GetTransferRecommendations(a, transfersAvailable).value.value[k].improvement
  {
    RecommendDominates(a.rows, a.myTeam.value.playerIds, transfersAvailable, t, k);
  }

  /** Saving a squad and then asking for transfers recommends for exactly
      that squad; a rejected save changes nothing. */
  lemma SaveThenRecommend(a: Assistant, ids: seq<int>, transfersAvailable: int)
    ensures |ids| == SquadSize ==>
              GetTransferRecommendations(SaveMyTeam(a, ids), transfersAvailable)
                == Some(RecommendTransfers(a.rows, ids, transfersAvailable))
    ensures |ids| != SquadSize ==>
              GetTransferRecommendations(SaveMyTeam(a, ids), transfersAvailable)
                == GetTransferRecommendations(a, transfersAvailable)
  {
  }

  /** Every transfer recommended for the saved team takes one of its
      players out and brings in an available upgrade from outside it. */
  lemma RecommendationsSound(a: Assistant, transfersAvailable: int, t: Transfer)
    requires GetTransferRecommendations(a, transfersAvailable).Some?
    requires GetTransferRecommendations(a, transfersAvailable).value.Success?
    requires t in GetTransferRecommendations(a, transfersAvailable).value.value
    ensures t.outgoing in a.rows && t.outgoing.id in a.myTeam.value.playerIds
    ensures t.incoming in a.rows && t.incoming.id !in a.myTeam.value.playerIds
    ensures t.improvement > 0.0
  {
    TransfersSound(a.rows, a.myTeam.value.playerIds, transfersAvailable, t);
  }

  /* ---------------------------------------------------------------------
     search_player
     --------------------------------------------------------------------- */

  /** ASCII lower case: `A`..`Z` to `a`..`z`, every other character kept. */
  function Lower(c: char): (d: char)
    ensures 'A' <= c <= 'Z' ==> 'a' <= d <= 'z' && d as int - c as int == 32
    ensures !('A' <= c <= 'Z') ==> d == c
  {
    if 'A' <= c <= 'Z' then (c as int + 32) as char else c
  }

  function LowerStr(s: string): (t: string)
    ensures |t| == |s|
    ensures forall i :: 0 <= i < |s| ==> t[i] == Lower(s[i])
  {
    Map(s, Lower)
  }

  /** Lowering twice is lowering once. */
  lemma LowerIdempotent(s: string)
    ensures LowerStr(LowerStr(s)) == LowerStr(s)
  {
    assert forall i :: 0 <= i < |s| ==> LowerStr(LowerStr(s))[i] == LowerStr(s)[i];
  }

  /** `needle` starts at position `i` of `hay`. */
  predicate OccursAt(hay: string, needle: string, i: int) {
    0 <= i && i + |needle| <= |hay| && hay[i..i + |needle|] == needle
  }

  /** `needle in hay`, scanning from the front. */
  function Contains(hay: string, needle: string): bool
    decreases |hay|
  {
    if |needle| <= |hay| && hay[..|needle|] == needle then true
    else if hay == [] then false
    else Contains(hay[1..], needle)
  }

  /** The scan finds the needle exactly when it occurs somewhere. */
  lemma {:induction false} ContainsIff(hay: string, needle: string)
    ensures Contains(hay, needle) <==> exists i :: OccursAt(hay, needle, i)
    decreases |hay|
  {
    if |needle| <= |hay| && hay[..|needle|] == needle {
      assert OccursAt(hay, needle, 0);
    } else if hay == [] {
    } else {
      ContainsIff(hay[1..], needle);
      forall i | OccursAt(hay[1..], needle, i) ensures OccursAt(hay, needle, i + 1) {
        assert hay[i + 1..i + 1 + |needle|] == hay[1..][i..i + |needle|];
      }
      forall i | OccursAt(hay, needle, i) ensures OccursAt(hay[1..], needle, i - 1) {
        assert hay[1..][i - 1..i - 1 + |needle|] == hay[i..i + |needle|];
      }
    }
  }

  /** `web_name.str.contains(name, case=False)`, the name read literally. */
  predicate NameMatches(r: Row, name: string) {
    Contains(LowerStr(r.name), LowerStr(name))
  }

  function MatchingName(name: string): Row -> bool {
    (r: Row) => NameMatches(r, name)
  }

  /** `search_player(name)`: the rows whose name contains `name` in any
      case, in table order, or nothing when no name does. */
  function SearchPlayer(rows: seq<Row>, name: string): (found: Option<seq<Row>>)
    ensures found.None? <==> forall r :: r in rows ==> !NameMatches(r, name)
    ensures found.Some? ==> forall r :: r in found.value <==> r in rows && NameMatches(r, name)
    ensures found.Some? ==> IsSubseq(found.value, rows)
  {
    var res := Filter(rows, MatchingName(name));
    FilterIsSubseq(rows, MatchingName(name));
    if res == [] then None else Some(res)
  }

  /** The search ignores the case of the query. */
  lemma SearchIgnoresCase(rows: seq<Row>, name: string)
    ensures SearchPlayer(rows, name) == SearchPlayer(rows, LowerStr(name))
  {
    LowerIdempotent(name);
    FilterExt(rows, MatchingName(name), MatchingName(LowerStr(name)));
  }

  /** A row is found exactly when its lower-cased name has the lower-cased
      query somewhere in it. */
  lemma SearchFindsOccurrence(rows: seq<Row>, name: string, r: Row)
    requires r in rows
    ensures (SearchPlayer(rows, name).Some? && r in SearchPlayer(rows, name).value)
            <==> exists i :: OccursAt(LowerStr(r.name), LowerStr(name), i)
  {
    ContainsIff(LowerStr(r.name), LowerStr(name));
  }

  /** The empty query finds every player of a non-empty table. */
  lemma EmptyQueryFindsAll(rows: seq<Row>)
    requires rows != []
    ensures SearchPlayer(rows, "") == Some(rows)
  {
    FilterAll(rows, MatchingName(""));
  }

  /* ---------------------------------------------------------------------
     compare_players, get_my_team_summary
     --------------------------------------------------------------------- */

  /** `compare_players(ids)`: the rows whose id is among `ids`, in table
      order, or nothing when none is. */
  function ComparePlayers(rows: seq<Row>, ids: seq<int>): (players: Option<seq<Row>>)
    ensures players.None? <==> forall r :: r in rows ==> r.id !in ids
    ensures players.Some? ==> forall r :: r in players.value <==> r in rows && r.id in ids
    ensures players.Some? ==> IsSubseq(players.value, rows)
  {
    var team := Selected(rows, ids);
    FilterIsSubseq(rows, (r: Row) => r.id in ids);
    if team == [] then None else Some(team)
  }

  /** The rows saved with a squad are the rows comparing that squad shows. */
  lemma SavedRowsAreCompared(a: Assistant, ids: seq<int>)
    requires |ids| == SquadSize
    requires ComparePlayers(a.rows, ids).Some?
    ensures SaveMyTeam(a, ids).myTeam.value.players == ComparePlayers(a.rows, ids).value
  {
  }

  function Price(r: Row): int { r.price }

  /** The part of `get_my_team_summary` that is computed: the saved team's
      rows, its value in tenths and the mean value score (`None` is the NaN
      of an empty team). */
  datatype Summary = Summary(team: seq<Row>, valueTenths: int, meanScore: Option<real>)

  function GetMyTeamSummary(a: Assistant): (s: Option<Summary>)
    ensures s.None? <==> a.myTeam.None?
    ensures s.Some? ==> forall r :: r in s.value.team <==> r in a.rows && r.id in a.myTeam.value.playerIds
    ensures s.Some? ==> s.value.valueTenths == SumInt(s.value.team, Price)
    ensures s.Some? ==> (s.value.meanScore.None? <==> s.value.team == [])
    ensures s.Some? && s.value.meanScore.Some? ==> IsMean(s.value.meanScore.value, s.value.team)
  {
    match a.myTeam
    case None => None
    case Some(t) =>
      var team := Selected(a.rows, t.playerIds);
      Some(Summary(team, SumInt(team, Price), MeanScore(team)))
  }

  /** `team['value_score'].mean()`: `None` (NaN) for an empty team. */
  function MeanScore(team: seq<Row>): (m: Option<real>)
    ensures m.None? <==> team == []
    ensures m.Some? ==> IsMean(m.value, team)
  {
    if team == [] then None
    else
      QuotientTimes(Sum(team, ValueScore), |team| as real);
      Some(Sum(team, ValueScore) / |team| as real)
  }

  /** `m` is the mean value score of `team`: times the team's size it
      gives the total. */
  predicate IsMean(m: real, team: seq<Row>) {
    m * |team| as real == Sum(team, ValueScore)
  }

  lemma QuotientTimes(t: real, n: real)
    requires n != 0.0
    ensures (t / n) * n == t
  {
  }

  /** A team is worth at least as many tenths as it has players. */
  lemma {:induction false} TeamValueAtLeastSize(team: seq<Row>)
    ensures SumInt(team, Price) >= |team|
    decreases |team|
  {
    if team != [] {
      TeamValueAtLeastSize(team[..|team| - 1]);
    }
  }

  /* ---------------------------------------------------------------------
     get_differentials
     --------------------------------------------------------------------- */

  /** Owned by at most `ownershipMax` percent, more than 180 minutes played,
      available. */
  predicate Differential(r: Row, ownershipMax: real) {
    r.ownership <= ownershipMax && r.minutes > 180 && IsAvailable(r.status)
  }

  function DifferentialBy(ownershipMax: real): Row -> bool {
    (r: Row) => Differential(r, ownershipMax)
  }

  /** `get_differentials(ownership_max, top_n)`: the best-scored
      differentials, best first, at most `top_n`. */
  function GetDifferentials(rows: seq<Row>, ownershipMax: real, topN: int): (ds: seq<Row>)
    ensures |ds| == if topN <= 0 then 0 else Min(topN, Count(rows, DifferentialBy(ownershipMax)))
    ensures forall r :: r in ds ==> r in rows && Differential(r, ownershipMax)
    ensures multiset(ds) <= multiset(Filter(rows, DifferentialBy(ownershipMax)))
    ensures SortedDesc(ds, ValueScore)
  {
    NLargest(Filter(rows, DifferentialBy(ownershipMax)), topN, ValueScore)
  }

  /** A differential left out scores no higher than any one listed. */
  lemma DifferentialsDominate(rows: seq<Row>, ownershipMax: real, topN: int, x: Row, k: int)
    requires x in rows && Differential(x, ownershipMax)
    requires x !in GetDifferentials(rows, ownershipMax, topN)
    requires 0 <= k < |GetDifferentials(rows, ownershipMax, topN)|
    ensures x.valueScore <= GetDifferentials(rows, ownershipMax, topN)[k].valueScore
  {
    NLargestDominates(Filter(rows, DifferentialBy(ownershipMax)), topN, ValueScore, x, k);
  }

  /** Raising the ownership bound never shortens the list. */
  lemma DifferentialsWiden(rows: seq<Row>, lo: real, hi: real, topN: int)
    requires lo <= hi
    ensures |GetDifferentials(rows, lo, topN)| <= |GetDifferentials(rows, hi, topN)|
  {
    FilterStronger(rows, DifferentialBy(lo), DifferentialBy(hi));
  }
}

=== FILE: fetcher.dfy ===
/** Decoding of the public API payloads into the player and fixture rows
    (fpl_data_fetcher.py). The HTTP calls are not modelled: their decoded
    JSON bodies are the inputs here. */
module Fetcher {
  import opened Wrappers
  import opened Seqs
  import opened Types

  /** A non-negative selection percentage. */
  type Percent = r: real | 0.0 <= r

  /** One entry of the bootstrap payload's `elements` list. */
  datatype Element = Element(
    id: int,
    webName: string,
    team: int,
    elementType: int,
    nowCost: int,
    totalPoints: int,
    minutes: int,
    goals: int,
    assists: int,
    cleanSheets: int,
    goalsConceded: int,
    form: Option<real>,
    ppg: Option<real>,
    ownership: Option<Percent>,
    ict: Option<real>,
    xg: Option<real>,
    xa: Option<real>,
    xgi: Option<real>,
    chance: Option<int>,
    status: string,
    transfersIn: int,
    transfersOut: int,
    costChangeEvent: Option<int>)

  /** One entry of the bootstrap payload's `teams` list. */
  datatype Team = Team(id: int, name: string, shortName: string)

  /** One entry of the bootstrap payload's `events` list. */
  datatype Event = Event(id: int, isCurrent: bool)

  /** One entry of the fixtures payload. */
  datatype RawFixture = RawFixture(
    event: Option<int>,
    finished: bool,
    teamH: int,
    teamA: int,
    teamHDifficulty: int,
    teamADifficulty: int)

  /** `element_type` to position name. */
  function PositionOf(elementType: int): (p: Position)
    ensures p != Unmapped <==> 1 <= elementType <= 4
  {
    match elementType
    case 1 => GK
    case 2 => DEF
    case 3 => MID
    case 4 => FWD
    case _ => Unmapped
  }

  /** The payload code of a named position. */
  function PositionCode(p: Position): int {
    match p
    case GK => 1
    case DEF => 2
    case MID => 3
    case FWD => 4
    case Unmapped => 0
  }

  /** The position map is a bijection between the codes 1..4 and the four
      position names. */
  lemma PositionCodeRoundTrip(k: int, p: Position)
    ensures 1 <= k <= 4 ==> PositionCode(PositionOf(k)) == k
    ensures p != Unmapped ==> PositionOf(PositionCode(p)) == p
  {
  }

  /** A price window of `w` tenths around `a` admits `b` exactly when the
      window of `w/10` millions around `a/10` admits `b/10`: integer tenths
      decide every price comparison the same way as the source's millions. */
  lemma TenthsWindow(a: int, b: int, w: int)
    ensures (a - w <= b <= a + w) <==> (Millions(a) - Millions(w) <= Millions(b) <= Millions(a) + Millions(w))
  {
  }

  /** `dict(zip(teams['id'], ...))[id]`: the last team listed under `id`. */
  function TeamById(teams: seq<Team>, id: int): (r: Option<Team>)
    ensures r.None? <==> forall i :: 0 <= i < |teams| ==> teams[i].id != id
    ensures r.Some? ==> exists i :: 0 <= i < |teams| && teams[i] == r.value && r.value.id == id &&
                          forall j :: i < j < |teams| ==> teams[j].id != id
    decreases |teams|
  {
    if teams == [] then None
    else if teams[|teams| - 1].id == id then Some(teams[|teams| - 1])
    else TeamById(teams[..|teams| - 1], id)
  }

  /** One row of `get_all_players_df`: team names looked up from the team
      id, price from `now_cost`, position from `element_type`. An element
      whose team id is unknown, or whose `now_cost` is not positive, yields
      no row. */
  function DecodePlayer(e: Element, teams: seq<Team>): (r: Option<Player>)
    ensures r.Some? <==> TeamById(teams, e.team).Some? && e.nowCost > 0
    ensures r.Some? ==> r.value.id == e.id && r.value.price == e.nowCost
    ensures r.Some? ==> r.value.position == PositionOf(e.elementType)
    ensures r.Some? ==> r.value.club == TeamById(teams, e.team).value.shortName &&
                        r.value.teamName == TeamById(teams, e.team).value.name
  {
    match TeamById(teams, e.team)
    case None => None
    case Some(t) =>
      if e.nowCost <= 0 then None
      else Some(Player(e.id, e.webName, t.name, t.shortName, PositionOf(e.elementType), e.nowCost,
                       e.status, e.minutes, e.totalPoints, e.goals, e.assists, e.cleanSheets,
                       e.goalsConceded, e.form, e.ppg, e.ict, e.xg, e.xa, e.xgi,
                       match e.ownership case None => None case Some(o) => Some(o as real),
                       e.chance))
  }

  /** `get_all_players_df`: every decodable element, in payload order. */
  function GetAllPlayers(elements: seq<Element>, teams: seq<Team>): (ps: seq<Player>)
    ensures |ps| == Count(elements, Decodable(teams))
    ensures forall p :: p in ps ==> exists e :: e in elements && DecodePlayer(e, teams) == Some(p)
    ensures forall e :: e in elements && DecodePlayer(e, teams).Some? ==> DecodePlayer(e, teams).value in ps
    decreases |elements|
  {
    if elements == [] then []
    else
      var es := elements[..|elements| - 1];
      var e := elements[|elements| - 1];
      assert elements == es + [e];
      FilterSnoc(es, e, Decodable(teams));
      assert forall x :: x in elements <==> x in es || x == e;
      var rest := GetAllPlayers(es, teams);
      match DecodePlayer(e, teams)
      case None => rest
      case Some(p) => rest + [p]
  }

  /** The elements that yield a row. */
  function Decodable(teams: seq<Team>): Element -> bool {
    e => DecodePlayer(e, teams).Some?
  }

  /** Decoding a payload in two parts gives the rows of the first part
      followed by those of the second. */
  lemma {:induction false} GetAllPlayersAppend(a: seq<Element>, b: seq<Element>, teams: seq<Team>)
    ensures GetAllPlayers(a + b, teams) == GetAllPlayers(a, teams) + GetAllPlayers(b, teams)
    decreases |b|
  {
    if b == [] {
      assert a + b == a;
    } else {
      var b', x := b[..|b| - 1], b[|b| - 1];
      GetAllPlayersAppend(a, b', teams);
      AppendLast(a, b);
      GetAllPlayersSnoc(a + b', x, teams);
      GetAllPlayersSnoc(b', x, teams);
      AppendAssoc(GetAllPlayers(a, teams), GetAllPlayers(b', teams),
                  match DecodePlayer(x, teams) case None => [] case Some(p) => [p]);
    }
  }

  /** One more element adds its row, if it has one, at the end. */
  lemma GetAllPlayersSnoc(es: seq<Element>, x: Element, teams: seq<Team>)
    ensures GetAllPlayers(es + [x], teams) ==
              GetAllPlayers(es, teams) + match DecodePlayer(x, teams) case None => [] case Some(p) => [p]
  {
    assert (es + [x])[..|es|] == es;
  }

  /** The columns `get_all_players_df` asks for, in this order. */
  const ImportantColumns: seq<string> := [
    "id", "web_name", "team_name", "team_short", "element_type",
    "now_cost", "total_points", "points_per_game", "selected_by_percent",
    "form", "minutes", "goals_scored", "assists", "clean_sheets",
    "goals_conceded", "bonus", "bps", "influence", "creativity",
    "threat", "ict_index", "expected_goals", "expected_assists",
    "expected_goal_involvements", "expected_goals_conceded",
    "news", "chance_of_playing_next_round", "status"]

  /** The projection keeps exactly the listed columns the payload has, in
      the listed order. */
  function SelectColumns(present: set<string>): (cols: seq<string>)
    ensures forall c :: c in cols <==> c in ImportantColumns && c in present
    ensures IsSubseq(cols, ImportantColumns)
  {
    FilterIsSubseq(ImportantColumns, c => c in present);
    Filter(ImportantColumns, c => c in present)
  }

  /** `team_map[id]` for a fixture side: the short name of the team listed
      under `id`, or `None` (pandas' NaN) when the table has no such team. */
  function ShortNameOf(teams: seq<Team>, id: int): (n: TeamName)
    ensures n.None? <==> forall i :: 0 <= i < |teams| ==> teams[i].id != id
    ensures n.Some? ==> exists i :: 0 <= i < |teams| && teams[i].id == id && teams[i].shortName == n.value
  {
    match TeamById(teams, id)
    case None => None
    case Some(t) => Some(t.shortName)
  }

  /** One row of `get_fixtures_df`: `home_team`/`away_team` are the short
      names of `team_h`/`team_a`. A side whose team id is unknown keeps the
      fixture with a missing name, which equals no club. */
  function DecodeFixture(f: RawFixture, teams: seq<Team>): (r: Fixture)
    ensures r.homeTeam.None? <==> forall i :: 0 <= i < |teams| ==> teams[i].id != f.teamH
    ensures r.awayTeam.None? <==> forall i :: 0 <= i < |teams| ==> teams[i].id != f.teamA
    ensures r.homeTeam.Some? ==> r.homeTeam.value == TeamById(teams, f.teamH).value.shortName
    ensures r.awayTeam.Some? ==> r.awayTeam.value == TeamById(teams, f.teamA).value.shortName
    ensures r.homeDifficulty == f.teamHDifficulty && r.awayDifficulty == f.teamADifficulty
    ensures r.finished == f.finished && r.event == f.event
  {
    Fixture(f.event, f.finished, ShortNameOf(teams, f.teamH), ShortNameOf(teams, f.teamA),
            f.teamHDifficulty, f.teamADifficulty)
  }

  /** `get_fixtures_df`: one row per raw fixture, in payload order, each the
      decoding of its raw fixture; none is dropped. */
  function GetFixtures(raw: seq<RawFixture>, teams: seq<Team>): (fs: seq<Fixture>)
    ensures |fs| == |raw|
    ensures forall i :: 0 <= i < |raw| ==> fs[i] == DecodeFixture(raw[i], teams)
    decreases |raw|
  {
    if raw == [] then []
    else
      var rs := raw[..|raw| - 1];
      var fs := GetFixtures(rs, teams) + [DecodeFixture(raw[|raw| - 1], teams)];
      assert forall i :: 0 <= i < |rs| ==> raw[i] == rs[i];
      fs
  }

  /** Decoding goes row by row: the table of a concatenated payload is the
      concatenation of the two tables, so rows keep their payload order. */
  lemma GetFixturesAppend(a: seq<RawFixture>, b: seq<RawFixture>, teams: seq<Team>)
    ensures GetFixtures(a + b, teams) == GetFixtures(a, teams) + GetFixtures(b, teams)
  {
  }

  /** A fixture with one unknown side still lists the known side's club:
      the known team keeps counting it. */
  lemma KnownSideKept(raw: seq<RawFixture>, teams: seq<Team>, i: int, t: Team)
    requires 0 <= i < |raw| && t in teams && t.id == raw[i].teamH
    requires forall j :: 0 <= j < |teams| ==> teams[j].id != raw[i].teamA
    requires forall j :: 0 <= j < |teams| && teams[j].id == t.id ==> teams[j] == t
    ensures GetFixtures(raw, teams)[i].homeTeam == Some(t.shortName)
    ensures GetFixtures(raw, teams)[i].awayTeam.None?
  {
  }

  /** `get_current_gameweek`: the id of the first event flagged current. */
  function CurrentGameweek(events: seq<Event>): (r: Option<int>)
    ensures r.None? <==> forall i :: 0 <= i < |events| ==> !events[i].isCurrent
    ensures r.Some? ==> exists i :: 0 <= i < |events| && events[i].isCurrent && events[i].id == r.value &&
                          forall j :: 0 <= j < i ==> !events[j].isCurrent
    decreases |events|
  {
    if events == [] then None
    else if events[0].isCurrent then Some(events[0].id)
    else
      var r := CurrentGameweek(events[1..]);
      assert forall i :: 1 <= i < |events| ==> events[i] == events[1..][i - 1];
      r
  }
}

=== FILE: fixtures.dfy ===
/** `AdvancedFixturePredictor` (advanced_fixture_predictor.py): club
    strength from the player table, the four-band outcome rule, expected
    goals, clean sheets, and the per-fixture difficulty rating built on
    them. The over/under goal probabilities are left out (they use `exp`). */
module FixturePredictor {
  import opened Wrappers
  import opened Seqs
  import opened Types
  import opened Analyzer
  import opened Advanced

  /* ---------------------------------------------------------------------
     calculate_team_strength
     --------------------------------------------------------------------- */

  datatype Strength = Strength(attack: real, defense: real, overall: real)

  /** The strength assumed for a club the table does not know. */
  const DefaultStrength := Strength(50.0, 50.0, 100.0)

  function Xg(r: Row): real { r.xg }
  function Xa(r: Row): real { r.xa }
  function TotalPoints(r: Row): int { r.totalPoints }
  function CleanSheets(r: Row): int { r.cleanSheets }
  function GoalsConceded(r: Row): int { r.goalsConceded }

  predicate IsAttacker(r: Row) { r.position == MID || r.position == FWD }
  predicate IsDefender(r: Row) { r.position == GK || r.position == DEF }

  /** Σ xG + Σ xA + Σ points / 100 over the club's midfielders and forwards. */
  function Attack(players: seq<Row>): real {
    var a := Filter(players, IsAttacker);
    Sum(a, Xg) + Sum(a, Xa) + SumInt(a, TotalPoints) as real / 100.0
  }

  /** 2·Σ clean sheets + Σ points / 100 − Σ goals conceded / 10 over the
      club's goalkeepers and defenders. */
  function Defense(players: seq<Row>): real {
    var d := Filter(players, IsDefender);
    (SumInt(d, CleanSheets) * 2) as real + SumInt(d, TotalPoints) as real / 100.0
      - SumInt(d, GoalsConceded) as real / 10.0
  }

  /** One player's share of the attack figure. */
  function AttackOf(r: Row): real {
    if IsAttacker(r) then r.xg + r.xa + r.totalPoints as real / 100.0 else 0.0
  }

  /** One player's share of the defence figure. */
  function DefenseOf(r: Row): real {
    if IsDefender(r) then (2 * r.cleanSheets) as real + r.totalPoints as real / 100.0 - r.goalsConceded as real / 10.0
    else 0.0
  }

  /** The column sums add up player by player: the attack figure is the sum
      of each player's share, so a club's strength does not depend on how
      its rows are ordered or split. */
  lemma {:induction false} AttackIsPerPlayer(s: seq<Row>)
    ensures Attack(s) == Sum(s, AttackOf)
  {
    if s != [] {
      var s', x := s[..|s| - 1], s[|s| - 1];
      assert s == s' + [x];
      AttackIsPerPlayer(s');
      FilterSnoc(s', x, IsAttacker);
      var a := Filter(s', IsAttacker);
      if IsAttacker(x) {
        SumSnoc(a, x, Xg);
        SumSnoc(a, x, Xa);
        SumIntSnoc(a, x, TotalPoints);
      }
    }
  }

  lemma {:induction false} DefenseIsPerPlayer(s: seq<Row>)
    ensures Defense(s) == Sum(s, DefenseOf)
  {
    if s != [] {
      var s', x := s[..|s| - 1], s[|s| - 1];
      assert s == s' + [x];
      DefenseIsPerPlayer(s');
      FilterSnoc(s', x, IsDefender);
      var d := Filter(s', IsDefender);
      if IsDefender(x) {
        SumIntSnoc(d, x, CleanSheets);
        SumIntSnoc(d, x, TotalPoints);
        SumIntSnoc(d, x, GoalsConceded);
      }
    }
  }

  /** The rows of one club. */
  function OfClub(team: string): Row -> bool {
    (r: Row) => r.club == team
  }

  /** `team_strength[team]` for a club of the table. */
  function TeamStrength(rows: seq<Row>, team: string): (st: Strength)
    ensures st.overall == st.attack + st.defense
    ensures st.attack == Sum(Filter(rows, OfClub(team)), AttackOf)
    ensures st.defense == Sum(Filter(rows, OfClub(team)), DefenseOf)
  {
    var players := Filter(rows, OfClub(team));
    AttackIsPerPlayer(players);
    DefenseIsPerPlayer(players);
    Strength(Attack(players), Defense(players), Attack(players) + Defense(players))
  }

  /** The table `__init__` builds: one entry per listed club. */
  function TableOf(rows: seq<Row>, teams: seq<string>): (tbl: map<string, Strength>)
    ensures forall t :: t in tbl <==> t in teams
    ensures forall t :: t in tbl ==> tbl[t] == TeamStrength(rows, t)
  {
    if teams == [] then map[]
    else TableOf(rows, teams[..|teams| - 1])[teams[|teams| - 1] := TeamStrength(rows, teams[|teams| - 1])]
  }

  /** `calculate_team_strength`: an entry for exactly the clubs with a row. */
  function StrengthTable(rows: seq<Row>): (tbl: map<string, Strength>)
    ensures forall r :: r in rows ==> r.club in tbl
    ensures forall t :: t in tbl ==> exists r :: r in rows && r.club == t
    ensures forall t :: t in tbl ==> tbl[t] == TeamStrength(rows, t)
  {
    var cs := Clubs(rows);
    forall r | r in rows ensures r.club in cs {
      var i :| 0 <= i < |rows| && rows[i] == r;
    }
    forall t | t in cs ensures exists r :: r in rows && r.club == t {
      var i :| 0 <= i < |cs| && cs[i] == t;
      assert rows[i] in rows;
    }
    TableOf(rows, Distinct(cs))
  }

  /** `team_strength.get(team, default)`: a NaN name is no key of the
      table and gets the default too. */
  function Lookup(tbl: map<string, Strength>, team: TeamName): (st: Strength)
    ensures (team.None? || team.value !in tbl) ==> st == DefaultStrength
    ensures team.Some? && team.value in tbl ==> st == tbl[team.value]
  {
    match team
    case Some(t) => if t in tbl then tbl[t] else DefaultStrength
    case None => DefaultStrength
  }

  /* ---------------------------------------------------------------------
     predict_match_outcome
     --------------------------------------------------------------------- */

  datatype Outcome = Outcome(homeWin: real, draw: real, awayWin: real)

  function Abs(x: real): real { if x < 0.0 then -x else x }
  function RMin(a: real, b: real): real { if a <= b then a else b }
  function RMax(a: real, b: real): real { if a <= b then b else a }

  /** `max(lo, min(hi, x))`. */
  function Clamp(lo: real, hi: real, x: real): (c: real)
    requires lo <= hi
    ensures lo <= c <= hi
    ensures lo <= x <= hi ==> c == x
    ensures x < lo ==> c == lo
    ensures hi < x ==> c == hi
  {
    RMax(lo, RMin(hi, x))
  }

  /** 1.15 · home overall − away overall. */
  function StrengthDiff(home: Strength, away: Strength): real {
    home.overall * (1.0 + 0.15) - away.overall
  }

  /** The unclamped triple of the band `diff` falls in. */
  function RawOutcome(diff: real): Outcome {
    if diff > 50.0 then
      var h := 0.60 + RMin(diff / 500.0, 0.25);
      Outcome(h, 0.25, 1.0 - h - 0.25)
    else if diff > 0.0 then
      var h := 0.45 + diff / 200.0;
      Outcome(h, 0.30, 1.0 - h - 0.30)
    else if diff > -50.0 then
      var a := 0.35 + Abs(diff) / 200.0;
      Outcome(1.0 - a - 0.30, 0.30, a)
    else
      var a := 0.50 + RMin(Abs(diff) / 500.0, 0.25);
      Outcome(1.0 - a - 0.25, 0.25, a)
  }

  /** In every band the unclamped triple is a distribution over the three
      results, favouring the side the difference favours. */
  lemma RawOutcomeIsDistribution(diff: real)
    ensures RawOutcome(diff).homeWin + RawOutcome(diff).draw + RawOutcome(diff).awayWin == 1.0
    ensures diff > 0.0 ==> RawOutcome(diff).homeWin > RawOutcome(diff).awayWin
    ensures diff < 0.0 ==> RawOutcome(diff).awayWin > RawOutcome(diff).homeWin
    ensures diff == 0.0 ==> RawOutcome(diff).awayWin == RawOutcome(diff).homeWin
    ensures 0.0 <= RawOutcome(diff).draw
  {
  }

  /** The bands do not join up, so the home chance is not monotone in the
      difference: at −50 the lowest band gives the home side 0.15, at −49
      the band above gives it 0.105. */
  lemma RawOutcomeNotMonotone()
    ensures RawOutcome(-50.0).homeWin == 0.15
    ensures RawOutcome(-49.0).homeWin == 0.105
  {
  }

  /** `predict_match_outcome` for a difference: each figure clamped to its
      range, the triple not renormalised. */
  function ClampOutcome(raw: Outcome): (o: Outcome)
    ensures 0.05 <= o.homeWin <= 0.85 && 0.15 <= o.draw <= 0.40 && 0.05 <= o.awayWin <= 0.85
  {
    Outcome(Clamp(0.05, 0.85, raw.homeWin), Clamp(0.15, 0.40, raw.draw), Clamp(0.05, 0.85, raw.awayWin))
  }

  /** `predict_match_outcome(home, away)`. */
  function PredictMatchOutcome(tbl: map<string, Strength>, home: TeamName, away: TeamName): (o: Outcome)
    ensures 0.05 <= o.homeWin <= 0.85 && 0.15 <= o.draw <= 0.40 && 0.05 <= o.awayWin <= 0.85
  {
    ClampOutcome(RawOutcome(StrengthDiff(Lookup(tbl, home), Lookup(tbl, away))))
  }

  /** A difference of 100 sits in the top band: the raw away figure −0.05
      is lifted to 0.05 and nothing is taken back, so the returned triple
      sums to 1.1. */
  lemma ClampedOutcomeNotRenormalised()
    ensures RawOutcome(100.0) == Outcome(0.80, 0.25, -0.05)
    ensures ClampOutcome(RawOutcome(100.0)) == Outcome(0.80, 0.25, 0.05)
    ensures ClampOutcome(RawOutcome(100.0)).homeWin + ClampOutcome(RawOutcome(100.0)).draw
            + ClampOutcome(RawOutcome(100.0)).awayWin == 1.1
  {
  }

  /* ---------------------------------------------------------------------
     predict_goals, predict_clean_sheet
     --------------------------------------------------------------------- */

  datatype Goals = Goals(home: real, away: real, total: real)

  /** (attack / 30) · (1 − opposing defence / 150) · factor. */
  function RawGoals(attack: real, oppDefense: real, factor: real): real {
    (attack / 30.0) * (1.0 - oppDefense / 150.0) * factor
  }

  /** `predict_goals(home, away)` without the final rounding. */
  function PredictGoals(tbl: map<string, Strength>, home: TeamName, away: TeamName): (g: Goals)
    ensures 0.3 <= g.home <= 3.5 && 0.2 <= g.away <= 3.0
    ensures g.total == g.home + g.away
  {
    var h, a := Lookup(tbl, home), Lookup(tbl, away);
    var hg := Clamp(0.3, 3.5, RawGoals(h.attack, a.defense, 1.3));
    var ag := Clamp(0.2, 3.0, RawGoals(a.attack, h.defense, 1.1));
    Goals(hg, ag, hg + ag)
  }

  /** Between two equally strong clubs the home side is expected to score
      at least as many. */
  lemma HomeGoalsAdvantage(tbl: map<string, Strength>, home: TeamName, away: TeamName)
    requires Lookup(tbl, home) == Lookup(tbl, away)
    requires Lookup(tbl, home).attack >= 0.0 && Lookup(tbl, home).defense <= 150.0
    ensures PredictGoals(tbl, home, away).home >= PredictGoals(tbl, home, away).away
  {
    var s := Lookup(tbl, home);
    var p, q := s.attack / 30.0, 1.0 - s.defense / 150.0;
    assert p >= 0.0 && q >= 0.0;
    var base := p * q;
    NonnegProduct(p, q);
    assert RawGoals(s.attack, s.defense, 1.3) == base * 1.3;
    assert RawGoals(s.attack, s.defense, 1.1) == base * 1.1;
  }

  /** The unclamped clean-sheet figure. */
  function RawCleanSheet(defense: real, oppAttack: real, isHome: bool): real {
    var p := (defense / 100.0 + (1.0 - oppAttack / 100.0)) / 2.0;
    if isHome then p * 1.1 else p
  }

  /** `predict_clean_sheet(team, opponent, is_home)`. */
  function PredictCleanSheet(tbl: map<string, Strength>, team: TeamName, opponent: TeamName, isHome: bool): (p: real)
    ensures 0.05 <= p <= 0.65
  {
    Clamp(0.05, 0.65, RawCleanSheet(Lookup(tbl, team).defense, Lookup(tbl, opponent).attack, isHome))
  }

  /** Playing at home never lowers a clean-sheet chance. */
  lemma CleanSheetHomeAdvantage(tbl: map<string, Strength>, team: TeamName, opponent: TeamName)
    requires RawCleanSheet(Lookup(tbl, team).defense, Lookup(tbl, opponent).attack, false) >= 0.0
    ensures PredictCleanSheet(tbl, team, opponent, true) >= PredictCleanSheet(tbl, team, opponent, false)
  {
  }

  /* ---------------------------------------------------------------------
     calculate_advanced_fdr, get_all_teams_fdr
     --------------------------------------------------------------------- */

  /** The rating from the team's own win probability: 2 (easy) to 5. */
  function FdrBand(win: real): (fdr: int)
    ensures 2 <= fdr <= 5
  {
    if win > 0.55 then 2 else if win > 0.40 then 3 else if win > 0.25 then 4 else 5
  }

  /** A likelier win never rates harder. */
  lemma FdrBandAntitone(w1: real, w2: real)
    requires w1 <= w2
    ensures FdrBand(w2) <= FdrBand(w1)
  {
  }

  /** One row of `calculate_advanced_fdr` (the over/under columns left out). */
  datatype FixtureRating = FixtureRating(
    event: Option<int>,
    opponent: TeamName,
    isHome: bool,
    fdr: int,
    win: real,
    draw: real,
    loss: real,
    goalsFor: real,
    goalsAgainst: real,
    totalGoals: real,
    cleanSheet: real,
    btts: real)

  /** The rating of one fixture from `team`'s side. */
  function Rate(tbl: map<string, Strength>, team: string, f: Fixture): (r: FixtureRating)
    ensures r.isHome <==> f.homeTeam == Some(team)
    ensures r.opponent == if f.homeTeam == Some(team) then f.awayTeam else f.homeTeam
    ensures 2 <= r.fdr <= 5 && r.fdr == FdrBand(r.win)
    ensures 1.0 - 0.65 * 0.65 <= r.btts <= 1.0 - 0.05 * 0.05
  {
    var me := Some(team);
    var isHome := f.homeTeam == me;
    var opp := if isHome then f.awayTeam else f.homeTeam;
    var outcome := if isHome then PredictMatchOutcome(tbl, me, opp) else PredictMatchOutcome(tbl, opp, me);
    var goals := if isHome then PredictGoals(tbl, me, opp) else PredictGoals(tbl, opp, me);
    var cs := PredictCleanSheet(tbl, me, opp, isHome);
    var csOpp := PredictCleanSheet(tbl, opp, me, !isHome);
    var win := if isHome then outcome.homeWin else outcome.awayWin;
    ProductBounds(cs, csOpp);
    FixtureRating(
      f.event, opp, isHome, FdrBand(win), win, outcome.draw,
      if isHome then outcome.awayWin else outcome.homeWin,
      if isHome then goals.home else goals.away,
      if isHome then goals.away else goals.home,
      goals.total, cs, 1.0 - cs * csOpp)
  }

  lemma NonnegProduct(a: real, b: real)
    requires 0.0 <= a && 0.0 <= b
    ensures 0.0 <= a * b
  {
  }

  lemma ProductBounds(a: real, b: real)
    requires 0.05 <= a <= 0.65 && 0.05 <= b <= 0.65
    ensures 0.05 * 0.05 <= a * b <= 0.65 * 0.65
  {
    assert a * b <= 0.65 * b <= 0.65 * 0.65;
    assert a * b >= 0.05 * b >= 0.05 * 0.05;
  }

  /** Ratings for each fixture, in order. */
  function RateAll(tbl: map<string, Strength>, team: string, fs: seq<Fixture>): (rs: seq<FixtureRating>)
    ensures |rs| == |fs|
    ensures forall i :: 0 <= i < |fs| ==> 2 <= rs[i].fdr <= 5
    ensures forall i :: 0 <= i < |fs| ==> rs[i] == Rate(tbl, team, fs[i])
  {
    if fs == [] then []
    else
      var front := fs[..|fs| - 1];
      assert forall i :: 0 <= i < |front| ==> fs[i] == front[i];
      RateAll(tbl, team, front) + [Rate(tbl, team, fs[|fs| - 1])]
  }

  /** `calculate_advanced_fdr(team, n)`: one rating per fixture of the
      team's next `n` unfinished ones, in fixture order. */
  function CalculateAdvancedFdr(tbl: map<string, Strength>, fixtures: seq<Fixture>, team: string, n: int): (rs: seq<FixtureRating>)
    ensures |rs| == |Upcoming(fixtures, team, n)|
    ensures n >= 0 ==> |rs| <= n
    ensures forall i :: 0 <= i < |rs| ==> 2 <= rs[i].fdr <= 5
    ensures forall i :: 0 <= i < |rs| ==> rs[i] == Rate(tbl, team, Upcoming(fixtures, team, n)[i])
  {
    RateAll(tbl, team, Upcoming(fixtures, team, n))
  }

  function Fdr(r: FixtureRating): int { r.fdr }

  /** One entry of `get_all_teams_fdr`: the mean rating (unrounded) and the
      ratings themselves. */
  datatype TeamFdr = TeamFdr(team: string, avgFdr: real, ratings: seq<FixtureRating>)

  function AvgFdr(t: TeamFdr): real { t.avgFdr }
  function TeamOf(t: TeamFdr): string { t.team }

  /** Ratings in [2, 5] total between 2 and 5 per rating. */
  lemma {:induction false} FdrTotalBounds(rs: seq<FixtureRating>)
    requires forall i :: 0 <= i < |rs| ==> 2 <= rs[i].fdr <= 5
    ensures 2 * |rs| <= SumInt(rs, Fdr) <= 5 * |rs|
  {
    if rs != [] {
      FdrTotalBounds(rs[..|rs| - 1]);
    }
  }

  /** The mean rating (unrounded) of a team's ratings. */
  function MeanFdr(rs: seq<FixtureRating>): (m: real)
    requires rs != []
    requires forall i :: 0 <= i < |rs| ==> 2 <= rs[i].fdr <= 5
    ensures 2.0 <= m <= 5.0
    ensures m * |rs| as real == SumInt(rs, Fdr) as real
  {
    FdrTotalBounds(rs);
    QuotientBounds(SumInt(rs, Fdr) as real, |rs| as real, 2.0, 5.0);
    SumInt(rs, Fdr) as real / |rs| as real
  }

  /** The entry for `team`, `None` when it has no upcoming fixture. */
  function TeamEntry(tbl: map<string, Strength>, fixtures: seq<Fixture>, n: int, team: string): (e: Option<TeamFdr>)
    ensures e.None? <==> Upcoming(fixtures, team, n) == []
    ensures e.Some? ==> e.value.team == team && 2.0 <= e.value.avgFdr <= 5.0
                        && e.value.ratings == CalculateAdvancedFdr(tbl, fixtures, team, n)
  {
    var rs := CalculateAdvancedFdr(tbl, fixtures, team, n);
    if rs == [] then None else Some(TeamFdr(team, MeanFdr(rs), rs))
  }

  /** Entries whose teams are in strictly alphabetical order. */
  predicate Alphabetical(es: seq<TeamFdr>) {
    forall i, j :: 0 <= i < j < |es| ==> StrLt(es[i].team, es[j].team)
  }

  /** The entries `entry` yields for the listed teams, skipping teams it
      has none for, in the listed order. */
  function Entries(teams: seq<string>, entry: string -> Option<TeamFdr>): (es: seq<TeamFdr>)
    requires forall t :: entry(t).Some? ==> entry(t).value.team == t
    ensures forall e :: e in es ==> e.team in teams && entry(e.team) == Some(e)
    ensures forall t :: t in teams && entry(t).Some? ==> entry(t).value in es
    ensures Ascending(teams) ==> Alphabetical(es)
  {
    if teams == [] then []
    else
      var init, t := teams[..|teams| - 1], teams[|teams| - 1];
      var rest := Entries(init, entry);
      assert forall u :: u in teams ==> u in init || u == t;
      AscendingSnoc(init, t, rest);
      match entry(t)
      case None => rest
      case Some(e) => rest + [e]
  }

  /** An entry list drawn from an ascending prefix stays ascending when the
      next team's entry is appended. */
  lemma AscendingSnoc(init: seq<string>, t: string, rest: seq<TeamFdr>)
    requires Ascending(init) ==> Alphabetical(rest)
    requires forall e :: e in rest ==> e.team in init
    ensures Ascending(init + [t]) ==> Ascending(init) && forall e :: e in rest ==> StrLt(e.team, t)
  {
    if Ascending(init + [t]) {
      assert forall i :: 0 <= i < |init| ==> (init + [t])[i] == init[i];
      forall e | e in rest ensures StrLt(e.team, t) {
        var i :| 0 <= i < |init| && init[i] == e.team;
        assert (init + [t])[|init|] == t;
      }
    }
  }

  /** `sorted(players_df['team_short'].unique())`: the clubs with a row, each
      once, in alphabetical order. */
  function Teams(rows: seq<Row>): (teams: seq<string>)
    ensures Ascending(teams)
    ensures forall t :: t in teams <==> t in Clubs(rows)
    ensures forall r :: r in rows ==> r.club in teams
  {
    var cs := Clubs(rows);
    forall r | r in rows ensures r.club in cs {
      var i :| 0 <= i < |rows| && rows[i] == r;
    }
    SortStrings(Distinct(cs))
  }

  /** `get_all_teams_fdr`: an entry for every club of the table that has an
      upcoming fixture and for no other, clubs in alphabetical order, each
      entry's ratings those of `calculate_advanced_fdr`. */
  function AllTeamsFdr(rows: seq<Row>, fixtures: seq<Fixture>, n: int): (all: seq<TeamFdr>)
    ensures Alphabetical(all)
    ensures forall e :: e in all ==>
              && e.team in Clubs(rows)
              && TeamEntry(StrengthTable(rows), fixtures, n, e.team) == Some(e)
    ensures forall r :: r in rows && Upcoming(fixtures, r.club, n) != [] ==>
              TeamEntry(StrengthTable(rows), fixtures, n, r.club).value in all
  {
    var tbl := StrengthTable(rows);
    Entries(Teams(rows), (t: string) => TeamEntry(tbl, fixtures, n, t))
  }

  /** The printed view: easiest average first. */
  function EasiestFirst(all: seq<TeamFdr>): (view: seq<TeamFdr>)
    ensures SortedAsc(view, AvgFdr)
    ensures multiset(view) == multiset(all)
  {
    SortAsc(all, AvgFdr)
  }

  /* ---------------------------------------------------------------------
     Python string order, for `sorted(teams)`
     --------------------------------------------------------------------- */

  /** Python's `<` on strings: code point by code point, a proper prefix
      first. */
  predicate StrLt(a: string, b: string) {
    if b == [] then false
    else if a == [] then true
    else a[0] < b[0] || (a[0] == b[0] && StrLt(a[1..], b[1..]))
  }

  lemma {:induction false} StrLtTotal(a: string, b: string)
    ensures StrLt(a, b) || a == b || StrLt(b, a)
  {
    if a != [] && b != [] && a[0] == b[0] {
      StrLtTotal(a[1..], b[1..]);
      if a[1..] == b[1..] {
        assert a == [a[0]] + a[1..] && b == [b[0]] + b[1..];
      }
    }
  }

  lemma {:induction false} StrLtTrans(a: string, b: string, c: string)
    requires StrLt(a, b) && StrLt(b, c)
    ensures StrLt(a, c)
  {
    if a != [] && a[0] == b[0] && b[0] == c[0] {
      StrLtTrans(a[1..], b[1..], c[1..]);
    }
  }

  /** Strictly ascending in string order (so free of duplicates). */
  predicate Ascending(s: seq<string>) {
    forall i, j :: 0 <= i < j < |s| ==> StrLt(s[i], s[j])
  }

  /** Inserting a string not yet present into an ascending list. */
  function InsertStr(x: string, s: seq<string>): (r: seq<string>)
    requires Ascending(s) && x !in s
    ensures Ascending(r)
    ensures forall y :: y in r <==> y == x || y in s
    ensures multiset(r) == multiset(s) + multiset{x}
  {
    if s == [] then [x]
    else if StrLt(x, s[0]) then
      forall j | 1 <= j < |s| ensures StrLt(x, s[j]) {
        StrLtTrans(x, s[0], s[j]);
      }
      [x] + s
    else
      StrLtTotal(x, s[0]);
      var t := InsertStr(x, s[1..]);
      assert s == [s[0]] + s[1..];
      forall j | 0 <= j < |t| ensures StrLt(s[0], t[j]) {
        assert t[j] in t;
      }
      [s[0]] + t
  }

  /** `sorted(teams)` for distinct teams. */
  function SortStrings(s: seq<string>): (r: seq<string>)
    requires NoDup(s)
    ensures Ascending(r)
    ensures multiset(r) == multiset(s)
    ensures forall x :: x in r <==> x in s
  {
    if s == [] then []
    else
      var init, x := s[..|s| - 1], s[|s| - 1];
      assert s == init + [x];
      var t := SortStrings(init);
      assert x !in init;
      assert x !in multiset(t);
      InsertStr(x, t)
  }
}

=== FILE: league.dfy ===
/** `MiniLeagueSpy` (mini_league.py): the squad comparison against one
    rival, the league-wide template count, the paged standings and the two
    orderings of the table. The standings and picks payloads are inputs. */
module League {
  import opened Wrappers
  import opened Seqs
  import opened Live

  /* ---------------------------------------------------------------------
     compare_vs_rival
     --------------------------------------------------------------------- */

  /** Where the points difference leaves the manager. */
  datatype Standing = Ahead | Behind | Level

  /** The returned comparison: the three player-id sets and the points
      difference. */
  datatype Comparison = Comparison(
    myDifferentials: set<int>,
    rivalDifferentials: set<int>,
    shared: set<int>,
    pointsDifference: int)

  function Ids(picks: seq<Pick>): (ids: seq<int>)
    ensures |ids| == |picks|
    ensures forall i :: 0 <= i < |picks| ==> ids[i] == picks[i].element
  {
    Map(picks, PickId)
  }

  function AsSet(s: seq<int>): (r: set<int>)
    ensures forall x :: x in r <==> x in s
  {
    set x | x in s
  }

  /** Why `compare_vs_rival` raises: a captain missing from the scored
      player table makes `.iloc[0]` of the empty selection an `IndexError`. */
  datatype CompareError = CaptainNotScored

  /** `if my_captain_id and rival_captain_id`: a captain is looked up only
      when both are found and neither id is 0. */
  predicate CaptainsLookedUp(myPicks: seq<Pick>, rivalPicks: seq<Pick>) {
    && CaptainOf(myPicks).Some? && CaptainOf(myPicks).value != 0
    && CaptainOf(rivalPicks).Some? && CaptainOf(rivalPicks).value != 0
  }

  /** `compare_vs_rival`: the two sets of players only one side owns, the
      players both own, and the overall points difference. `scored` holds
      the ids of the scored player table, where both captains are looked up;
      the comparison fails when one of them is missing there. */
  function CompareVsRival(myPicks: seq<Pick>, rivalPicks: seq<Pick>, myPoints: int, rivalPoints: int, scored: set<int>)
    : (res: Result<Comparison, CompareError>)
    ensures res.Failure? <==>
              && CaptainsLookedUp(myPicks, rivalPicks)
              && (CaptainOf(myPicks).value !in scored || CaptainOf(rivalPicks).value !in scored)
    ensures res.Success? ==> var c := res.value;
              && c.myDifferentials !! c.rivalDifferentials && c.myDifferentials !! c.shared
              && c.rivalDifferentials !! c.shared
    ensures res.Success? ==> res.value.shared + res.value.myDifferentials == AsSet(Ids(myPicks))
    ensures res.Success? ==> res.value.shared + res.value.rivalDifferentials == AsSet(Ids(rivalPicks))
    ensures res.Success? ==> forall x :: x in res.value.shared <==> x in Ids(myPicks) && x in Ids(rivalPicks)
    ensures res.Success? ==> res.value.pointsDifference + rivalPoints == myPoints
  {
    var mine, theirs := AsSet(Ids(myPicks)), AsSet(Ids(rivalPicks));
    if CaptainsLookedUp(myPicks, rivalPicks)
       && (CaptainOf(myPicks).value !in scored || CaptainOf(rivalPicks).value !in scored)
    then Failure(CaptainNotScored)
    else Success(Comparison(mine - theirs, theirs - mine, mine * theirs, myPoints - rivalPoints))
  }

  /** A squad whose captain is not flagged, or whose captains are both in
      the scored table, is always compared. */
  lemma CompareSucceeds(myPicks: seq<Pick>, rivalPicks: seq<Pick>, myPoints: int, rivalPoints: int, scored: set<int>)
    requires || (forall p :: p in myPicks ==> !p.isCaptain)
             || ((forall p :: p in myPicks ==> p.element in scored) && (forall p :: p in rivalPicks ==> p.element in scored))
    ensures CompareVsRival(myPicks, rivalPicks, myPoints, rivalPoints, scored).Success?
  {
    if CaptainOf(myPicks).Some? {
      var i :| 0 <= i < |myPicks| && myPicks[i].isCaptain && myPicks[i].element == CaptainOf(myPicks).value
               && forall j :: 0 <= j < i ==> !myPicks[j].isCaptain;
      assert myPicks[i] in myPicks;
      if CaptainOf(rivalPicks).Some? {
        var k :| 0 <= k < |rivalPicks| && rivalPicks[k].isCaptain && rivalPicks[k].element == CaptainOf(rivalPicks).value
                 && forall j :: 0 <= j < k ==> !rivalPicks[j].isCaptain;
        assert rivalPicks[k] in rivalPicks;
      }
    }
  }

  /** The verdict printed from the points difference. */
  function StandingOf(diff: int): (s: Standing)
    ensures s == Ahead <==> diff > 0
    ensures s == Behind <==> diff < 0
  {
    if diff > 0 then Ahead else if diff < 0 then Behind else Level
  }

  /** Comparing the other way round swaps the two differential sets and
      negates the difference, so an ahead manager's rival is behind. */
  lemma CompareSymmetric(myPicks: seq<Pick>, rivalPicks: seq<Pick>, myPoints: int, rivalPoints: int, scored: set<int>)
    ensures CompareVsRival(rivalPicks, myPicks, rivalPoints, myPoints, scored).Failure?
            <==> CompareVsRival(myPicks, rivalPicks, myPoints, rivalPoints, scored).Failure?
    ensures CompareVsRival(myPicks, rivalPicks, myPoints, rivalPoints, scored).Success? ==>
              var there, back := CompareVsRival(myPicks, rivalPicks, myPoints, rivalPoints, scored).value,
                                 CompareVsRival(rivalPicks, myPicks, rivalPoints, myPoints, scored).value;
              && back.myDifferentials == there.rivalDifferentials
              && back.shared == there.shared
              && (StandingOf(there.pointsDifference) == Ahead <==> StandingOf(back.pointsDifference) == Behind)
  {
  }

  /** `next((p['element'] for p in picks if p['is_captain']), None)`. */
  function CaptainOf(picks: seq<Pick>): (c: Option<int>)
    ensures c.None? <==> forall p :: p in picks ==> !p.isCaptain
    ensures c.Some? ==> exists i :: 0 <= i < |picks| && picks[i].isCaptain && picks[i].element == c.value
                                    && forall j :: 0 <= j < i ==> !picks[j].isCaptain
  {
    if picks == [] then None
    else if picks[0].isCaptain then Some(picks[0].element)
    else
      var c := CaptainOf(picks[1..]);
      assert forall p :: p in picks ==> p == picks[0] || p in picks[1..];
      if c.Some? then
        var i :| 0 <= i < |picks[1..]| && picks[1..][i].isCaptain && picks[1..][i].element == c.value
                 && forall j :: 0 <= j < i ==> !picks[1..][j].isCaptain;
        assert picks[i + 1] == picks[1..][i];
        assert forall j :: 1 <= j < i + 1 ==> picks[j] == picks[1..][j - 1];
        c
      else c
  }

  /* ---------------------------------------------------------------------
     get_all_teams_in_league
     --------------------------------------------------------------------- */

  /** One entry of the standings' `results`. */
  datatype Entry = Entry(entry: int, rank: int, playerName: string, entryName: string,
                         total: int, eventTotal: int)

  /** One page of the standings: its results and whether another follows. */
  datatype Page = Page(results: seq<Entry>, hasNext: bool)

  datatype FetchError = MissingPage(page: nat)

  /** `get_all_teams_in_league(page)`: this page's results followed by those
      of the pages after it, for as long as `has_next` holds; `pages[k]` is
      page k + 1, and asking for a page past the end fails. */
  function AllTeamsFrom(pages: seq<Page>, k: nat): (r: Result<seq<Entry>, FetchError>)
    decreases |pages| - k
  {
    if k >= |pages| then Failure(MissingPage(k + 1))
    else if !pages[k].hasNext then Success(pages[k].results)
    else
      match AllTeamsFrom(pages, k + 1)
      case Failure(e) => Failure(e)
      case Success(rest) => Success(pages[k].results + rest)
  }

  function Results(p: Page): seq<Entry> { p.results }

  /** The paging fails exactly when every page from `k` on claims a
      successor. */
  lemma {:induction false} AllTeamsFailure(pages: seq<Page>, k: nat)
    ensures AllTeamsFrom(pages, k).Failure? <==> forall j :: k <= j < |pages| ==> pages[j].hasNext
    decreases |pages| - k
  {
    if k < |pages| && pages[k].hasNext {
      AllTeamsFailure(pages, k + 1);
    }
  }

  /** Page `m` is the first page from `k` on without a successor. */
  predicate StopsAt(pages: seq<Page>, k: nat, m: int) {
    k <= m < |pages| && !pages[m].hasNext && forall j :: k <= j < m ==> pages[j].hasNext
  }

  /** Otherwise the paging stops at the first page without a successor:
      the result is the results of pages `k` to that one concatenated in
      page order. */
  lemma {:induction false} AllTeamsIsConcatenation(pages: seq<Page>, k: nat)
    ensures AllTeamsFrom(pages, k).Success? ==>
              exists m :: StopsAt(pages, k, m) && AllTeamsFrom(pages, k).value == Flatten(Map(pages[k..m + 1], Results))
    decreases |pages| - k
  {
    if k < |pages| {
      if !pages[k].hasNext {
        assert pages[k..k + 1] == [pages[k]];
        FlattenSingle(Map(pages[k..k + 1], Results));
        assert StopsAt(pages, k, k);
      } else if AllTeamsFrom(pages, k + 1).Success? {
        AllTeamsIsConcatenation(pages, k + 1);
        var m :| StopsAt(pages, k + 1, m)
                 && AllTeamsFrom(pages, k + 1).value == Flatten(Map(pages[k + 1..m + 1], Results));
        ConcatenationStep(pages, k, m);
      }
    }
  }

  /** One page with a successor in front of a concatenation. */
  lemma ConcatenationStep(pages: seq<Page>, k: nat, m: int)
    requires k < |pages| && pages[k].hasNext && StopsAt(pages, k + 1, m)
    requires AllTeamsFrom(pages, k + 1).Success?
    requires AllTeamsFrom(pages, k + 1).value == Flatten(Map(pages[k + 1..m + 1], Results))
    ensures StopsAt(pages, k, m)
    ensures AllTeamsFrom(pages, k).Success?
    ensures AllTeamsFrom(pages, k).value == Flatten(Map(pages[k..m + 1], Results))
  {
    var tail := Map(pages[k + 1..m + 1], Results);
    assert Map(pages[k..m + 1], Results) == [pages[k].results] + tail;
    FlattenCons(pages[k].results, tail);
  }

  /* ---------------------------------------------------------------------
     analyze_entire_league
     --------------------------------------------------------------------- */

  /** How closely the manager follows the league template. */
  datatype TemplateStatus = FollowingTemplate | HeavyDifferentials | Balanced

  /** The verdict for a template count: 10 or more follows, 7 or fewer is
      differential, anything between is balanced. */
  function TemplateStatusOf(count: int): (s: TemplateStatus)
    ensures s == FollowingTemplate <==> count >= 10
    ensures s == HeavyDifferentials <==> count <= 7
  {
    if count >= 10 then FollowingTemplate else if count <= 7 then HeavyDifferentials else Balanced
  }

  /** The picks gathered for one manager. */
  datatype Gathered = Gathered(manager: int, ids: seq<int>)

  /** No manager has two entries (the dict's keys are distinct). */
  predicate DistinctManagers(g: seq<Gathered>) {
    forall i, j :: 0 <= i < j < |g| ==> g[i].manager != g[j].manager
  }

  /** `league_players[manager] = ids`: a manager already present keeps their
      place and takes the new list; a new one goes last. */
  function Assign(g: seq<Gathered>, manager: int, ids: seq<int>): (g': seq<Gathered>)
    requires DistinctManagers(g)
    ensures DistinctManagers(g')
    ensures forall x :: x in g' ==> x == Gathered(manager, ids) || (x in g && x.manager != manager)
    ensures Gathered(manager, ids) in g'
    ensures forall x :: x in g && x.manager != manager ==> x in g'
    ensures |g'| <= |g| + 1
  {
    if g == [] then [Gathered(manager, ids)]
    else if g[0].manager == manager then
      assert forall j :: 0 < j < |g| ==> g[j].manager != manager;
      [Gathered(manager, ids)] + g[1..]
    else
      var rest := Assign(g[1..], manager, ids);
      assert forall x :: x in g ==> x == g[0] || x in g[1..];
      assert forall x :: x in rest ==> x.manager != g[0].manager;
      [g[0]] + rest
  }

  /** The first ten entries of the standings, each manager's picks fetched
      by `picksOf` (`None` where the fetch fails and the loop moves on). */
  function Gather(teams: seq<Entry>, picksOf: int -> Option<seq<int>>): (g: seq<Gathered>)
    ensures DistinctManagers(g)
    ensures forall x :: x in g ==> (exists t :: t in teams && t.entry == x.manager) && picksOf(x.manager) == Some(x.ids)
    ensures forall t :: t in teams && picksOf(t.entry).Some? ==> Gathered(t.entry, picksOf(t.entry).value) in g
    ensures |g| <= |teams|
    decreases |teams|
  {
    if teams == [] then []
    else
      var init, t := teams[..|teams| - 1], teams[|teams| - 1];
      var g0 := Gather(init, picksOf);
      assert forall u :: u in teams ==> u in init || u == t;
      match picksOf(t.entry)
      case None => g0
      case Some(ids) => Assign(g0, t.entry, ids)
  }

  function IdsOf(x: Gathered): seq<int> { x.ids }

  /** How often `pid` occurs across all gathered lists (the `Counter`). */
  function Occurrences(g: seq<Gathered>, pid: int): nat {
    multiset(Flatten(Map(g, IdsOf)))[pid]
  }

  /** With no id twice in any one manager's list, no player is counted more
      often than there are managers, so league ownership is at most 100%. */
  lemma {:induction false} OccurrencesBounded(g: seq<Gathered>, pid: int)
    requires forall x :: x in g ==> NoDup(x.ids)
    ensures Occurrences(g, pid) <= |g|
  {
    if g != [] {
      var init, x := g[..|g| - 1], g[|g| - 1];
      assert Map(g, IdsOf) == Map(init, IdsOf) + [x.ids];
      FlattenSnoc(Map(init, IdsOf), x.ids);
      OccurrencesBounded(init, pid);
      NoDupMultiplicity(x.ids, pid);
    }
  }

  /** One row of the printed template table. */
  datatype TemplateRow = TemplateRow(playerId: int, count: nat, ownership: real)

  /** The result of `analyze_entire_league`: the template table, the
      template ids and the manager's template count and verdict. */
  datatype LeagueAnalysis = LeagueAnalysis(
    template: seq<TemplateRow>,
    templateIds: seq<int>,
    myTemplateCount: nat,
    status: TemplateStatus)

  /** The squads `analyze_entire_league` gathers: those of the first ten
      standings entries. */
  function Squads(teams: seq<Entry>, picksOf: int -> Option<seq<int>>): (g: seq<Gathered>)
    ensures |g| <= 10
  {
    Gather(Take(teams, 10), picksOf)
  }

  /** `analyze_entire_league`: the template of the gathered squads, its
      table, and how many template players the manager owns. */
  function AnalyzeEntireLeague(teams: seq<Entry>, picksOf: int -> Option<seq<int>>, known: set<int>, me: int)
    : (a: LeagueAnalysis)
    ensures a.templateIds == TemplateIds(Squads(teams, picksOf))
    ensures a.template == TemplateRows(Squads(teams, picksOf), a.templateIds, known)
    ensures a.myTemplateCount <= 15
    ensures a.myTemplateCount == |AsSet(MyPicks(Squads(teams, picksOf), me)) * AsSet(a.templateIds)|
    ensures a.status == TemplateStatusOf(a.myTemplateCount)
  {
    var g := Squads(teams, picksOf);
    var ids := TemplateIds(g);
    var count := |AsSet(MyPicks(g, me)) * AsSet(ids)|;
    CardIntersection(AsSet(MyPicks(g, me)), ids);
    LeagueAnalysis(TemplateRows(g, ids, known), ids, count, TemplateStatusOf(count))
  }

  lemma CardIntersection(a: set<int>, ids: seq<int>)
    requires |ids| <= 15
    ensures |a * AsSet(ids)| <= 15
  {
    SetCardAtMostLength(ids);
    var b := AsSet(ids);
    assert b == (a * b) + (b - a * b);
    assert (a * b) !! (b - a * b);
  }

  lemma SetCardAtMostLength(s: seq<int>)
    ensures |AsSet(s)| <= |s|
  {
    if s != [] {
      SetCardAtMostLength(s[..|s| - 1]);
      assert AsSet(s) == AsSet(s[..|s| - 1]) + {s[|s| - 1]};
    }
  }

  /** `Counter(all_player_ids).most_common(15)`, by id. */
  function TemplateIds(g: seq<Gathered>): (ids: seq<int>)
    ensures |ids| == Min(15, |Distinct(Flatten(Map(g, IdsOf)))|)
    ensures NoDup(ids)
    ensures forall pid :: pid in ids ==> pid in Flatten(Map(g, IdsOf)) && Occurrences(g, pid) > 0
    ensures forall pid, q :: pid in Flatten(Map(g, IdsOf)) && pid !in ids && q in ids ==>
              Occurrences(g, pid) <= Occurrences(g, q)
  {
    var ds := Distinct(Flatten(Map(g, IdsOf)));
    var ids := NLargest(ds, 15, PickCount(g));
    SubMultisetNoDup(ids, ds);
    TemplateDominates(g, ds, ids);
    ids
  }

  /** How many gathered squads pick a player, as the ranking key. */
  function PickCount(g: seq<Gathered>): int -> real {
    (pid: int) => Occurrences(g, pid) as real
  }

  /** An id left out of the 15 most common is picked no more often than any
      id kept. */
  lemma TemplateDominates(g: seq<Gathered>, ds: seq<int>, ids: seq<int>)
    requires ds == Distinct(Flatten(Map(g, IdsOf)))
    requires ids == NLargest(ds, 15, PickCount(g))
    ensures forall pid, q :: pid in Flatten(Map(g, IdsOf)) && pid !in ids && q in ids ==>
              Occurrences(g, pid) <= Occurrences(g, q)
  {
    forall pid, q | pid in Flatten(Map(g, IdsOf)) && pid !in ids && q in ids
      ensures Occurrences(g, pid) <= Occurrences(g, q)
    {
      var k :| 0 <= k < |ids| && ids[k] == q;
      NLargestDominates(ds, 15, PickCount(g), pid, k);
    }
  }

  /** `league_players.get(me, [])`. */
  function MyPicks(g: seq<Gathered>, me: int): (ids: seq<int>)
    ensures (exists x :: x in g && x.manager == me) || ids == []
    ensures forall x :: x in g && x.manager == me && DistinctManagers(g) ==> ids == x.ids
  {
    if g == [] then []
    else if g[0].manager == me then g[0].ids
    else
      MyPicks(g[1..], me)
  }

  /** `r.ownership` is `r.count` as a percentage of `squads` squads:
      times the number of squads it gives a hundred times the count. */
  predicate OwnedBy(r: TemplateRow, squads: nat) {
    r.ownership * squads as real == (r.count as real) * 100.0
  }

  /** The template row of one player: its count and its league ownership,
      count / squads · 100 (0 when no squad was gathered, when the count is
      0 too). */
  function TemplateRowOf(g: seq<Gathered>, pid: int): (r: TemplateRow)
    ensures r.playerId == pid && r.count == Occurrences(g, pid)
    ensures OwnedBy(r, |g|)
  {
    var c := Occurrences(g, pid);
    if |g| == 0 then
      assert Flatten(Map(g, IdsOf)) == [];
      TemplateRow(pid, c, 0.0)
    else
      var own := (c as real / |g| as real) * 100.0;
      assert (c as real / |g| as real) * |g| as real == c as real;
      TemplateRow(pid, c, own)
  }

  /** The template rows for the ids the player table knows. */
  function TemplateRows(g: seq<Gathered>, ids: seq<int>, known: set<int>): (rows: seq<TemplateRow>)
    ensures forall r :: r in rows ==>
              && r.playerId in ids && r.playerId in known
              && r.count == Occurrences(g, r.playerId)
              && OwnedBy(r, |g|)
    ensures forall pid :: pid in ids && pid in known ==> exists r :: r in rows && r.playerId == pid
  {
    if ids == [] then []
    else
      var rest := TemplateRows(g, ids[1..], known);
      assert forall p :: p in ids ==> p == ids[0] || p in ids[1..];
      if ids[0] in known then [TemplateRowOf(g, ids[0])] + rest
      else rest
  }

  /* ---------------------------------------------------------------------
     predict_league_winner, find_weak_rivals
     --------------------------------------------------------------------- */

  /** A standings entry with its extrapolated final score. */
  datatype Projection = Projection(entry: Entry, predictedFinal: int)

  function PredictedFinal(p: Projection): real { p.predictedFinal as real }
  function Total(e: Entry): real { e.total as real }

  function Project(e: Entry): (p: Projection)
    ensures p.entry == e && p.predictedFinal == e.total + 10 * e.eventTotal
  {
    Projection(e, e.total + e.eventTotal * 10)
  }

  /** `predict_league_winner`: every entry projected, highest projection
      first. */
  function PredictLeagueWinner(teams: seq<Entry>): (table: seq<Projection>)
    ensures SortedDesc(table, PredictedFinal)
    ensures |table| == |teams|
    ensures forall p :: p in table ==> p.entry in teams && p.predictedFinal == p.entry.total + 10 * p.entry.eventTotal
    ensures forall e :: e in teams ==> Project(e) in table
    ensures multiset(table) == multiset(Map(teams, Project))
  {
    var ps := Map(teams, Project);
    forall e | e in teams ensures Project(e) in ps {
      var i :| 0 <= i < |teams| && teams[i] == e;
      assert ps[i] == Project(e);
    }
    SortDesc(ps, PredictedFinal)
  }

  /** `find_weak_rivals`: the standings, lowest total first. */
  function FindWeakRivals(teams: seq<Entry>): (table: seq<Entry>)
    ensures SortedAsc(table, Total)
    ensures multiset(table) == multiset(teams)
  {
    SortAsc(teams, Total)
  }
}

=== FILE: live.dfy ===
/** `LiveGameweekTracker` (live_tracker.py): the live-points fold over a
    manager's picks, the bonus-points table and the team-value change. The
    live and picks payloads are inputs; fetching them is not modelled. */
module Live {
  import opened Wrappers
  import opened Seqs
  import opened Fetcher

  /** One entry of a manager's `picks`: `position` is the squad slot 1..15
      (1..11 start), `multiplier` 2 for the captain, 0 for a benched one. */
  datatype Pick = Pick(element: int, position: int, multiplier: int, isCaptain: bool, isVice: bool)

  /** The `stats` of one live element; a stat the payload omits reads 0. */
  datatype Stats = Stats(totalPoints: int, minutes: int, goals: int, assists: int,
                         cleanSheets: int, bonus: int, bps: int)

  const NoStats := Stats(0, 0, 0, 0, 0, 0, 0)

  /** One entry of the live payload's `elements`; `None` when it has no
      `stats` object. */
  datatype LiveElement = LiveElement(id: int, stats: Option<Stats>)

  /** The live element carries the id. */
  function LiveHas(id: int): LiveElement -> bool { (e: LiveElement) => e.id == id }

  /** `{elem['id']: elem ...}.get(id, {}).get('stats', {})`: the stats of the
      last live element with that id (a later entry overwrites an earlier one
      in the dict), or no stats. */
  function LiveStats(live: seq<LiveElement>, id: int): (s: Stats)
    ensures (forall e :: e in live ==> e.id != id) ==> s == NoStats
    ensures (exists e :: e in live && e.id == id) ==>
              exists i :: 0 <= i < |live| && live[i].id == id && s == live[i].stats.GetOr(NoStats) &&
                forall j :: i < j < |live| ==> live[j].id != id
  {
    var k := LastWhere(live, LiveHas(id));
    if k < 0 then
      assert forall e :: e in live ==> e.id != id by {
        forall e | e in live ensures e.id != id {
          var j :| 0 <= j < |live| && live[j] == e;
          assert !LiveHas(id)(live[j]);
        }
      }
      NoStats
    else
      live[k].stats.GetOr(NoStats)
  }

  /** The payload element carries the id. */
  function ElementHas(id: int): Element -> bool { (e: Element) => e.id == id }

  /** `all_players.get(id, {}).get('web_name', 'Unknown')`: the `web_name`
      of the last element with that id, or "Unknown". */
  function NameOf(players: seq<Element>, id: int): (name: string)
    ensures (forall e :: e in players ==> e.id != id) ==> name == "Unknown"
    ensures (exists e :: e in players && e.id == id) ==>
              exists i :: 0 <= i < |players| && players[i].id == id && name == players[i].webName &&
                forall j :: i < j < |players| ==> players[j].id != id
  {
    var k := LastWhere(players, ElementHas(id));
    if k < 0 then
      assert forall e :: e in players ==> e.id != id by {
        forall e | e in players ensures e.id != id {
          var j :| 0 <= j < |players| && players[j] == e;
          assert !ElementHas(id)(players[j]);
        }
      }
      "Unknown"
    else
      players[k].webName
  }

  /** One row of the live team table. */
  datatype LiveRow = LiveRow(
    name: string,
    position: int,
    isCaptain: bool,
    isVice: bool,
    livePoints: int,
    multiplier: int,
    finalPoints: int,
    stats: Stats)

  function FinalPoints(r: LiveRow): int { r.finalPoints }

  /** Slots 1..11 form the starting eleven. */
  predicate Starter(r: LiveRow) { r.position <= 11 }

  /** The row for one pick. */
  function LiveRowOf(p: Pick, live: seq<LiveElement>, players: seq<Element>): (r: LiveRow)
    ensures r.position == p.position && r.multiplier == p.multiplier && r.isVice == p.isVice
    ensures r.livePoints == LiveStats(live, p.element).totalPoints
    ensures r.finalPoints == r.livePoints * r.multiplier
    ensures r.isCaptain <==> p.multiplier == 2
  {
    var s := LiveStats(live, p.element);
    LiveRow(NameOf(players, p.element), p.position, p.multiplier == 2, p.isVice,
            s.totalPoints, p.multiplier, s.totalPoints * p.multiplier, s)
  }

  /** The result of `track_my_team_live` (the timestamp left out). */
  datatype LiveTeam = LiveTeam(gameweek: int, totalPoints: int, team: seq<LiveRow>)

  /** `track_my_team_live`: one row per pick, in pick order, and the total
      of the starting eleven's final points. */
  method TrackMyTeamLive(gameweek: int, picks: seq<Pick>, live: seq<LiveElement>, players: seq<Element>)
    returns (res: LiveTeam)
    ensures res.gameweek == gameweek
    ensures |res.team| == |picks|
    ensures forall i :: 0 <= i < |picks| ==> res.team[i] == LiveRowOf(picks[i], live, players)
    ensures res.totalPoints == SumInt(Filter(res.team, Starter), FinalPoints)
  {
    var team := Map(picks, RowFor(live, players));
    var total := StartersTotal(team);
    res := LiveTeam(gameweek, total, team);
  }

  /** The running total of the loop over the rows: each starter's final
      points, in order. */
  method StartersTotal(team: seq<LiveRow>) returns (total: int)
    ensures total == SumInt(Filter(team, Starter), FinalPoints)
  {
    total := 0;
    for k := 0 to |team|
      invariant total == SumInt(Filter(team[..k], Starter), FinalPoints)
    {
      assert team[..k + 1] == team[..k] + [team[k]];
      StarterStep(team[..k], team[k]);
      if Starter(team[k]) {
        total := total + team[k].finalPoints;
      }
    }
    assert team[..|team|] == team;
  }

  function RowFor(live: seq<LiveElement>, players: seq<Element>): Pick -> LiveRow {
    (p: Pick) => LiveRowOf(p, live, players)
  }

  /** Appending a row adds its final points to the total when it starts. */
  lemma StarterStep(team: seq<LiveRow>, row: LiveRow)
    ensures SumInt(Filter(team + [row], Starter), FinalPoints)
            == SumInt(Filter(team, Starter), FinalPoints) + (if Starter(row) then row.finalPoints else 0)
  {
    FilterSnoc(team, row, Starter);
    if Starter(row) {
      SumIntSnoc(Filter(team, Starter), row, FinalPoints);
    }
  }

  /** The bench never counts: a table whose starters all scored nothing
      totals nothing, whatever the bench scored. */
  lemma {:induction false} BenchNeverCounts(team: seq<LiveRow>)
    requires forall r :: r in team && Starter(r) ==> r.finalPoints == 0
    ensures SumInt(Filter(team, Starter), FinalPoints) == 0
  {
    if team != [] {
      var init, r := team[..|team| - 1], team[|team| - 1];
      assert team == init + [r];
      BenchNeverCounts(init);
      FilterSnoc(init, r, Starter);
      if Starter(r) {
        SumIntSnoc(Filter(init, Starter), r, FinalPoints);
      }
    }
  }

  /** Every starter's final points are in the total: with no negative final
      points, the total is at least any one starter's (the captain's doubled
      points included). */
  lemma {:induction false} TotalCoversRow(team: seq<LiveRow>, i: int)
    requires forall r :: r in team ==> r.finalPoints >= 0
    requires 0 <= i < |team| && Starter(team[i])
    ensures SumInt(Filter(team, Starter), FinalPoints) >= team[i].finalPoints
  {
    var init, r := team[..|team| - 1], team[|team| - 1];
    assert team == init + [r];
    FilterSnoc(init, r, Starter);
    NonNegativeSum(Filter(init, Starter));
    if i < |team| - 1 {
      TotalCoversRow(init, i);
    }
    if Starter(r) {
      SumIntSnoc(Filter(init, Starter), r, FinalPoints);
    }
  }

  lemma {:induction false} NonNegativeSum(team: seq<LiveRow>)
    requires forall r :: r in team ==> r.finalPoints >= 0
    ensures SumInt(team, FinalPoints) >= 0
  {
    if team != [] {
      NonNegativeSum(team[..|team| - 1]);
    }
  }

  /* ---------------------------------------------------------------------
     get_bonus_points_system
     --------------------------------------------------------------------- */

  datatype BpsRow = BpsRow(playerId: int, bps: int, bonus: int, minutes: int)

  function Bps(r: BpsRow): real { r.bps as real }

  function BpsRowOf(e: LiveElement): BpsRow {
    var s := e.stats.GetOr(NoStats);
    BpsRow(e.id, s.bps, s.bonus, s.minutes)
  }

  predicate HasBps(r: BpsRow) { r.bps > 0 }

  datatype BpsError = NoBpsColumn

  /** `get_bonus_points_system`: a row for every live element with positive
      BPS, highest BPS first (ties in no particular order). With no such
      element the frame built from the empty list has no `bps` column and
      the sort raises. */
  function GetBonusPointsSystem(live: seq<LiveElement>): (res: Result<seq<BpsRow>, BpsError>)
    ensures res.Failure? <==> forall e :: e in live ==> BpsRowOf(e).bps <= 0
    ensures res.Success? ==> SortedDesc(res.value, Bps)
    ensures res.Success? ==> forall r :: r in res.value ==> r.bps > 0
    ensures res.Success? ==> forall e :: e in live && BpsRowOf(e).bps > 0 ==> BpsRowOf(e) in res.value
    ensures res.Success? ==> forall r :: r in res.value ==> exists i :: 0 <= i < |live| && BpsRowOf(live[i]) == r
    ensures res.Success? ==> |res.value| <= |live|
    ensures res.Success? ==> multiset(res.value) == multiset(Filter(Map(live, BpsRowOf), HasBps))
  {
    var positive := Filter(Map(live, BpsRowOf), HasBps);
    PositiveRows(live);
    if positive == [] then Failure(NoBpsColumn)
    else Success(SortDesc(positive, Bps))
  }

  /** The rows with positive BPS are exactly those of the live elements
      with positive BPS. */
  lemma PositiveRows(live: seq<LiveElement>)
    ensures forall e :: e in live && BpsRowOf(e).bps > 0 ==> BpsRowOf(e) in Filter(Map(live, BpsRowOf), HasBps)
    ensures forall r :: r in Filter(Map(live, BpsRowOf), HasBps) ==>
              r.bps > 0 && exists i :: 0 <= i < |live| && BpsRowOf(live[i]) == r
  {
    var rows := Map(live, BpsRowOf);
    forall e | e in live ensures BpsRowOf(e) in rows {
      var i :| 0 <= i < |live| && live[i] == e;
      assert rows[i] == BpsRowOf(e);
    }
    forall r | r in rows ensures exists i :: 0 <= i < |live| && BpsRowOf(live[i]) == r {
      var i :| 0 <= i < |rows| && rows[i] == r;
    }
  }

  /* ---------------------------------------------------------------------
     get_price_change_impact
     --------------------------------------------------------------------- */

  datatype ValueVerdict = Gained | Lost | Unchanged

  function CostChange(e: Element): int { e.costChangeEvent.GetOr(0) }

  /** The team's value change in tenths: `cost_change_event` summed over the
      elements whose id is picked (a missing value skipped). */
  function ChangeTenths(players: seq<Element>, ids: seq<int>): int {
    SumInt(Filter(players, Picked(ids)), CostChange)
  }

  /** `all_players['id'].isin(ids)`. */
  function Picked(ids: seq<int>): Element -> bool {
    (e: Element) => e.id in ids
  }

  /** `get_price_change_impact`: the change in millions and its verdict. */
  function GetPriceChangeImpact(players: seq<Element>, picks: seq<Pick>): (res: (real, ValueVerdict))
    ensures res.0 * 10.0 == ChangeTenths(players, Map(picks, PickId)) as real
    ensures res.1 == Gained <==> ChangeTenths(players, Map(picks, PickId)) > 0
    ensures res.1 == Lost <==> ChangeTenths(players, Map(picks, PickId)) < 0
  {
    var t := ChangeTenths(players, Map(picks, PickId));
    (t as real / 10.0, if t > 0 then Gained else if t < 0 then Lost else Unchanged)
  }

  function PickId(p: Pick): int { p.element }

  /** A team none of whose players fell in price never reports a loss. */
  lemma NoFallNoLoss(players: seq<Element>, picks: seq<Pick>)
    requires forall e :: e in players ==> e.costChangeEvent.GetOr(0) >= 0
    ensures GetPriceChangeImpact(players, picks).1 != Lost
  {
    NonNegativeChange(Filter(players, Picked(Map(picks, PickId))));
  }

  lemma {:induction false} NonNegativeChange(es: seq<Element>)
    requires forall e :: e in es ==> CostChange(e) >= 0
    ensures SumInt(es, CostChange) >= 0
  {
    if es != [] {
      NonNegativeChange(es[..|es| - 1]);
    }
  }
}

=== FILE: predictor.dfy ===
/** `AIPointsPredictor` (points_predictor.py): the derived features, the
    training guard, and the clipping, confidence banding and filters around
    the regressor's output. The fitted scaler and forest are one opaque
    function `Model` handed in by the caller. */
module Predictor {
  import opened Wrappers
  import opened Seqs
  import opened Types

  /** stat / (minutes + 1) · 90; `None` at minutes = −1, where the source
      divides by zero. */
  function Per90(stat: real, minutes: int): (r: Option<real>)
    ensures r.None? <==> minutes == -1
    ensures r.Some? ==> r.value * (minutes + 1) as real == stat * 90.0
  {
    if minutes == -1 then None else Some(stat / (minutes + 1) as real * 90.0)
  }

  /** At 0 minutes the rate is defined, and with minutes ≥ 0 a non-negative
      stat gives a rate between 0 and 90 · stat. */
  lemma Per90Bounds(stat: real, minutes: int)
    requires minutes >= 0 && stat >= 0.0
    ensures Per90(stat, minutes).Some?
    ensures 0.0 <= Per90(stat, minutes).value <= stat * 90.0
  {
    var d := (minutes + 1) as real;
    var r := Per90(stat, minutes).value;
    assert r * d == stat * 90.0;
  }

  /** `position_encoded`: `None` is the NaN an unmapped position gets. */
  function Encode(p: Position): (k: Option<int>)
    ensures k.None? <==> p == Unmapped
    ensures k.Some? ==> 0 <= k.value <= 3 && k.value == Rank(p)
  {
    match p
    case GK => Some(0)
    case DEF => Some(1)
    case MID => Some(2)
    case FWD => Some(3)
    case Unmapped => None
  }

  /** The encoding is a bijection between the four positions and 0..3:
      `Formation` decodes it. */
  lemma EncodeRoundTrip(p: Position, k: int)
    ensures p != Unmapped ==> Formation[Encode(p).value] == p
    ensures 0 <= k <= 3 ==> Encode(Formation[k]) == Some(k)
  {
  }

  /** The feature vector of one row (the columns the row model carries). */
  datatype Features = Features(
    form: real,
    ppg: real,
    minutes: int,
    goals: int,
    assists: int,
    xg: real,
    xa: real,
    ict: real,
    goalsPer90: Option<real>,
    assistsPer90: Option<real>,
    xgPer90: Option<real>,
    xaPer90: Option<real>,
    formMomentum: real,
    position: Option<int>)

  /** `prepare_features` for one row. */
  function PrepareFeatures(r: Row): (f: Features)
    ensures f.formMomentum == r.form * r.ppg
    ensures f.position == Encode(r.position)
    ensures f.goalsPer90 == Per90(r.goals as real, r.minutes) && f.xgPer90 == Per90(r.xg, r.minutes)
  {
    Features(r.form, r.ppg, r.minutes, r.goals, r.assists, r.xg, r.xa, r.ict,
             Per90(r.goals as real, r.minutes), Per90(r.assists as real, r.minutes),
             Per90(r.xg, r.minutes), Per90(r.xa, r.minutes), r.form * r.ppg, Encode(r.position))
  }

  /** The fitted scaler and regressor, composed. */
  type Model = Features -> real

  /* ---------------------------------------------------------------------
     train_model
     --------------------------------------------------------------------- */

  /** Training needs this many usable rows. */
  const MinTrainingRows: nat := 50

  predicate Trainable(r: Row) { r.minutes > 90 && r.form > 0.0 }

  /** `train_model`: whether the model is fitted afterwards. A failed
      attempt leaves an already fitted model fitted. */
  function TrainModel(rows: seq<Row>, trained: bool): (fitted: bool)
    ensures fitted <==> trained || Count(rows, Trainable) >= MinTrainingRows
  {
    if trained then true else Count(rows, Trainable) >= MinTrainingRows
  }

  /** Adding rows never makes training fail that succeeded before. */
  lemma TrainingMonotone(rows: seq<Row>, more: seq<Row>)
    requires TrainModel(rows, false)
    ensures TrainModel(rows + more, false)
  {
    FilterAppend(rows, more, Trainable);
  }

  /* ---------------------------------------------------------------------
     predict_next_gameweek
     --------------------------------------------------------------------- */

  datatype Confidence = High | Medium | Low

  /** HIGH above form 6, MEDIUM above 3, else LOW. */
  function ConfidenceOf(form: real): (c: Confidence)
    ensures c == High <==> form > 6.0
    ensures c == Low <==> form <= 3.0
  {
    if form > 6.0 then High else if form > 3.0 then Medium else Low
  }

  function ConfidenceRank(c: Confidence): nat {
    match c
    case Low => 0
    case Medium => 1
    case High => 2
  }

  /** Better form never lowers the confidence. */
  lemma ConfidenceMonotone(f1: real, f2: real)
    requires f1 <= f2
    ensures ConfidenceRank(ConfidenceOf(f1)) <= ConfidenceRank(ConfidenceOf(f2))
  {
  }

  /** `np.clip(x, 0, 20)`. */
  function Clip(x: real): (c: real)
    ensures 0.0 <= c <= 20.0
    ensures 0.0 <= x <= 20.0 ==> c == x
    ensures x < 0.0 ==> c == 0.0
    ensures x > 20.0 ==> c == 20.0
  {
    if x < 0.0 then 0.0 else if x > 20.0 then 20.0 else x
  }

  /** One row of the predictions table. */
  datatype Predicted = Predicted(row: Row, points: real, confidence: Confidence)

  function Points(p: Predicted): real { p.points }

  function PredictRow(model: Model): Row -> Predicted {
    (r: Row) => Predicted(r, Clip(model(PrepareFeatures(r))), ConfidenceOf(r.form))
  }

  predicate Predictable(r: Row) { IsAvailable(r.status) && r.minutes > 90 }

  /** `NotFitted`: the scaler was never fitted. `NoPredictionColumns`: the
      column-less frame returned when no row is predictable, which the
      captain, differential and value filters index by column. */
  datatype PredictError = NotFitted | NoPredictionColumns

  /** `predict_next_gameweek(top_n)` from a predictor that is `trained` or
      not: it first tries to train; with no predictable row it returns an
      empty table; otherwise the unfitted scaler raises unless training has
      succeeded. Also returns whether the model is now fitted. */
  function PredictNextGameweek(rows: seq<Row>, trained: bool, model: Model, topN: int)
    : (res: (Result<seq<Predicted>, PredictError>, bool))
    ensures res.1 == TrainModel(rows, trained)
    ensures res.0.Failure? <==> !res.1 && Count(rows, Predictable) > 0
    ensures res.0.Success? ==>
              && |res.0.value| == (if topN <= 0 then 0 else Min(topN, Count(rows, Predictable)))
              && SortedDesc(res.0.value, Points)
              && forall p :: p in res.0.value ==>
                   && p.row in rows && Predictable(p.row)
                   && p.points == Clip(model(PrepareFeatures(p.row)))
                   && 0.0 <= p.points <= 20.0
                   && p.confidence == ConfidenceOf(p.row.form)
    ensures res.0.Success? ==>
              multiset(res.0.value) <= multiset(Map(Filter(rows, Predictable), PredictRow(model)))
  {
    var fitted := TrainModel(rows, trained);
    var valid := Filter(rows, Predictable);
    if valid == [] then (Success([]), fitted)
    else if !fitted then (Failure(NotFitted), fitted)
    else
      var preds := Map(valid, PredictRow(model));
      PredictedFrom(valid, model);
      var top := NLargest(preds, topN, Points);
      assert forall p :: p in top ==> p.row in valid && p == PredictRow(model)(p.row);
      (Success(top), fitted)
  }

  /** Each prediction of a table carries its own row and that row's
      clipped model output and confidence. */
  lemma PredictedFrom(valid: seq<Row>, model: Model)
    ensures forall p :: p in Map(valid, PredictRow(model)) ==> p.row in valid && p == PredictRow(model)(p.row)
  {
    var preds := Map(valid, PredictRow(model));
    forall p | p in preds ensures p.row in valid && p == PredictRow(model)(p.row) {
      var i :| 0 <= i < |preds| && preds[i] == p;
      assert p == PredictRow(model)(valid[i]);
    }
  }

  /** A predictable row left out of the table is predicted no more points
      than any row in it. */
  lemma PredictionsDominate(rows: seq<Row>, model: Model, topN: int, r: Row, k: int)
    requires r in rows && Predictable(r)
    requires PredictNextGameweek(rows, true, model, topN).0.Success?
    requires PredictRow(model)(r) !in PredictNextGameweek(rows, true, model, topN).0.value
    requires 0 <= k < |PredictNextGameweek(rows, true, model, topN).0.value|
    ensures Clip(model(PrepareFeatures(r))) <= PredictNextGameweek(rows, true, model, topN).0.value[k].points
  {
    var valid := Filter(rows, Predictable);
    var preds := Map(valid, PredictRow(model));
    var i :| 0 <= i < |valid| && valid[i] == r;
    assert preds[i] == PredictRow(model)(r);
    NLargestDominates(preds, topN, Points, PredictRow(model)(r), k);
  }

  /* ---------------------------------------------------------------------
     predict_captain_options, predict_differentials,
     compare_prediction_vs_price
     --------------------------------------------------------------------- */

  predicate Premium(p: Predicted) { p.row.price >= 80 }

  /** The premium players (price at least 8.0) of a prediction table, in
      table order, the first `topN` of them (`head`, so a negative `topN`
      drops that many from the end). */
  function CaptainsAmong(ps: seq<Predicted>, topN: int): (cs: seq<Predicted>)
    ensures |cs| == if topN >= 0 then Min(topN, Count(ps, Premium)) else Max(0, Count(ps, Premium) + topN)
    ensures IsSubseq(cs, ps)
    ensures forall p :: p in cs ==> p in ps && Premium(p)
    ensures topN >= Count(ps, Premium) ==> forall p :: p in ps && Premium(p) ==> p in cs
  {
    FilterTakeIsSubseq(ps, Premium, topN);
    Take(Filter(ps, Premium), topN)
  }

  /** Over a table ranked by points, the captains are the best premium
      players: a premium player left out is predicted no more points than
      any listed captain. */
  lemma CaptainsDominate(ps: seq<Predicted>, topN: int, p: Predicted, k: int)
    requires SortedDesc(ps, Points)
    requires p in ps && Premium(p) && p !in CaptainsAmong(ps, topN)
    requires 0 <= k < |CaptainsAmong(ps, topN)|
    ensures p.points <= CaptainsAmong(ps, topN)[k].points
  {
    FilterTakeDominates(ps, Premium, topN, Points);
  }

  /** `predict_captain_options(top_n)`: the captains among the top 100
      predictions; the column-less empty table has no `price` to filter on. */
  function PredictCaptainOptions(rows: seq<Row>, trained: bool, model: Model, topN: int)
    : (res: (Result<seq<Predicted>, PredictError>, bool))
    ensures res.1 == TrainModel(rows, trained)
    ensures res.0.Failure? <==> PredictNextGameweek(rows, trained, model, 100).0.Failure? || Count(rows, Predictable) == 0
    ensures res.0 == Failure(NoPredictionColumns) <==> Count(rows, Predictable) == 0
    ensures res.0.Success? ==> res.0.value == CaptainsAmong(PredictNextGameweek(rows, trained, model, 100).0.value, topN)
  {
    var (preds, fitted) := PredictNextGameweek(rows, trained, model, 100);
    match preds
    case Failure(e) => (Failure(e), fitted)
    case Success(ps) => (if ps == [] then Failure(NoPredictionColumns) else Success(CaptainsAmong(ps, topN)), fitted)
  }

  function LowOwnedBy(ownershipMax: real): Predicted -> bool {
    (p: Predicted) => p.row.ownership <= ownershipMax
  }

  /** The rows of a prediction table owned by at most `ownershipMax`
      percent, in table order, the first `topN` of them (`head`). */
  function DifferentialsAmong(ps: seq<Predicted>, ownershipMax: real, topN: int): (ds: seq<Predicted>)
    ensures var n := Count(ps, LowOwnedBy(ownershipMax));
            |ds| == if topN >= 0 then Min(topN, n) else Max(0, n + topN)
    ensures IsSubseq(ds, ps)
    ensures forall p :: p in ds ==> p in ps && p.row.ownership <= ownershipMax
    ensures topN >= Count(ps, LowOwnedBy(ownershipMax)) ==>
              forall p :: p in ps && p.row.ownership <= ownershipMax ==> p in ds
  {
    FilterTakeIsSubseq(ps, LowOwnedBy(ownershipMax), topN);
    Take(Filter(ps, LowOwnedBy(ownershipMax)), topN)
  }

  /** Over a table ranked by points, a low-owned player left out is
      predicted no more points than any listed differential. */
  lemma DifferentialsDominate(ps: seq<Predicted>, ownershipMax: real, topN: int, p: Predicted, k: int)
    requires SortedDesc(ps, Points)
    requires p in ps && p.row.ownership <= ownershipMax && p !in DifferentialsAmong(ps, ownershipMax, topN)
    requires 0 <= k < |DifferentialsAmong(ps, ownershipMax, topN)|
    ensures p.points <= DifferentialsAmong(ps, ownershipMax, topN)[k].points
  {
    FilterTakeDominates(ps, LowOwnedBy(ownershipMax), topN, Points);
  }

  /** `predict_differentials(ownership_max, top_n)`: the differentials among
      the top 200 predictions; the column-less empty table has no
      `selected_by_percent` to filter on. */
  function PredictDifferentials(rows: seq<Row>, trained: bool, model: Model, ownershipMax: real, topN: int)
    : (res: (Result<seq<Predicted>, PredictError>, bool))
    ensures res.1 == TrainModel(rows, trained)
    ensures res.0.Failure? <==> PredictNextGameweek(rows, trained, model, 200).0.Failure? || Count(rows, Predictable) == 0
    ensures res.0 == Failure(NoPredictionColumns) <==> Count(rows, Predictable) == 0
    ensures res.0.Success? ==>
              res.0.value == DifferentialsAmong(PredictNextGameweek(rows, trained, model, 200).0.value, ownershipMax, topN)
  {
    var (preds, fitted) := PredictNextGameweek(rows, trained, model, 200);
    match preds
    case Failure(e) => (Failure(e), fitted)
    case Success(ps) =>
      (if ps == [] then Failure(NoPredictionColumns) else Success(DifferentialsAmong(ps, ownershipMax, topN)), fitted)
  }

  /** A prediction with its points per million. */
  datatype ValuePick = ValuePick(pick: Predicted, ratio: real)

  function Ratio(v: ValuePick): real { v.ratio }

  function ValueOf(p: Predicted): (v: ValuePick)
    ensures v.pick == p && v.ratio * Millions(p.row.price) == p.points
  {
    ValuePick(p, p.points / Millions(p.row.price))
  }

  /** A prediction table ranked by points per million, best first. */
  function BestValueAmong(ps: seq<Predicted>, topN: int): (vs: seq<ValuePick>)
    ensures SortedDesc(vs, Ratio)
    ensures |vs| == if topN <= 0 then 0 else Min(topN, |ps|)
    ensures forall v :: v in vs ==> v.pick in ps && v == ValueOf(v.pick)
    ensures multiset(vs) <= multiset(Map(ps, ValueOf))
  {
    ValuesOf(ps);
    NLargest(Map(ps, ValueOf), topN, Ratio)
  }

  /** A prediction left out of the value ranking has no better points per
      million than any listed one. */
  lemma BestValueDominates(ps: seq<Predicted>, topN: int, p: Predicted, k: int)
    requires p in ps && ValueOf(p) !in BestValueAmong(ps, topN)
    requires 0 <= k < |BestValueAmong(ps, topN)|
    ensures ValueOf(p).ratio <= BestValueAmong(ps, topN)[k].ratio
  {
    var all := Map(ps, ValueOf);
    var i :| 0 <= i < |ps| && ps[i] == p;
    assert all[i] == ValueOf(p);
    NLargestDominates(all, topN, Ratio, ValueOf(p), k);
  }

  lemma ValuesOf(ps: seq<Predicted>)
    ensures forall v :: v in Map(ps, ValueOf) ==> v.pick in ps && v == ValueOf(v.pick)
  {
    var all := Map(ps, ValueOf);
    forall v | v in all ensures v.pick in ps && v == ValueOf(v.pick) {
      var i :| 0 <= i < |all| && all[i] == v;
    }
  }

  /** `compare_prediction_vs_price(top_n)`: the best value among the top
      200 predictions; the column-less empty table has no
      `predicted_points` to divide. */
  function ComparePredictionVsPrice(rows: seq<Row>, trained: bool, model: Model, topN: int)
    : (res: (Result<seq<ValuePick>, PredictError>, bool))
    ensures res.1 == TrainModel(rows, trained)
    ensures res.0.Failure? <==> PredictNextGameweek(rows, trained, model, 200).0.Failure? || Count(rows, Predictable) == 0
    ensures res.0 == Failure(NoPredictionColumns) <==> Count(rows, Predictable) == 0
    ensures res.0.Success? ==> res.0.value == BestValueAmong(PredictNextGameweek(rows, trained, model, 200).0.value, topN)
  {
    var (preds, fitted) := PredictNextGameweek(rows, trained, model, 200);
    match preds
    case Failure(e) => (Failure(e), fitted)
    case Success(ps) => (if ps == [] then Failure(NoPredictionColumns) else Success(BestValueAmong(ps, topN)), fitted)
  }
}

=== FILE: prices.dfy ===
/** `PriceChangePredictor` (price_predictor.py): the transfer index each
    player's net transfers give, the rise and drop probabilities read off
    it, and the four lists built from them. */
module Prices {
  import opened Wrappers
  import opened Seqs
  import opened Types
  import opened Fetcher

  /** Rise above this index (and drop below its negation) is possible. */
  const IndexThreshold: real := 0.005

  /** One row of `get_price_change_predictions`. `index` is `None` where the
      ownership is missing (the NaN the division then gives). */
  datatype Prediction = Prediction(
    element: Element,
    club: Option<string>,
    position: Position,
    net: int,
    index: Option<real>,
    rise: real,
    drop: real)

  function Rise(p: Prediction): real { p.rise }
  function Drop(p: Prediction): real { p.drop }

  /** Transfers in minus transfers out this gameweek. */
  function NetTransfers(e: Element): int {
    e.transfersIn - e.transfersOut
  }

  /** net / (ownership · 1000 + 1); the denominator is at least 1. */
  function TransferIndex(e: Element): (ix: Option<real>)
    ensures ix.None? <==> e.ownership.None?
    ensures ix.Some? ==> ix.value * (e.ownership.value * 1000.0 + 1.0) == NetTransfers(e) as real
  {
    match e.ownership
    case None => None
    case Some(o) => Some(NetTransfers(e) as real / (o * 1000.0 + 1.0))
  }

  function RMin(a: real, b: real): real { if a <= b then a else b }

  /** `rise_probability`: min(100 · index, 100) past the threshold, else 0. */
  function RiseProbability(ix: Option<real>): (r: real)
    ensures 0.0 <= r <= 100.0
    ensures r > 0.0 <==> ix.Some? && ix.value > IndexThreshold
  {
    match ix
    case Some(v) => if v > IndexThreshold then RMin(v * 100.0, 100.0) else 0.0
    case None => 0.0
  }

  /** `drop_probability`: min(100 · |index|, 100) below −threshold, else 0. */
  function DropProbability(ix: Option<real>): (d: real)
    ensures 0.0 <= d <= 100.0
    ensures d > 0.0 <==> ix.Some? && ix.value < -IndexThreshold
  {
    match ix
    case Some(v) => if v < -IndexThreshold then RMin(-v * 100.0, 100.0) else 0.0
    case None => 0.0
  }

  /** A team's short name, looked up from its id. */
  function ShortName(teams: seq<Team>, id: int): (name: Option<string>)
    ensures name.Some? <==> TeamById(teams, id).Some?
  {
    match TeamById(teams, id)
    case None => None
    case Some(t) => Some(t.shortName)
  }

  /** The prediction row for one element. */
  function Predict(e: Element, teams: seq<Team>): (p: Prediction)
    ensures p.element == e && p.net == NetTransfers(e)
    ensures 0.0 <= p.rise <= 100.0 && 0.0 <= p.drop <= 100.0
    ensures p.rise == 0.0 || p.drop == 0.0
    ensures p.rise > 0.0 ==> p.net > 0
    ensures p.drop > 0.0 ==> p.net < 0
  {
    var ix := TransferIndex(e);
    IndexSign(e);
    Prediction(e, ShortName(teams, e.team), PositionOf(e.elementType), NetTransfers(e), ix,
               RiseProbability(ix), DropProbability(ix))
  }

  /** The index has the sign of the net transfers. */
  lemma IndexSign(e: Element)
    ensures TransferIndex(e).Some? && TransferIndex(e).value > 0.0 ==> NetTransfers(e) > 0
    ensures TransferIndex(e).Some? && TransferIndex(e).value < 0.0 ==> NetTransfers(e) < 0
  {
    if e.ownership.Some? {
      var d, q := e.ownership.value * 1000.0 + 1.0, TransferIndex(e).value;
      if q > 0.0 {
        assert q * d > 0.0;
      } else if q < 0.0 {
        assert (-q) * d > 0.0;
      }
    }
  }

  /** `get_price_change_predictions`: one row per element, in order. */
  function GetPriceChangePredictions(elements: seq<Element>, teams: seq<Team>): (ps: seq<Prediction>)
    ensures |ps| == |elements|
    ensures forall i :: 0 <= i < |ps| ==> ps[i] == Predict(elements[i], teams)
  {
    Map(elements, (e: Element) => Predict(e, teams))
  }

  /** The same element with its transfers in and out exchanged. */
  function Swapped(e: Element): Element {
    e.(transfersIn := e.transfersOut, transfersOut := e.transfersIn)
  }

  /** Rise and drop are mirror images: exchanging transfers in and out
      exchanges the two probabilities. */
  lemma RiseDropMirror(e: Element, teams: seq<Team>)
    ensures Predict(Swapped(e), teams).rise == Predict(e, teams).drop
    ensures Predict(Swapped(e), teams).drop == Predict(e, teams).rise
  {
    if e.ownership.Some? {
      var d := e.ownership.value * 1000.0 + 1.0;
      assert NetTransfers(Swapped(e)) as real / d == -(NetTransfers(e) as real / d);
    }
  }

  /** More net transfers in never lower the rise probability. */
  lemma RiseMonotone(e1: Element, e2: Element, teams: seq<Team>)
    requires e1.ownership == e2.ownership
    requires NetTransfers(e1) <= NetTransfers(e2)
    ensures Predict(e1, teams).rise <= Predict(e2, teams).rise
  {
    if e1.ownership.Some? {
      var d := e1.ownership.value * 1000.0 + 1.0;
      QuotientMonotone(NetTransfers(e1) as real, NetTransfers(e2) as real, d);
    }
  }

  lemma QuotientMonotone(a: real, b: real, d: real)
    requires d > 0.0 && a <= b
    ensures a / d <= b / d
  {
    assert (b - a) / d >= 0.0;
    assert b / d - a / d == (b - a) / d;
  }

  predicate Rising(p: Prediction) { p.rise > 30.0 && IsAvailable(p.element.status) }
  predicate Falling(p: Prediction) { p.drop > 30.0 && IsAvailable(p.element.status) }

  /** `get_rising_players(top_n)`: available players with rise above 30,
      likeliest first, at most `top_n`. */
  function GetRisingPlayers(preds: seq<Prediction>, topN: int): (risers: seq<Prediction>)
    ensures |risers| == if topN <= 0 then 0 else Min(topN, |Filter(preds, Rising)|)
    ensures forall p :: p in risers ==> p in preds && Rising(p)
    ensures multiset(risers) <= multiset(Filter(preds, Rising))
    ensures SortedDesc(risers, Rise)
  {
    NLargest(Filter(preds, Rising), topN, Rise)
  }

  /** A rising player left out of the list is no likelier to rise than any
      player in it. */
  lemma RisersDominate(preds: seq<Prediction>, topN: int, p: Prediction, k: int)
    requires p in preds && Rising(p) && p !in GetRisingPlayers(preds, topN)
    requires 0 <= k < |GetRisingPlayers(preds, topN)|
    ensures p.rise <= GetRisingPlayers(preds, topN)[k].rise
  {
    NLargestDominates(Filter(preds, Rising), topN, Rise, p, k);
  }

  /** `get_dropping_players(top_n)`: the same with the drop probability. */
  function GetDroppingPlayers(preds: seq<Prediction>, topN: int): (fallers: seq<Prediction>)
    ensures |fallers| == if topN <= 0 then 0 else Min(topN, |Filter(preds, Falling)|)
    ensures forall p :: p in fallers ==> p in preds && Falling(p)
    ensures multiset(fallers) <= multiset(Filter(preds, Falling))
    ensures SortedDesc(fallers, Drop)
  {
    NLargest(Filter(preds, Falling), topN, Drop)
  }

  lemma FallersDominate(preds: seq<Prediction>, topN: int, p: Prediction, k: int)
    requires p in preds && Falling(p) && p !in GetDroppingPlayers(preds, topN)
    requires 0 <= k < |GetDroppingPlayers(preds, topN)|
    ensures p.drop <= GetDroppingPlayers(preds, topN)[k].drop
  {
    NLargestDominates(Filter(preds, Falling), topN, Drop, p, k);
  }

  /** No available player is listed both as a riser and as a faller. */
  lemma RisersAndFallersDisjoint(elements: seq<Element>, teams: seq<Team>, topN: int, p: Prediction)
    requires p in GetRisingPlayers(GetPriceChangePredictions(elements, teams), topN)
    ensures p !in GetDroppingPlayers(GetPriceChangePredictions(elements, teams), topN)
  {
    var preds := GetPriceChangePredictions(elements, teams);
    var i :| 0 <= i < |preds| && preds[i] == p;
    assert p == Predict(elements[i], teams);
  }

  /** No prediction row gives both a rise and a drop. */
  lemma PredictionsExclusive(elements: seq<Element>, teams: seq<Team>)
    ensures forall p :: p in GetPriceChangePredictions(elements, teams) ==> p.rise == 0.0 || p.drop == 0.0
  {
    var preds := GetPriceChangePredictions(elements, teams);
    forall p | p in preds ensures p.rise == 0.0 || p.drop == 0.0 {
      var i :| 0 <= i < |preds| && preds[i] == p;
    }
  }

  /** `check_my_team_prices(ids)`: the squad's players likely to rise and
      likely to drop. */
  datatype Alerts = Alerts(rising: seq<Prediction>, dropping: seq<Prediction>)

  function CheckMyTeamPrices(elements: seq<Element>, teams: seq<Team>, ids: seq<int>): (a: Alerts)
    ensures forall p :: p in a.rising <==> p in GetPriceChangePredictions(elements, teams) && p.element.id in ids && p.rise > 50.0
    ensures forall p :: p in a.dropping <==> p in GetPriceChangePredictions(elements, teams) && p.element.id in ids && p.drop > 50.0
    ensures forall p :: p in a.rising ==> p !in a.dropping
  {
    var preds := GetPriceChangePredictions(elements, teams);
    var mine := Filter(preds, (p: Prediction) => p.element.id in ids);
    PredictionsExclusive(elements, teams);
    Alerts(Filter(mine, (p: Prediction) => p.rise > 50.0), Filter(mine, (p: Prediction) => p.drop > 50.0))
  }

  /** `quick_value`: (0.5 · form + 0.5 · points per game) / price, missing
      values read as 0. `None` for a price that is not positive. */
  function QuickValue(e: Element): (qv: Option<real>)
    ensures qv.Some? <==> e.nowCost > 0
    ensures qv.Some? ==> qv.value * Millions(e.nowCost) == 0.5 * e.form.GetOr(0.0) + 0.5 * e.ppg.GetOr(0.0)
  {
    if e.nowCost <= 0 then None
    else Some((0.5 * e.form.GetOr(0.0) + 0.5 * e.ppg.GetOr(0.0)) / Millions(e.nowCost))
  }

  function QuickValueKey(p: Prediction): real {
    QuickValue(p.element).GetOr(0.0)
  }

  predicate BestBuy(p: Prediction) {
    p.rise > 40.0 && IsAvailable(p.element.status) && QuickValue(p.element).Some? && QuickValue(p.element).value > 0.5
  }

  /** `get_best_buys_before_rise(top_n)`: good-value players about to rise,
      best value first. */
  function GetBestBuysBeforeRise(preds: seq<Prediction>, topN: int): (buys: seq<Prediction>)
    ensures |buys| == if topN <= 0 then 0 else Min(topN, |Filter(preds, BestBuy)|)
    ensures forall p :: p in buys ==> p in preds && BestBuy(p)
    ensures multiset(buys) <= multiset(Filter(preds, BestBuy))
    ensures SortedDesc(buys, QuickValueKey)
  {
    NLargest(Filter(preds, BestBuy), topN, QuickValueKey)
  }

  /** A best buy left out of the list is no better value than any player in
      it. */
  lemma BestBuysDominate(preds: seq<Prediction>, topN: int, p: Prediction, k: int)
    requires p in preds && BestBuy(p) && p !in GetBestBuysBeforeRise(preds, topN)
    requires 0 <= k < |GetBestBuysBeforeRise(preds, topN)|
    ensures QuickValue(p.element).value <= QuickValue(GetBestBuysBeforeRise(preds, topN)[k].element).value
  {
    NLargestDominates(Filter(preds, BestBuy), topN, QuickValueKey, p, k);
  }
}

=== FILE: scoring.dfy ===
/** The composite value score (`calculate_value_score`,
    fpl_player_analyzer.py:24-72; analyze_my_team.py repeats it line for
    line). */
module Scoring {
  import opened Wrappers
  import opened Seqs
  import opened Types

  /** The only way scoring fails: sklearn's `MinMaxScaler` refuses a pool
      with no rows. */
  datatype ScoreError = EmptyPool

  /** What a missing `chance_of_playing_next_round` becomes. The payload
      leaves the field null for a player with no injury news; the source's
      `fillna(0)` turns that into 0, so the `< 100` test halves the score of
      every fully fit player (`MissingAsZero`). `MissingAsFit` reads the null
      as 100, which is what the availability penalty is evidently for. */
  datatype ChanceRule = MissingAsZero | MissingAsFit

  /** The chance a missing value is filled with under `rule`. */
  function MissingChance(rule: ChanceRule): int {
    match rule
    case MissingAsZero => 0
    case MissingAsFit => 100
  }

  /** Only players who have played are scored. */
  predicate Played(p: Player) {
    p.minutes > 0
  }

  /** `df.fillna(0)`: every missing numeric becomes 0 (the chance as `rule`
      says); no score yet. */
  function Fill(p: Player, rule: ChanceRule): Row {
    Row(p.id, p.name, p.teamName, p.club, p.position, p.price, p.status, p.minutes,
        p.totalPoints, p.goals, p.assists, p.cleanSheets, p.goalsConceded,
        p.form.GetOr(0.0), p.ppg.GetOr(0.0), p.ict.GetOr(0.0), p.xg.GetOr(0.0),
        p.xa.GetOr(0.0), p.xgi.GetOr(0.0), p.ownership.GetOr(0.0), p.chance.GetOr(MissingChance(rule)), 0.0)
  }

  /** A row with its score cleared: the record scoring starts from. */
  function Unscored(r: Row): Row {
    r.(valueScore := 0.0)
  }

  /** A scored row read back as a player record, as a second scoring pass
      sees it. */
  function Unfill(r: Row): Player {
    Player(r.id, r.name, r.teamName, r.club, r.position, r.price, r.status, r.minutes,
           r.totalPoints, r.goals, r.assists, r.cleanSheets, r.goalsConceded,
           Some(r.form), Some(r.ppg), Some(r.ict), Some(r.xg), Some(r.xa), Some(r.xgi),
           Some(r.ownership), Some(r.chance))
  }

  /** Filling a read-back row gives the row itself, minus its score. */
  lemma FillUnfill(r: Row, rule: ChanceRule)
    ensures Fill(Unfill(r), rule) == Unscored(r)
  {
  }

  /** The five normalised metrics. */
  datatype Metrics = Metrics(ppg: real, form: real, ppm: real, ict: real, xi: real)

  /** Points per game, form, points per million (`total_points / price`),
      ICT index and expected involvement (`xG + xA`). */
  function MetricsOf(r: Row): Metrics {
    Metrics(r.ppg, r.form, r.totalPoints as real / Millions(r.price), r.ict, r.xg + r.xa)
  }

  /** Column-wise minimum and maximum of the metrics over the pool. */
  datatype Bounds = Bounds(lo: Metrics, hi: Metrics)

  function BoundsOf(rows: seq<Row>): (b: Bounds)
    requires |rows| > 0
    ensures forall r :: r in rows ==> Within(MetricsOf(r), b)
    ensures Attained(rows, b)
  {
    Bounds(
      Metrics(MinBy(rows, r => MetricsOf(r).ppg), MinBy(rows, r => MetricsOf(r).form),
              MinBy(rows, r => MetricsOf(r).ppm), MinBy(rows, r => MetricsOf(r).ict),
              MinBy(rows, r => MetricsOf(r).xi)),
      Metrics(MaxBy(rows, r => MetricsOf(r).ppg), MaxBy(rows, r => MetricsOf(r).form),
              MaxBy(rows, r => MetricsOf(r).ppm), MaxBy(rows, r => MetricsOf(r).ict),
              MaxBy(rows, r => MetricsOf(r).xi)))
  }

  /** Every bound is the metric of some row of the pool. */
  ghost predicate Attained(rows: seq<Row>, b: Bounds) {
    && (exists r :: r in rows && MetricsOf(r).ppg == b.lo.ppg)
    && (exists r :: r in rows && MetricsOf(r).form == b.lo.form)
    && (exists r :: r in rows && MetricsOf(r).ppm == b.lo.ppm)
    && (exists r :: r in rows && MetricsOf(r).ict == b.lo.ict)
    && (exists r :: r in rows && MetricsOf(r).xi == b.lo.xi)
    && (exists r :: r in rows && MetricsOf(r).ppg == b.hi.ppg)
    && (exists r :: r in rows && MetricsOf(r).form == b.hi.form)
    && (exists r :: r in rows && MetricsOf(r).ppm == b.hi.ppm)
    && (exists r :: r in rows && MetricsOf(r).ict == b.hi.ict)
    && (exists r :: r in rows && MetricsOf(r).xi == b.hi.xi)
  }

  predicate Within(m: Metrics, b: Bounds) {
    && b.lo.ppg <= m.ppg <= b.hi.ppg
    && b.lo.form <= m.form <= b.hi.form
    && b.lo.ppm <= m.ppm <= b.hi.ppm
    && b.lo.ict <= m.ict <= b.hi.ict
    && b.lo.xi <= m.xi <= b.hi.xi
  }

  /** `MinMaxScaler`: (x - min) / (max - min), and 0 when the column is
      constant. The pool's extremes map to 0 and 1. */
  function MinMax(x: real, lo: real, hi: real): (r: real)
    ensures lo <= x <= hi ==> 0.0 <= r <= 1.0
    ensures x == lo ==> r == 0.0
    ensures lo < hi && x == hi ==> r == 1.0
  {
    if hi == lo then 0.0
    else
      var r := (x - lo) / (hi - lo);
      assert lo <= x <= hi ==> 0.0 <= r <= 1.0 by {
        if lo <= x <= hi { UnitQuotient(x - lo, hi - lo); }
      }
      assert x == hi ==> r == 1.0 by {
        if x == hi { SelfQuotient(hi - lo); }
      }
      assert x == lo ==> r == 0.0 by {
        if x == lo { ZeroQuotient(hi - lo); }
      }
      r
  }

  lemma UnitQuotient(a: real, d: real)
    requires 0.0 <= a <= d
    requires 0.0 < d
    ensures 0.0 <= a / d <= 1.0
  {
    var q := a / d;
    assert q * d == a;
  }

  lemma ZeroQuotient(d: real)
    requires d != 0.0
    ensures 0.0 / d == 0.0
  {
    var q := 0.0 / d;
    assert q * d == 0.0;
  }

  lemma SelfQuotient(d: real)
    requires d != 0.0
    ensures d / d == 1.0
  {
    var q := d / d;
    assert q * d == d;
    assert (q - 1.0) * d == 0.0;
  }

  /** Score weights; they sum to 1. */
  const WPpg: real := 0.25
  const WForm: real := 0.25
  const WPpm: real := 0.20
  const WIct: real := 0.15
  const WXi: real := 0.15

  /** The weighted sum of the normalised metrics, before any penalty. */
  function BaseScore(m: Metrics, b: Bounds): (s: real)
    ensures Within(m, b) ==> 0.0 <= s <= 1.0
  {
    WPpg * MinMax(m.ppg, b.lo.ppg, b.hi.ppg)
    + WForm * MinMax(m.form, b.lo.form, b.hi.form)
    + WPpm * MinMax(m.ppm, b.lo.ppm, b.hi.ppm)
    + WIct * MinMax(m.ict, b.lo.ict, b.hi.ict)
    + WXi * MinMax(m.xi, b.lo.xi, b.hi.xi)
  }

  /** `m` is no better than `n` on any of the five metrics. */
  predicate NoBetter(m: Metrics, n: Metrics) {
    m.ppg <= n.ppg && m.form <= n.form && m.ppm <= n.ppm && m.ict <= n.ict && m.xi <= n.xi
  }

  /** Every metric column of the pool takes more than one value. */
  predicate Spread(b: Bounds) {
    b.lo.ppg < b.hi.ppg && b.lo.form < b.hi.form && b.lo.ppm < b.hi.ppm && b.lo.ict < b.hi.ict && b.lo.xi < b.hi.xi
  }

  /** Scaling keeps the order of values inside the column's range. */
  lemma MinMaxMonotone(x: real, y: real, lo: real, hi: real)
    requires lo <= x <= y <= hi
    ensures MinMax(x, lo, hi) <= MinMax(y, lo, hi)
  {
    if hi != lo {
      var d := hi - lo;
      var p, r := (x - lo) / d, (y - lo) / d;
      assert p * d == x - lo && r * d == y - lo;
      assert (r - p) * d == y - x;
      PositiveFactor(r - p, d);
    }
  }

  lemma PositiveFactor(a: real, d: real)
    requires 0.0 < d && 0.0 <= a * d
    ensures 0.0 <= a
  {
  }

  /** A player at least as good on every metric gets at least the base
      score: the weights are all positive. */
  lemma BaseScoreMonotone(m: Metrics, n: Metrics, b: Bounds)
    requires Within(m, b) && Within(n, b) && NoBetter(m, n)
    ensures BaseScore(m, b) <= BaseScore(n, b)
  {
    MinMaxMonotone(m.ppg, n.ppg, b.lo.ppg, b.hi.ppg);
    MinMaxMonotone(m.form, n.form, b.lo.form, b.hi.form);
    MinMaxMonotone(m.ppm, n.ppm, b.lo.ppm, b.hi.ppm);
    MinMaxMonotone(m.ict, n.ict, b.lo.ict, b.hi.ict);
    MinMaxMonotone(m.xi, n.xi, b.lo.xi, b.hi.xi);
  }

  /** The weights sum to 1: a player at the bottom of every column scores
      0, and one at the top of every varying column scores 1. */
  lemma BaseScoreExtremes(b: Bounds)
    ensures BaseScore(b.lo, b) == 0.0
    ensures Spread(b) ==> BaseScore(b.hi, b) == 1.0
  {
  }

  /** Halve the score of a player whose chance of playing is below 100, then
      take 30% of an unavailable player's; the two compose. */
  function Penalise(base: real, chance: int, status: string): (s: real)
    ensures 0.0 <= base ==> 0.0 <= s <= base
    ensures chance < 100 && !IsAvailable(status) ==> s == base * 0.15
    ensures chance < 100 && IsAvailable(status) ==> s == base * 0.5
    ensures 100 <= chance && !IsAvailable(status) ==> s == base * 0.3
    ensures 100 <= chance && IsAvailable(status) ==> s == base
  {
    var halved := if chance < 100 then base * 0.5 else base;
    if !IsAvailable(status) then halved * 0.3 else halved
  }

  /** Row i of `rows` is the i-th player of `pool`, filled by `rule`, with
      the penalised weighted score of its metrics normalised over the whole
      filled pool. */
  ghost predicate ScoredFrom(rows: seq<Row>, pool: seq<Player>, rule: ChanceRule) {
    && |rows| == |pool|
    && (forall i :: 0 <= i < |rows| ==> Unscored(rows[i]) == Fill(pool[i], rule))
    && (forall i :: 0 <= i < |rows| ==>
          rows[i].valueScore == Penalise(BaseScore(MetricsOf(Fill(pool[i], rule)), BoundsOf(FillAll(pool, rule))),
                                         Fill(pool[i], rule).chance, pool[i].status))
  }

  /** `calculate_value_score`: drops players without minutes, fills NaNs,
      normalises the five metrics over what is left and applies the
      penalties. Row i of the result is the i-th player with minutes, filled,
      with a score in [0, 1]. */
  function CalculateValueScore(players: seq<Player>, rule: ChanceRule): (res: Result<seq<Row>, ScoreError>)
    ensures res.Failure? <==> forall p :: p in players ==> !Played(p)
    ensures res.Success? ==> |res.value| == Count(players, Played)
    ensures res.Success? ==> ScoredFrom(res.value, Filter(players, Played), rule)
    ensures res.Success? ==> forall i :: 0 <= i < |res.value| ==>
              res.value[i].minutes > 0 && 0.0 <= res.value[i].valueScore <= 1.0
  {
    var pool := Filter(players, Played);
    if |pool| == 0 then Failure(EmptyPool)
    else
      var b := BoundsOf(FillAll(pool, rule));
      var scored := ScoreAll(pool, b, rule);
      ScoredWithin(pool, b, rule);
      assert forall i :: 0 <= i < |scored| ==>
               Unscored(scored[i]) == Fill(pool[i], rule) &&
               scored[i].valueScore == Penalise(BaseScore(MetricsOf(Fill(pool[i], rule)), b),
                                                Fill(pool[i], rule).chance, pool[i].status) by {
        forall i | 0 <= i < |scored|
          ensures Unscored(scored[i]) == Fill(pool[i], rule)
          ensures scored[i].valueScore == Penalise(BaseScore(MetricsOf(Fill(pool[i], rule)), b),
                                                   Fill(pool[i], rule).chance, pool[i].status)
        {
          assert scored[i] == Score(pool[i], b, rule);
        }
      }
      Success(scored)
  }

  /** Between two scored players with the same penalties, the one at least
      as good on every metric scores at least as high. */
  lemma ValueScoreMonotone(players: seq<Player>, rule: ChanceRule, i: int, j: int)
    requires CalculateValueScore(players, rule).Success?
    requires 0 <= i < |CalculateValueScore(players, rule).value|
    requires 0 <= j < |CalculateValueScore(players, rule).value|
    requires var rows := CalculateValueScore(players, rule).value;
             && NoBetter(MetricsOf(rows[i]), MetricsOf(rows[j]))
             && (rows[i].chance < 100 <==> rows[j].chance < 100)
             && (IsAvailable(rows[i].status) <==> IsAvailable(rows[j].status))
    ensures CalculateValueScore(players, rule).value[i].valueScore
            <= CalculateValueScore(players, rule).value[j].valueScore
  {
    var rows := CalculateValueScore(players, rule).value;
    var pool := Filter(players, Played);
    var filled := FillAll(pool, rule);
    var b := BoundsOf(filled);
    var fi, fj := Fill(pool[i], rule), Fill(pool[j], rule);
    assert MetricsOf(rows[i]) == MetricsOf(fi) && MetricsOf(rows[j]) == MetricsOf(fj) by {
      assert Unscored(rows[i]) == fi && Unscored(rows[j]) == fj;
    }
    assert filled[i] == fi && filled[j] == fj;
    assert fi in filled && fj in filled;
    BaseScoreMonotone(MetricsOf(fi), MetricsOf(fj), b);
  }

  /** `fillna(0)` over a pool. */
  function FillAll(pool: seq<Player>, rule: ChanceRule): (rows: seq<Row>)
    ensures |rows| == |pool|
    ensures forall i :: 0 <= i < |pool| ==> rows[i] == Fill(pool[i], rule)
  {
    if pool == [] then [] else FillAll(pool[..|pool| - 1], rule) + [Fill(pool[|pool| - 1], rule)]
  }

  /** Every pool member scored against the same bounds. */
  function ScoreAll(pool: seq<Player>, b: Bounds, rule: ChanceRule): (rows: seq<Row>)
    ensures |rows| == |pool|
    ensures forall i :: 0 <= i < |pool| ==> rows[i] == Score(pool[i], b, rule)
  {
    if pool == [] then [] else ScoreAll(pool[..|pool| - 1], b, rule) + [Score(pool[|pool| - 1], b, rule)]
  }

  /** Scored against the pool's own bounds, every played row lands in [0, 1]. */
  lemma ScoredWithin(pool: seq<Player>, b: Bounds, rule: ChanceRule)
    requires |pool| > 0 && b == BoundsOf(FillAll(pool, rule))
    requires forall p :: p in pool ==> Played(p)
    ensures forall i :: 0 <= i < |pool| ==>
              ScoreAll(pool, b, rule)[i].minutes > 0 && 0.0 <= ScoreAll(pool, b, rule)[i].valueScore <= 1.0
  {
    var rows := FillAll(pool, rule);
    forall i | 0 <= i < |pool|
      ensures ScoreAll(pool, b, rule)[i].minutes > 0 && 0.0 <= ScoreAll(pool, b, rule)[i].valueScore <= 1.0
    {
      assert rows[i] in rows;
      assert pool[i] in pool;
    }
  }

  /** One filled row, normalised against the pool bounds, weighted and
      penalised. Nothing but the score changes. */
  function ScoreRow(f: Row, b: Bounds): (r: Row)
    ensures Unscored(r) == Unscored(f)
    ensures Within(MetricsOf(f), b) ==> 0.0 <= r.valueScore <= 1.0
    ensures 0.0 <= BaseScore(MetricsOf(f), b) ==> r.valueScore <= BaseScore(MetricsOf(f), b)
  {
    f.(valueScore := Penalise(BaseScore(MetricsOf(f), b), f.chance, f.status))
  }

  /** A player's score depends on the filled row alone, never on an earlier
      `value_score`. */
  function Score(p: Player, b: Bounds, rule: ChanceRule): (r: Row)
    ensures Unscored(r) == Fill(p, rule)
    ensures Within(MetricsOf(Fill(p, rule)), b) ==> 0.0 <= r.valueScore <= 1.0
  {
    ScoreRow(Fill(p, rule), b)
  }

  /** All filled and already scored rows read back as players. */
  function UnfillAll(rows: seq<Row>): (ps: seq<Player>)
    ensures |ps| == |rows|
    ensures forall i :: 0 <= i < |rows| ==> ps[i] == Unfill(rows[i])
  {
    if rows == [] then [] else UnfillAll(rows[..|rows| - 1]) + [Unfill(rows[|rows| - 1])]
  }

  /** The source stores the scored frame back as its player table, so a
      later call scores its own output. The score is rebuilt from the metric
      columns alone, so that second pass reproduces the first exactly. */
  lemma RescoringIsIdempotent(players: seq<Player>, rule: ChanceRule)
    requires CalculateValueScore(players, rule).Success?
    ensures CalculateValueScore(UnfillAll(CalculateValueScore(players, rule).value), rule)
            == CalculateValueScore(players, rule)
  {
    var rows := CalculateValueScore(players, rule).value;
    var pool := Filter(players, Played);
    var b := BoundsOf(FillAll(pool, rule));
    assert rows == ScoreAll(pool, b, rule);
    var again := UnfillAll(rows);
    UnfilledPlayed(rows);
    FilterAll(again, Played);
    Refill(pool, b, rule);
  }

  lemma UnfilledPlayed(rows: seq<Row>)
    requires forall i :: 0 <= i < |rows| ==> rows[i].minutes > 0
    ensures forall p :: p in UnfillAll(rows) ==> Played(p)
  {
  }

  /** Reading the scored rows back and filling them again gives the filled
      pool, and scoring that against the same bounds gives the rows. */
  lemma Refill(pool: seq<Player>, b: Bounds, rule: ChanceRule)
    ensures FillAll(UnfillAll(ScoreAll(pool, b, rule)), rule) == FillAll(pool, rule)
    ensures ScoreAll(UnfillAll(ScoreAll(pool, b, rule)), b, rule) == ScoreAll(pool, b, rule)
  {
    var rows := ScoreAll(pool, b, rule);
    var again := UnfillAll(rows);
    forall i | 0 <= i < |pool| ensures Fill(again[i], rule) == Fill(pool[i], rule) {
      FillUnfill(rows[i], rule);
    }
    assert FillAll(again, rule) == FillAll(pool, rule);
    forall i | 0 <= i < |pool| ensures Score(again[i], b, rule) == rows[i] {
      assert Fill(again[i], rule) == Fill(pool[i], rule);
    }
  }

  /** As written (`MissingAsZero`): a player with no injury news is scored
      exactly like one reported at any chance below 100. */
  lemma {:induction false} MissingChanceCountsAsDoubtful(fit: Player, doubtful: Player, b: Bounds)
    requires fit.chance.None? && doubtful.chance.Some? && doubtful.chance.value < 100
    requires fit == doubtful.(chance := None)
    ensures Score(fit, b, MissingAsZero) == Score(doubtful, b, MissingAsZero).(chance := 0)
    ensures Score(fit, b, MissingAsZero).valueScore == Score(doubtful, b, MissingAsZero).valueScore
  {
    var f := Fill(fit, MissingAsZero);
    var d := Fill(doubtful, MissingAsZero);
    assert f == d.(chance := 0);
    assert MetricsOf(f) == MetricsOf(d);
  }

  /** As written: every available player without injury news has half the
      weighted score, so none scores above 0.5. */
  lemma MissingChanceHalved(p: Player, b: Bounds)
    requires p.chance.None? && IsAvailable(p.status)
    requires Within(MetricsOf(Fill(p, MissingAsZero)), b)
    ensures Score(p, b, MissingAsZero).valueScore == BaseScore(MetricsOf(Fill(p, MissingAsZero)), b) * 0.5
    ensures Score(p, b, MissingAsZero).valueScore <= 0.5
  {
    var f := Fill(p, MissingAsZero);
    assert f.chance == 0;
  }

  /** Corrected (`MissingAsFit`): a player without injury news is scored like
      one reported fully fit, and only a reported chance below 100 halves
      the score. */
  lemma {:induction false} MissingChanceCountsAsFit(p: Player, b: Bounds)
    requires p.chance.None? && IsAvailable(p.status)
    ensures Score(p, b, MissingAsFit) == Score(p.(chance := Some(100)), b, MissingAsFit)
    ensures Score(p, b, MissingAsFit).valueScore == BaseScore(MetricsOf(Fill(p, MissingAsFit)), b)
  {
    assert Fill(p, MissingAsFit) == Fill(p.(chance := Some(100)), MissingAsFit);
  }

  /** The two rules differ only on missing values: a reported chance is
      scored the same way by both. */
  lemma ReportedChanceAgrees(p: Player, b: Bounds)
    requires p.chance.Some?
    ensures Score(p, b, MissingAsZero) == Score(p, b, MissingAsFit)
  {
    assert Fill(p, MissingAsZero) == Fill(p, MissingAsFit);
  }

  /** When every player reports a chance of playing, the program's scoring
      and the corrected one produce the same table. */
  lemma RulesAgreeWhenReported(players: seq<Player>)
    requires forall p :: p in players ==> p.chance.Some?
    ensures CalculateValueScore(players, MissingAsZero) == CalculateValueScore(players, MissingAsFit)
  {
    var pool := Filter(players, Played);
    if |pool| > 0 {
      FillAllAgree(pool);
      ScoreAllAgree(pool, BoundsOf(FillAll(pool, MissingAsZero)));
    }
  }

  lemma {:induction false} FillAllAgree(pool: seq<Player>)
    requires forall p :: p in pool ==> p.chance.Some?
    ensures FillAll(pool, MissingAsZero) == FillAll(pool, MissingAsFit)
    decreases |pool|
  {
    if pool != [] {
      var p := pool[|pool| - 1];
      assert p in pool;
      assert forall q :: q in pool[..|pool| - 1] ==> q in pool;
      FillAllAgree(pool[..|pool| - 1]);
      assert Fill(p, MissingAsZero) == Fill(p, MissingAsFit);
    }
  }

  lemma {:induction false} ScoreAllAgree(pool: seq<Player>, b: Bounds)
    requires forall p :: p in pool ==> p.chance.Some?
    ensures ScoreAll(pool, b, MissingAsZero) == ScoreAll(pool, b, MissingAsFit)
    decreases |pool|
  {
    if pool != [] {
      var p := pool[|pool| - 1];
      assert p in pool;
      assert forall q :: q in pool[..|pool| - 1] ==> q in pool;
      ScoreAllAgree(pool[..|pool| - 1], b);
      ReportedChanceAgrees(p, b);
    }
  }
}

=== FILE: seqs.dfy ===
/** Generic sequence operations standing in for the dataframe primitives the
    source uses: boolean-mask filtering, column sums, `sort_values`,
    `nlargest`, `head` and Python slicing. */
module Seqs {
  import opened Wrappers

  function Min(a: int, b: int): int { if a <= b then a else b }
  function Max(a: int, b: int): int { if a <= b then b else a }

  /** Boolean-mask selection: the elements of `s` satisfying `p`, in order. */
  function Filter<T(!new)>(s: seq<T>, p: T -> bool): (r: seq<T>)
    ensures |r| <= |s|
    ensures forall x :: x in r <==> x in s && p(x)
    ensures forall i :: 0 <= i < |r| ==> p(r[i])
    decreases |s|
  {
    if s == [] then []
    else
      var rest := Filter(s[..|s| - 1], p);
      assert forall x :: x in s <==> x in s[..|s| - 1] || x == s[|s| - 1];
      if p(s[|s| - 1]) then rest + [s[|s| - 1]] else rest
  }

  /** A mask every element passes keeps the sequence whole. */
  lemma {:induction false} FilterAll<T(!new)>(s: seq<T>, p: T -> bool)
    requires forall x :: x in s ==> p(x)
    ensures Filter(s, p) == s
    decreases |s|
  {
    if s != [] {
      FilterAll(s[..|s| - 1], p);
      assert s[..|s| - 1] + [s[|s| - 1]] == s;
    }
  }

  /** A mask nothing passes selects nothing. */
  lemma {:induction false} FilterNone<T(!new)>(s: seq<T>, p: T -> bool)
    requires forall x :: x in s ==> !p(x)
    ensures Filter(s, p) == []
  {
    if Filter(s, p) != [] {
      assert Filter(s, p)[0] in Filter(s, p);
    }
  }

  /** Two tests that agree on every element filter alike. */
  lemma {:induction false} FilterExt<T(!new)>(s: seq<T>, p: T -> bool, q: T -> bool)
    requires forall x :: x in s ==> p(x) == q(x)
    ensures Filter(s, p) == Filter(s, q)
    decreases |s|
  {
    if s != [] {
      FilterExt(s[..|s| - 1], p, q);
    }
  }

  /** A weaker test keeps at least as many elements. */
  lemma {:induction false} FilterStronger<T(!new)>(s: seq<T>, p: T -> bool, q: T -> bool)
    requires forall x :: x in s && p(x) ==> q(x)
    ensures |Filter(s, p)| <= |Filter(s, q)|
    decreases |s|
  {
    if s != [] {
      FilterStronger(s[..|s| - 1], p, q);
    }
  }

  lemma FilterSnoc<T(!new)>(s: seq<T>, x: T, p: T -> bool)
    ensures Filter(s + [x], p) == if p(x) then Filter(s, p) + [x] else Filter(s, p)
  {
    assert (s + [x])[..|s + [x]| - 1] == s;
  }

  lemma AppendAssoc<T>(a: seq<T>, b: seq<T>, c: seq<T>)
    ensures (a + b) + c == a + (b + c)
  {
  }

  /** Splitting off the last element of the second part of a concatenation. */
  lemma AppendLast<T>(a: seq<T>, b: seq<T>)
    requires b != []
    ensures b == b[..|b| - 1] + [b[|b| - 1]]
    ensures a + b == (a + b[..|b| - 1]) + [b[|b| - 1]]
  {
  }

  lemma {:induction false} FilterAppend<T(!new)>(a: seq<T>, b: seq<T>, p: T -> bool)
    ensures Filter(a + b, p) == Filter(a, p) + Filter(b, p)
    decreases |b|
  {
    if b == [] {
      assert a + b == a;
    } else {
      var b', x := b[..|b| - 1], b[|b| - 1];
      var ab := a + b;
      assert ab[..|ab| - 1] == a + b';
      assert ab[|ab| - 1] == x;
      FilterAppend(a, b', p);
      var fa, fb' := Filter(a, p), Filter(b', p);
      if p(x) {
        assert Filter(ab, p) == (fa + fb') + [x];
        assert Filter(b, p) == fb' + [x];
        assert (fa + fb') + [x] == fa + (fb' + [x]);
      } else {
        assert Filter(ab, p) == fa + fb';
        assert Filter(b, p) == fb';
      }
    }
  }

  /** Each element's multiplicity survives filtering exactly when it passes. */
  lemma {:induction false} FilterMultiplicity<T(!new)>(s: seq<T>, p: T -> bool, x: T)
    ensures multiset(Filter(s, p))[x] == if p(x) then multiset(s)[x] else 0
    decreases |s|
  {
    if s != [] {
      var s' := s[..|s| - 1];
      assert s == s' + [s[|s| - 1]];
      FilterMultiplicity(s', p, x);
      FilterSnoc(s', s[|s| - 1], p);
    }
  }

  /** Filtering keeps a sub-multiset. */
  lemma FilterSubMultiset<T(!new)>(s: seq<T>, p: T -> bool)
    ensures multiset(Filter(s, p)) <= multiset(s)
  {
    forall x ensures multiset(Filter(s, p))[x] <= multiset(s)[x] {
      FilterMultiplicity(s, p, x);
    }
  }

  /** Filtering is monotone with respect to sub-multisets. */
  lemma FilterMonotone<T(!new)>(a: seq<T>, b: seq<T>, p: T -> bool)
    requires multiset(a) <= multiset(b)
    ensures multiset(Filter(a, p)) <= multiset(Filter(b, p))
    ensures |Filter(a, p)| <= |Filter(b, p)|
  {
    forall x ensures multiset(Filter(a, p))[x] <= multiset(Filter(b, p))[x] {
      FilterMultiplicity(a, p, x);
      FilterMultiplicity(b, p, x);
    }
    SubMultisetCard(multiset(Filter(a, p)), multiset(Filter(b, p)));
  }

  /** Two sub-multisets of `s` with no element in common fit into `s`
      together. */
  lemma DisjointSum<T>(a: seq<T>, b: seq<T>, s: seq<T>)
    requires multiset(a) <= multiset(s) && multiset(b) <= multiset(s)
    requires forall x :: x in b ==> x !in a
    ensures multiset(a + b) <= multiset(s)
  {
    forall x ensures multiset(a + b)[x] <= multiset(s)[x] {
      if x in b {
        assert multiset(a)[x] == 0;
      } else {
        assert multiset(b)[x] == 0;
      }
    }
  }

  lemma SubMultisetCard<T>(a: multiset<T>, b: multiset<T>)
    requires a <= b
    ensures |a| <= |b|
  {
    var c := b - a;
    assert a + c == b;
  }

  /** Number of elements satisfying `p` (pandas `len(df[mask])`). */
  function Count<T(!new)>(s: seq<T>, p: T -> bool): nat
  {
    |Filter(s, p)|
  }

  /** Column sum over `s` of the values `f` gives. */
  function Sum<T>(s: seq<T>, f: T -> real): real
    decreases |s|
  {
    if s == [] then 0.0 else Sum(s[..|s| - 1], f) + f(s[|s| - 1])
  }

  lemma SumSnoc<T>(s: seq<T>, x: T, f: T -> real)
    ensures Sum(s + [x], f) == Sum(s, f) + f(x)
  {
    assert (s + [x])[..|s + [x]| - 1] == s;
  }

  /** Integer column sum. */
  function SumInt<T>(s: seq<T>, f: T -> int): int
    decreases |s|
  {
    if s == [] then 0 else SumInt(s[..|s| - 1], f) + f(s[|s| - 1])
  }

  lemma SumIntSnoc<T>(s: seq<T>, x: T, f: T -> int)
    ensures SumInt(s + [x], f) == SumInt(s, f) + f(x)
  {
    assert (s + [x])[..|s + [x]| - 1] == s;
  }

  /** The index of the last element satisfying `p`, or -1: what a dict built
      from the sequence keeps under a key, since a later entry overwrites an
      earlier one. */
  function LastWhere<T>(s: seq<T>, p: T -> bool): (k: int)
    ensures -1 <= k < |s|
    ensures k >= 0 ==> p(s[k]) && forall j :: k < j < |s| ==> !p(s[j])
    ensures k < 0 ==> forall j :: 0 <= j < |s| ==> !p(s[j])
    decreases |s|
  {
    if s == [] then -1
    else if p(s[|s| - 1]) then |s| - 1
    else
      var k := LastWhere(s[..|s| - 1], p);
      assert forall j :: 0 <= j < |s| - 1 ==> s[..|s| - 1][j] == s[j];
      k
  }

  /** Python slice `s[:n]`, which also models pandas `head(n)`: a negative
      `n` drops `-n` elements from the end. */
  function Take<T>(s: seq<T>, n: int): (r: seq<T>)
    ensures |r| == (if n >= 0 then Min(n, |s|) else Max(0, |s| + n))
    ensures r == s[..|r|]
  {
    if n >= 0 then s[..Min(n, |s|)] else s[..Max(0, |s| + n)]
  }

  ghost predicate SortedDesc<T>(s: seq<T>, key: T -> real) {
    forall i, j :: 0 <= i < j < |s| ==> key(s[i]) >= key(s[j])
  }

  /** In a list sorted best first, a strictly better element comes earlier. */
  lemma SortedBefore<T>(s: seq<T>, key: T -> real, a: int, b: int)
    requires SortedDesc(s, key) && 0 <= a < |s| && 0 <= b < |s|
    requires key(s[a]) > key(s[b])
    ensures a < b
  {
  }

  /** An element missing from a prefix sits past it. */
  lemma OutsidePrefix<T>(s: seq<T>, m: int, j: int)
    requires 0 <= m <= |s| && 0 <= j < |s| && s[j] !in s[..m]
    ensures m <= j
  {
    assert forall k :: 0 <= k < m ==> s[..m][k] == s[k];
  }

  ghost predicate SortedAsc<T>(s: seq<T>, key: T -> real) {
    forall i, j :: 0 <= i < j < |s| ==> key(s[i]) <= key(s[j])
  }

  function Insert<T>(x: T, s: seq<T>, key: T -> real): (r: seq<T>)
    requires SortedDesc(s, key)
    ensures multiset(r) == multiset(s) + multiset{x}
    ensures |r| == |s| + 1
    ensures r[0] == x || (|s| > 0 && r[0] == s[0])
    decreases |s|
  {
    if s == [] then [x]
    else if key(x) >= key(s[0]) then [x] + s
    else
      var t := Insert(x, s[1..], key);
      assert s == [s[0]] + s[1..];
      [s[0]] + t
  }

  /** Insertion keeps a descending sequence descending. */
  lemma {:induction false} InsertSorted<T>(x: T, s: seq<T>, key: T -> real)
    requires SortedDesc(s, key)
    ensures SortedDesc(Insert(x, s, key), key)
    decreases |s|
  {
    if s != [] && key(x) < key(s[0]) {
      InsertSorted(x, s[1..], key);
      var t := Insert(x, s[1..], key);
      forall j | 0 <= j < |t| ensures key(s[0]) >= key(t[j]) {
        InsertBelowHead(x, s, key, j);
      }
      ConsSorted(s[0], t, key);
    }
  }

  /** A head no smaller than every element of a descending tail keeps the
      sequence descending. */
  lemma ConsSorted<T>(h: T, t: seq<T>, key: T -> real)
    requires SortedDesc(t, key)
    requires forall j :: 0 <= j < |t| ==> key(h) >= key(t[j])
    ensures SortedDesc([h] + t, key)
  {
    var r := [h] + t;
    forall i, j | 0 <= i < j < |r| ensures key(r[i]) >= key(r[j]) {
      assert r[j] == t[j - 1];
      if i > 0 {
        assert r[i] == t[i - 1];
      }
    }
  }

  /** When `x` goes below the head, the head stays above everything the
      insertion into the tail yields. */
  lemma InsertBelowHead<T>(x: T, s: seq<T>, key: T -> real, j: int)
    requires SortedDesc(s, key) && s != [] && key(x) < key(s[0])
    requires SortedDesc(Insert(x, s[1..], key), key)
    requires 0 <= j < |Insert(x, s[1..], key)|
    ensures key(s[0]) >= key(Insert(x, s[1..], key)[j])
  {
    var t := Insert(x, s[1..], key);
    if t[0] == x {
      assert key(s[0]) > key(t[0]);
    } else {
      assert t[0] == s[1..][0] == s[1];
    }
    if j > 0 {
      assert key(t[0]) >= key(t[j]);
    }
  }

  /** `sort_values(key, ascending=False)`: a descending permutation; the
      relative order of equal keys is left unspecified. */
  function SortDesc<T(!new)>(s: seq<T>, key: T -> real): (r: seq<T>)
    ensures SortedDesc(r, key)
    ensures multiset(r) == multiset(s)
    ensures |r| == |s|
    ensures forall x :: x in r <==> x in s
    decreases |s|
  {
    if s == [] then []
    else
      assert s == [s[0]] + s[1..];
      var r := Insert(s[0], SortDesc(s[1..], key), key);
      InsertSorted(s[0], SortDesc(s[1..], key), key);
      MultisetMembership(r, s);
      r
  }

  lemma MultisetMembership<T(!new)>(a: seq<T>, b: seq<T>)
    requires multiset(a) == multiset(b)
    ensures forall x :: x in a <==> x in b
  {
    forall x ensures x in a <==> x in b {
      assert x in a <==> x in multiset(a);
      assert x in b <==> x in multiset(b);
    }
  }

  /** `sort_values(key)` (ascending), by sorting on the negated key. */
  function SortAsc<T(!new)>(s: seq<T>, key: T -> real): (r: seq<T>)
    ensures SortedAsc(r, key)
    ensures multiset(r) == multiset(s)
    ensures |r| == |s|
    ensures forall x :: x in r <==> x in s
  {
    var r := SortDesc(s, (x: T) => -key(x));
    assert forall i, j :: 0 <= i < j < |r| ==> -key(r[i]) >= -key(r[j]);
    r
  }

  /** In a descending sequence, whatever lies beyond a prefix is no larger
      than anything in the prefix. */
  lemma PrefixDominates<T(!new)>(t: seq<T>, m: nat, key: T -> real)
    requires SortedDesc(t, key)
    requires m <= |t|
    ensures forall x, k :: x in multiset(t) - multiset(t[..m]) && 0 <= k < m ==> key(x) <= key(t[k])
    ensures multiset(t[..m]) <= multiset(t)
    ensures forall x :: x in t[..m] ==> x in t
  {
    assert t == t[..m] + t[m..];
    assert multiset(t) == multiset(t[..m]) + multiset(t[m..]);
    assert multiset(t) - multiset(t[..m]) == multiset(t[m..]);
    forall x, k | x in multiset(t[m..]) && 0 <= k < m
      ensures key(x) <= key(t[k])
    {
      assert x in t[m..];
      var j :| 0 <= j < |t[m..]| && t[m..][j] == x;
      assert t[m + j] == x;
    }
  }

  lemma PrefixSorted<T>(t: seq<T>, m: nat, key: T -> real)
    requires SortedDesc(t, key)
    requires m <= |t|
    ensures SortedDesc(t[..m], key)
  {
  }

  /** `sort_values(key, ascending=False)` followed by the slice `[:n]` (or
      `head(n)`). */
  function SortTake<T(!new)>(s: seq<T>, n: int, key: T -> real): (r: seq<T>)
    ensures |r| == (if n >= 0 then Min(n, |s|) else Max(0, |s| + n))
    ensures SortedDesc(r, key)
    ensures multiset(r) <= multiset(s)
    ensures forall x :: x in r ==> x in s
  {
    var t := SortDesc(s, key);
    var r := Take(t, n);
    assert t == r + t[|r|..];
    assert multiset(t) == multiset(r) + multiset(t[|r|..]);
    assert forall x :: x in r ==> x in t;
    r
  }

  /** An element left out of a sorted slice has a key no larger than any
      element kept. */
  lemma SortTakeDominates<T(!new)>(s: seq<T>, n: int, key: T -> real, x: T, k: int)
    requires x in s && x !in SortTake(s, n, key)
    requires 0 <= k < |SortTake(s, n, key)|
    ensures key(x) <= key(SortTake(s, n, key)[k])
  {
    var t := SortDesc(s, key);
    var r := SortTake(s, n, key);
    assert r == t[..|r|];
    PrefixDominates(t, |r|, key);
    assert multiset(r)[x] == 0;
    assert x in multiset(t);
  }

  /** `nlargest(n, key)`: the `n` elements of largest key, largest first. Every
      element left out has a key no larger than any element kept. */
  function NLargest<T(!new)>(s: seq<T>, n: int, key: T -> real): (r: seq<T>)
    ensures |r| == (if n <= 0 then 0 else Min(n, |s|))
    ensures SortedDesc(r, key)
    ensures multiset(r) <= multiset(s)
    ensures forall x :: x in r ==> x in s
    ensures forall x, k :: x in multiset(s) - multiset(r) && 0 <= k < |r| ==> key(x) <= key(r[k])
  {
    if n <= 0 then []
    else
      var t := SortDesc(s, key);
      var m := Min(n, |s|);
      PrefixDominates(t, m, key);
      PrefixSorted(t, m, key);
      t[..m]
  }

  /** An element of `s` that `nlargest` leaves out is no larger than any it
      keeps. */
  lemma NLargestDominates<T(!new)>(s: seq<T>, n: int, key: T -> real, x: T, k: int)
    requires x in s && x !in NLargest(s, n, key)
    requires 0 <= k < |NLargest(s, n, key)|
    ensures key(x) <= key(NLargest(s, n, key)[k])
  {
    var r := NLargest(s, n, key);
    assert multiset(r)[x] == 0;
    assert x in multiset(s) - multiset(r);
  }

  predicate NoDup<T(==)>(s: seq<T>) {
    forall i, j :: 0 <= i < j < |s| ==> s[i] != s[j]
  }

  /** `Series.unique()`: the distinct values in order of first appearance. */
  function Distinct<T(==,!new)>(s: seq<T>): (r: seq<T>)
    ensures NoDup(r)
    ensures forall x :: x in r <==> x in s
    ensures |r| <= |s|
    decreases |s|
  {
    if s == [] then []
    else
      var d := Distinct(s[..|s| - 1]);
      assert forall x :: x in s <==> x in s[..|s| - 1] || x == s[|s| - 1];
      if s[|s| - 1] in d then d else d + [s[|s| - 1]]
  }

  /** A sequence without duplicates holds each value at most once. */
  lemma {:induction false} NoDupMultiplicity<T>(s: seq<T>, x: T)
    requires NoDup(s)
    ensures multiset(s)[x] <= 1
    decreases |s|
  {
    if s != [] {
      var s' := s[..|s| - 1];
      assert s == s' + [s[|s| - 1]];
      NoDupMultiplicity(s', x);
    }
  }

  /** Whatever keeps a sub-multiset of a sequence without duplicates has
      none either. */
  lemma SubMultisetNoDup<T>(r: seq<T>, s: seq<T>)
    requires NoDup(s) && multiset(r) <= multiset(s)
    ensures NoDup(r)
  {
    forall i, j | 0 <= i < j < |r| ensures r[i] != r[j] {
      if r[i] == r[j] {
        var x := r[i];
        assert r == r[..j] + [r[j]] + r[j + 1..];
        assert x in r[..j];
        assert multiset(r)[x] >= 2;
        NoDupMultiplicity(s, x);
      }
    }
  }

  /** Concatenation of a list of lists (`list.extend` in a loop). */
  function Flatten<T(!new)>(ss: seq<seq<T>>): (r: seq<T>)
    ensures forall x :: x in r <==> exists i :: 0 <= i < |ss| && x in ss[i]
    decreases |ss|
  {
    if ss == [] then []
    else
      var r := Flatten(ss[..|ss| - 1]) + ss[|ss| - 1];
      assert forall i :: 0 <= i < |ss| - 1 ==> ss[..|ss| - 1][i] == ss[i];
      r
  }

  lemma FlattenSnoc<T(!new)>(ss: seq<seq<T>>, s: seq<T>)
    ensures Flatten(ss + [s]) == Flatten(ss) + s
  {
    assert (ss + [s])[..|ss|] == ss;
  }

  lemma FlattenSingle<T(!new)>(ss: seq<seq<T>>)
    requires |ss| == 1
    ensures Flatten(ss) == ss[0]
  {
    assert ss == [] + [ss[0]];
    FlattenSnoc([], ss[0]);
  }

  lemma {:induction false} FlattenCons<T(!new)>(s: seq<T>, ss: seq<seq<T>>)
    ensures Flatten([s] + ss) == s + Flatten(ss)
    decreases |ss|
  {
    if ss == [] {
      FlattenSingle([s] + ss);
    } else {
      var init, last := ss[..|ss| - 1], ss[|ss| - 1];
      assert ss == init + [last];
      assert [s] + ss == ([s] + init) + [last];
      FlattenSnoc([s] + init, last);
      FlattenCons(s, init);
      FlattenSnoc(init, last);
    }
  }

  /** Applies `f` to every element, keeping order. */
  function Map<T, U>(s: seq<T>, f: T -> U): (r: seq<U>)
    ensures |r| == |s|
    ensures forall i :: 0 <= i < |s| ==> r[i] == f(s[i])
  {
    seq(|s|, i requires 0 <= i < |s| => f(s[i]))
  }

  lemma MapSnoc<T, U>(s: seq<T>, x: T, f: T -> U)
    ensures Map(s + [x], f) == Map(s, f) + [f(x)]
  {
    assert forall i :: 0 <= i < |s| ==> (s + [x])[i] == s[i];
  }

  /** The elements on which `f` yields a value. */
  function Yields<T, U>(f: T -> Option<U>): T -> bool {
    x => f(x).Some?
  }

  /** The values `f` yields over `xs`, skipping `None`s, in order (a dict
      filled in a loop that `continue`s past some keys). */
  function Collect<T(!new), U>(xs: seq<T>, f: T -> Option<U>): (ys: seq<U>)
    ensures forall y :: y in ys ==> exists x :: x in xs && f(x) == Some(y)
    ensures forall x :: x in xs && f(x).Some? ==> f(x).value in ys
    ensures |ys| == Count(xs, Yields(f))
  {
    if xs == [] then []
    else
      var x := xs[|xs| - 1];
      var rest := Collect(xs[..|xs| - 1], f);
      assert xs == xs[..|xs| - 1] + [x];
      FilterSnoc(xs[..|xs| - 1], x, Yields(f));
      assert forall z :: z in xs ==> z in xs[..|xs| - 1] || z == x;
      match f(x)
      case None => rest
      case Some(y) => rest + [y]
  }

  /** `r` keeps some of the elements of `s`, in their original order. */
  ghost predicate IsSubseq<T>(r: seq<T>, s: seq<T>)
    decreases |s|
  {
    if r == [] then true
    else if s == [] then false
    else if r[|r| - 1] == s[|s| - 1] then IsSubseq(r[..|r| - 1], s[..|s| - 1])
    else IsSubseq(r, s[..|s| - 1])
  }

  /** A boolean mask keeps the original row order. */
  lemma {:induction false} FilterIsSubseq<T(!new)>(s: seq<T>, p: T -> bool)
    ensures IsSubseq(Filter(s, p), s)
    decreases |s|
  {
    if s != [] {
      var s' := s[..|s| - 1];
      var x := s[|s| - 1];
      assert s == s' + [x];
      FilterSnoc(s', x, p);
      FilterIsSubseq(s', p);
      var r := Filter(s, p);
      if p(x) {
        assert r[..|r| - 1] == Filter(s', p);
      } else {
        SubseqExtend(r, s);
      }
    }
  }

  /** Removing the last element of a subsequence keeps it a subsequence. */
  lemma {:induction false} SubseqDropLast<T>(r: seq<T>, s: seq<T>)
    requires r != []
    requires IsSubseq(r, s)
    ensures IsSubseq(r[..|r| - 1], s)
    decreases |s|, 1
  {
    var s' := s[..|s| - 1];
    if r[|r| - 1] != s[|s| - 1] {
      SubseqDropLast(r, s');
    }
    SubseqExtend(r[..|r| - 1], s);
  }

  /** A subsequence of a prefix is a subsequence of the whole. */
  lemma {:induction false} SubseqExtend<T>(r: seq<T>, s: seq<T>)
    requires s != []
    requires IsSubseq(r, s[..|s| - 1])
    ensures IsSubseq(r, s)
    decreases |s|, 0
  {
    if r != [] && r[|r| - 1] == s[|s| - 1] {
      SubseqDropLast(r, s[..|s| - 1]);
    }
  }

  /** A subsequence takes no element more often than the sequence holds it. */
  lemma {:induction false} SubseqMultiset<T>(r: seq<T>, s: seq<T>)
    requires IsSubseq(r, s)
    ensures multiset(r) <= multiset(s)
    decreases |s|
  {
    if r != [] {
      var s', x := s[..|s| - 1], s[|s| - 1];
      assert s == s' + [x];
      if r[|r| - 1] == x {
        SubseqMultiset(r[..|r| - 1], s');
        assert r == r[..|r| - 1] + [x];
      } else {
        SubseqMultiset(r, s');
      }
    }
  }

  /** A prefix of a subsequence is a subsequence. */
  lemma {:induction false} SubseqPrefix<T>(r: seq<T>, s: seq<T>, k: int)
    requires IsSubseq(r, s) && 0 <= k <= |r|
    ensures IsSubseq(r[..k], s)
    decreases |r| - k
  {
    if k < |r| {
      SubseqDropLast(r, s);
      SubseqPrefix(r[..|r| - 1], s, k);
      assert r[..|r| - 1][..k] == r[..k];
    } else {
      assert r[..k] == r;
    }
  }

  /** `s[mask].head(n)` keeps the original order. */
  lemma FilterTakeIsSubseq<T(!new)>(s: seq<T>, p: T -> bool, n: int)
    ensures IsSubseq(Take(Filter(s, p), n), s)
  {
    FilterIsSubseq(s, p);
    var f := Filter(s, p);
    SubseqPrefix(f, s, |Take(f, n)|);
  }

  /** A mask keeps a descending sequence descending. */
  lemma {:induction false} FilterSorted<T(!new)>(s: seq<T>, p: T -> bool, key: T -> real)
    requires SortedDesc(s, key)
    ensures SortedDesc(Filter(s, p), key)
    decreases |s|
  {
    if s != [] {
      var s', x := s[..|s| - 1], s[|s| - 1];
      FilterSorted(s', p, key);
      var f := Filter(s', p);
      if p(x) {
        forall y | y in f ensures key(y) >= key(x) {
          var i :| 0 <= i < |s'| && s'[i] == y;
        }
        var r := f + [x];
        forall i, j | 0 <= i < j < |r| ensures key(r[i]) >= key(r[j]) {
          if j == |f| {
            assert r[i] in f;
          }
        }
      }
    }
  }

  /** `s[mask].head(n)` over a descending `s`: still descending, and an
      element passing the mask that the head leaves out is no larger than
      any element it keeps. */
  lemma FilterTakeDominates<T(!new)>(s: seq<T>, p: T -> bool, n: int, key: T -> real)
    requires SortedDesc(s, key)
    ensures SortedDesc(Take(Filter(s, p), n), key)
    ensures forall x, k :: x in s && p(x) && x !in Take(Filter(s, p), n) && 0 <= k < |Take(Filter(s, p), n)| ==>
              key(x) <= key(Take(Filter(s, p), n)[k])
  {
    FilterSorted(s, p, key);
    var f := Filter(s, p);
    var t := Take(f, n);
    PrefixDominates(f, |t|, key);
    PrefixSorted(f, |t|, key);
    forall x, k | x in s && p(x) && x !in t && 0 <= k < |t| ensures key(x) <= key(t[k]) {
      assert x in f;
      assert multiset(t)[x] == 0;
      assert x in multiset(f) - multiset(t);
    }
  }

  /** The least value `f` takes over a non-empty `s` (a column's `min()`). */
  function MinBy<T(!new)>(s: seq<T>, f: T -> real): (m: real)
    requires |s| > 0
    ensures forall x :: x in s ==> m <= f(x)
    ensures exists i :: 0 <= i < |s| && f(s[i]) == m
    decreases |s|
  {
    if |s| == 1 then f(s[0])
    else
      var s' := s[..|s| - 1];
      var m' := MinBy(s', f);
      assert forall x :: x in s ==> x in s' || x == s[|s| - 1];
      if f(s[|s| - 1]) < m' then f(s[|s| - 1]) else m'
  }

  /** The greatest value `f` takes over a non-empty `s` (a column's `max()`). */
  function MaxBy<T(!new)>(s: seq<T>, f: T -> real): (m: real)
    requires |s| > 0
    ensures forall x :: x in s ==> f(x) <= m
    ensures exists i :: 0 <= i < |s| && f(s[i]) == m
    decreases |s|
  {
    if |s| == 1 then f(s[0])
    else
      var s' := s[..|s| - 1];
      var m' := MaxBy(s', f);
      assert forall x :: x in s ==> x in s' || x == s[|s| - 1];
      if f(s[|s| - 1]) > m' then f(s[|s| - 1]) else m'
  }
}

=== FILE: squad.dfy ===
/** The greedy 15-man squad builder (`build_optimal_squad`,
    fpl_player_analyzer.py:114-179) and the squad arithmetic it shares with
    the transfer recommender: players per club, players per position and
    total cost. */
module Squad {
  import opened Seqs
  import opened Types

  /** Players from `club` in `s` (`team_counts[club]`). */
  function ClubCount(s: seq<Row>, club: string): (n: nat)
    ensures n <= |s|
  {
    if s == [] then 0
    else ClubCount(s[..|s| - 1], club) + (if s[|s| - 1].club == club then 1 else 0)
  }

  /** Players at position `p` in `s`. */
  function PositionCount(s: seq<Row>, p: Position): (n: nat)
    ensures n <= |s|
  {
    if s == [] then 0
    else PositionCount(s[..|s| - 1], p) + (if s[|s| - 1].position == p then 1 else 0)
  }

  /** Total price of `s`, in tenths. */
  function Cost(s: seq<Row>): (c: int)
    ensures s != [] ==> c > 0
    ensures s == [] ==> c == 0
  {
    if s == [] then 0 else Cost(s[..|s| - 1]) + s[|s| - 1].price
  }

  /** Appending one player changes each count by one at most and the cost by
      that player's price. */
  lemma SquadSnoc(s: seq<Row>, x: Row)
    ensures forall c :: ClubCount(s + [x], c) == ClubCount(s, c) + (if x.club == c then 1 else 0)
    ensures forall p :: PositionCount(s + [x], p) == PositionCount(s, p) + (if x.position == p then 1 else 0)
    ensures Cost(s + [x]) == Cost(s) + x.price
  {
    assert (s + [x])[..|s|] == s;
  }

  /** The squad size is the sum of the position counts. */
  lemma {:induction false} SizeByPosition(s: seq<Row>)
    ensures |s| == PositionCount(s, GK) + PositionCount(s, DEF) + PositionCount(s, MID)
                   + PositionCount(s, FWD) + PositionCount(s, Unmapped)
  {
    if s != [] {
      SizeByPosition(s[..|s| - 1]);
    }
  }

  /** Every member of a squad costs at most the whole squad (prices are
      positive). */
  lemma {:induction false} MemberCost(s: seq<Row>, x: Row)
    requires x in s
    ensures x.price <= Cost(s)
    decreases |s|
  {
    if x != s[|s| - 1] {
      MemberCost(s[..|s| - 1], x);
    }
  }

  /** A sequence that counts nothing at `p` holds nobody there. */
  lemma {:induction false} AbsentAt(s: seq<Row>, p: Position)
    requires PositionCount(s, p) == 0
    ensures forall x :: x in s ==> x.position != p
    decreases |s|
  {
    if s != [] {
      AbsentAt(s[..|s| - 1], p);
      assert forall x :: x in s ==> x in s[..|s| - 1] || x == s[|s| - 1];
    }
  }

  /** The candidates for one position: available players of that position,
      best score first (`sort_values('value_score', ascending=False)`). */
  function Candidates(rows: seq<Row>, p: Position): (cands: seq<Row>)
    ensures forall r :: r in cands <==> r in rows && r.position == p && IsAvailable(r.status)
    ensures multiset(cands) == multiset(Filter(rows, AvailableAt(p)))
    ensures SortedDesc(cands, ValueScore)
  {
    SortDesc(Filter(rows, AvailableAt(p)), ValueScore)
  }

  /** The mask of the available players of `p`. */
  function AvailableAt(p: Position): Row -> bool {
    (r: Row) => r.position == p && IsAvailable(r.status)
  }

  /** A candidate the builder passes over: its club is full or it costs
      more than is left. */
  predicate Rejected(squad: seq<Row>, remaining: int, r: Row) {
    ClubCount(squad, r.club) >= ClubCap || r.price > remaining
  }

  /** Every available player of a position in `done` that was left out, while
      that position is still short, was rejected. */
  ghost predicate Saturated(rows: seq<Row>, squad: seq<Row>, remaining: int, done: nat) {
    forall r :: r in rows && Rank(r.position) < done && IsAvailable(r.status) && r !in squad ==>
      PositionCount(squad, r.position) >= Quota(r.position) || Rejected(squad, remaining, r)
  }

  /** What holds of a partial squad once the positions in `done` have been
      walked: available picks from `rows` of those positions only, the budget
      bookkeeping, at most 3 from any club, and
      every position within its quota. */
  ghost predicate Built(rows: seq<Row>, budget: int, squad: seq<Row>, remaining: int,
                        done: nat) {
    && (forall r :: r in squad ==> r in rows && IsAvailable(r.status) && Rank(r.position) < done)
    && remaining == budget - Cost(squad)
    && (squad != [] ==> 0 <= remaining)
    && (forall c :: ClubCount(squad, c) <= ClubCap)
    && (forall q :: PositionCount(squad, q) <= Quota(q))
    && (forall q :: done <= Rank(q) ==> PositionCount(squad, q) == 0)
  }

  /** A rejection stays a rejection as the squad grows: club counts only
      rise and the budget only falls. */
  lemma RejectedStays(squad: seq<Row>, remaining: int, x: Row, r: Row)
    requires Rejected(squad, remaining, r)
    requires x.price <= remaining
    ensures Rejected(squad + [x], remaining - x.price, r)
  {
    SquadSnoc(squad, x);
  }

  /** Taking a player whose club has fewer than 3, whose position is short
      and who fits the budget keeps the squad well built and its earlier
      rejections standing. */
  lemma Accept(rows: seq<Row>, budget: int, squad: seq<Row>, remaining: int,
               done: nat, c: Row)
    requires Built(rows, budget, squad, remaining, done)
    requires c in rows && IsAvailable(c.status) && Rank(c.position) < done
    requires ClubCount(squad, c.club) < ClubCap && c.price <= remaining
    requires PositionCount(squad, c.position) < Quota(c.position)
    ensures Built(rows, budget, squad + [c], remaining - c.price, done)
    ensures forall r :: Rejected(squad, remaining, r) ==> Rejected(squad + [c], remaining - c.price, r)
  {
    SquadSnoc(squad, c);
    forall r | Rejected(squad, remaining, r) ensures Rejected(squad + [c], remaining - c.price, r) {
      RejectedStays(squad, remaining, c, r);
    }
  }

  /** Growing the squad within budget keeps every position saturated that
      was: counts only rise, and rejections stand. */
  lemma SaturatedStays(rows: seq<Row>, squad: seq<Row>, remaining: int, done: nat, c: Row)
    requires Saturated(rows, squad, remaining, done)
    requires c.price <= remaining
    ensures Saturated(rows, squad + [c], remaining - c.price, done)
  {
    SquadSnoc(squad, c);
    forall r | r in rows && Rank(r.position) < done && IsAvailable(r.status) && r !in squad + [c]
      ensures PositionCount(squad + [c], r.position) >= Quota(r.position)
              || Rejected(squad + [c], remaining - c.price, r)
    {
      if !(PositionCount(squad, r.position) >= Quota(r.position)) {
        RejectedStays(squad, remaining, c, r);
      }
    }
  }

  /** Best first: at each walked position, an available player left out
      who scores above someone taken there was rejected. */
  ghost predicate BestFirst(rows: seq<Row>, squad: seq<Row>, remaining: int, done: nat) {
    forall r, s :: (r in squad && s in rows && Rank(r.position) < done && s.position == r.position
      && IsAvailable(s.status) && s !in squad && s.valueScore > r.valueScore) ==> Rejected(squad, remaining, s)
  }

  /** Whoever the squad holds at `p` came from the first `j` candidates. */
  ghost predicate TakenFrom(squad: seq<Row>, p: Position, cands: seq<Row>, j: nat)
    requires j <= |cands|
  {
    forall x :: x in squad && x.position == p ==> x in cands[..j]
  }

  /** One more candidate visited, taken or not, keeps `TakenFrom`. */
  lemma TakenFromStep(squad: seq<Row>, p: Position, cands: seq<Row>, j: nat, take: bool)
    requires j < |cands| && TakenFrom(squad, p, cands, j)
    ensures TakenFrom(if take then squad + [cands[j]] else squad, p, cands, j + 1)
  {
    assert cands[..j + 1] == cands[..j] + [cands[j]];
  }

  /** Taking a player of a position not yet walked keeps the walked
      positions best first. */
  lemma BestFirstStays(rows: seq<Row>, squad: seq<Row>, remaining: int, done: nat, c: Row)
    requires BestFirst(rows, squad, remaining, done)
    requires c.price <= remaining && done <= Rank(c.position)
    ensures BestFirst(rows, squad + [c], remaining - c.price, done)
  {
    forall r, s | r in squad + [c] && s in rows && Rank(r.position) < done && s.position == r.position
      && IsAvailable(s.status) && s !in squad + [c] && s.valueScore > r.valueScore
      ensures Rejected(squad + [c], remaining - c.price, s)
    {
      assert r in squad;
      RejectedStays(squad, remaining, c, s);
    }
  }

  /** Once the walk of `p` stops, a candidate scoring above one taken at `p`
      sits earlier in the candidate list, so it was visited and, being left
      out, rejected: position `p` is best first too. */
  lemma WalkBestFirst(rows: seq<Row>, squad: seq<Row>, remaining: int, prev: nat, p: Position,
                      cands: seq<Row>, j: nat)
    requires Rank(p) == prev
    requires cands == Candidates(rows, p) && j <= |cands|
    requires Visited(cands, j, squad, remaining)
    requires BestFirst(rows, squad, remaining, prev)
    requires TakenFrom(squad, p, cands, j)
    ensures BestFirst(rows, squad, remaining, prev + 1)
  {
    forall r, s | r in squad && s in rows && Rank(r.position) < prev + 1 && s.position == r.position
      && IsAvailable(s.status) && s !in squad && s.valueScore > r.valueScore
      ensures Rejected(squad, remaining, s)
    {
      if r.position == p {
        VisitedBetter(rows, squad, remaining, p, cands, j, r, s);
      }
    }
  }

  /** A candidate scoring above a taken one `r` precedes `r` in the list, so
      it lies among the visited ones. */
  lemma VisitedBetter(rows: seq<Row>, squad: seq<Row>, remaining: int, p: Position,
                      cands: seq<Row>, j: nat, r: Row, s: Row)
    requires cands == Candidates(rows, p) && j <= |cands|
    requires Visited(cands, j, squad, remaining)
    requires TakenFrom(squad, p, cands, j)
    requires r in squad && r.position == p && s in rows && s.position == p && IsAvailable(s.status)
    requires s !in squad && s.valueScore > r.valueScore
    ensures Rejected(squad, remaining, s)
  {
    assert r in cands[..j];
    var i :| 0 <= i < j && cands[i] == r;
    assert s in cands;
    var k :| 0 <= k < |cands| && cands[k] == s;
    SortedBefore(cands, ValueScore, k, i);
    assert cands[..j][k] == s;
  }

  /** Past `squad0`, the squad holds no row more often than the first `j`
      candidates do: each candidate visited was taken at most once. */
  ghost predicate Drawn(squad0: seq<Row>, cands: seq<Row>, j: nat, squad: seq<Row>)
    requires j <= |cands|
  {
    multiset(squad) <= multiset(squad0) + multiset(cands[..j])
  }

  /** Visiting one more candidate, taken or not, keeps `Drawn`. */
  lemma DrawnStep(squad0: seq<Row>, cands: seq<Row>, j: nat, squad: seq<Row>, take: bool, squad': seq<Row>)
    requires j < |cands| && Drawn(squad0, cands, j, squad)
    requires squad' == if take then squad + [cands[j]] else squad
    ensures Drawn(squad0, cands, j + 1, squad')
  {
    assert cands[..j + 1] == cands[..j] + [cands[j]];
  }

  /** A walk over the candidates of a position `squad0` lacks draws no row
      more often than the table holds it. */
  lemma DrawnBound(rows: seq<Row>, p: Position, squad0: seq<Row>, cands: seq<Row>, j: nat, squad: seq<Row>)
    requires cands == Candidates(rows, p) && j <= |cands|
    requires multiset(squad0) <= multiset(rows)
    requires forall x :: x in squad0 ==> x.position != p
    requires Drawn(squad0, cands, j, squad)
    ensures multiset(squad) <= multiset(rows)
  {
    assert cands == cands[..j] + cands[j..];
    FilterSubMultiset(rows, AvailableAt(p));
    forall x ensures multiset(squad)[x] <= multiset(rows)[x] {
      if x.position == p {
        assert x !in squad0;
      } else {
        assert x !in cands;
        assert x !in cands[..j];
      }
    }
  }

  /** The first `j` candidates are each taken or rejected. */
  ghost predicate Visited(cands: seq<Row>, j: nat, squad: seq<Row>, remaining: int)
    requires j <= |cands|
  {
    forall r :: r in cands[..j] && r !in squad ==> Rejected(squad, remaining, r)
  }

  /** After one more candidate: those visited so far are taken or rejected. */
  lemma VisitedStays(cands: seq<Row>, j: nat, squad: seq<Row>, remaining: int, c: Row, taken: bool)
    requires j < |cands| && c == cands[j]
    requires Visited(cands, j, squad, remaining)
    requires taken ==> c.price <= remaining
    requires !taken ==> Rejected(squad, remaining, c)
    ensures taken ==> Visited(cands, j + 1, squad + [c], remaining - c.price)
    ensures !taken ==> Visited(cands, j + 1, squad, remaining)
  {
    assert cands[..j + 1] == cands[..j] + [c];
    if taken {
      forall r | r in cands[..j + 1] && r !in squad + [c]
        ensures Rejected(squad + [c], remaining - c.price, r)
      {
        RejectedStays(squad, remaining, c, r);
      }
    }
  }

  /** Once the walk of `p` stops, with every candidate visited or the quota
      filled, position `p` is saturated too. */
  lemma WalkDone(rows: seq<Row>, squad: seq<Row>, remaining: int, prev: nat, p: Position,
                 cands: seq<Row>, j: nat)
    requires Rank(p) == prev
    requires cands == Candidates(rows, p) && j <= |cands|
    requires j == |cands| || PositionCount(squad, p) >= Quota(p)
    requires Saturated(rows, squad, remaining, prev)
    requires Visited(cands, j, squad, remaining)
    ensures Saturated(rows, squad, remaining, prev + 1)
  {
    forall r | r in rows && Rank(r.position) < prev + 1 && IsAvailable(r.status) && r !in squad
      ensures PositionCount(squad, r.position) >= Quota(r.position) || Rejected(squad, remaining, r)
    {
      if r.position == p && PositionCount(squad, p) < Quota(p) {
        assert cands[..j] == cands;
        assert r in cands[..j];
      }
    }
  }

  /** The inner loop's invariant: the squad is built over positions up to
      `p`, earlier positions are saturated and the first `j` candidates
      were each taken or rejected. */
  ghost predicate Walking(rows: seq<Row>, budget: int, prev: nat, cands: seq<Row>, j: nat,
                          squad: seq<Row>, remaining: int)
  {
    && j <= |cands|
    && Built(rows, budget, squad, remaining, prev + 1)
    && Saturated(rows, squad, remaining, prev)
    && Visited(cands, j, squad, remaining)
  }

  /** Taking the next candidate keeps `Walking`. */
  lemma StepTake(rows: seq<Row>, budget: int, prev: nat, p: Position, cands: seq<Row>, j: nat,
                 squad: seq<Row>, remaining: int)
    requires Rank(p) == prev && j < |cands|
    requires cands[j] in rows && cands[j].position == p && IsAvailable(cands[j].status)
    requires PositionCount(squad, p) < Quota(p)
    requires Walking(rows, budget, prev, cands, j, squad, remaining)
    requires ClubCount(squad, cands[j].club) < ClubCap && cands[j].price <= remaining
    ensures Walking(rows, budget, prev, cands, j + 1, squad + [cands[j]], remaining - cands[j].price)
    ensures PositionCount(squad + [cands[j]], p) == PositionCount(squad, p) + 1
  {
    var c := cands[j];
    Accept(rows, budget, squad, remaining, prev + 1, c);
    SaturatedStays(rows, squad, remaining, prev, c);
    VisitedStays(cands, j, squad, remaining, c, true);
    SquadSnoc(squad, c);
  }

  /** Passing over the next candidate keeps `Walking`. */
  lemma StepSkip(rows: seq<Row>, budget: int, prev: nat, p: Position, cands: seq<Row>, j: nat,
                 squad: seq<Row>, remaining: int)
    requires j < |cands|
    requires Walking(rows, budget, prev, cands, j, squad, remaining)
    requires !(ClubCount(squad, cands[j].club) < ClubCap && cands[j].price <= remaining)
    ensures Walking(rows, budget, prev, cands, j + 1, squad, remaining)
  {
    var c := cands[j];
    VisitedStays(cands, j, squad, remaining, c, false);
  }

  /** Walking one more position only widens what a built squad may hold. */
  lemma Widen(rows: seq<Row>, budget: int, squad: seq<Row>, remaining: int,
              done: nat)
    requires Built(rows, budget, squad, remaining, done)
    ensures Built(rows, budget, squad, remaining, done + 1)
  {
  }

  /** A squad built and saturated over the whole formation. */
  lemma Complete(rows: seq<Row>, budget: int, squad: seq<Row>, remaining: int)
    requires Built(rows, budget, squad, remaining, |Formation|)
    requires Saturated(rows, squad, remaining, |Formation|)
    ensures forall c :: ClubCount(squad, c) <= ClubCap
    ensures |squad| <= 15
    ensures forall r :: r in rows && IsAvailable(r.status) && r !in squad ==>
              PositionCount(squad, r.position) >= Quota(r.position) || Rejected(squad, remaining, r)
  {
    forall r | r in rows && IsAvailable(r.status) && r !in squad
      ensures PositionCount(squad, r.position) >= Quota(r.position) || Rejected(squad, remaining, r)
    {
      if Rank(r.position) >= |Formation| {
        assert r.position == Unmapped;
      }
    }
    SizeByPosition(squad);
  }

  /** Before any candidate is visited the invariant holds of `squad0`. */
  lemma WalkStarts(rows: seq<Row>, budget: int, prev: nat, p: Position, cands: seq<Row>,
                   squad0: seq<Row>, remaining0: int)
    requires Rank(p) == prev && cands == Candidates(rows, p)
    requires Built(rows, budget, squad0, remaining0, prev + 1)
    requires PositionCount(squad0, p) == 0
    requires Saturated(rows, squad0, remaining0, prev)
    requires BestFirst(rows, squad0, remaining0, prev)
    ensures Looping(rows, budget, prev, p, cands, 0, squad0, remaining0, 0)
  {
    AbsentAt(squad0, p);
    assert TakenFrom(squad0, p, cands, 0);
  }

  /** When the walk of `p` stops, `p` is saturated and best first. */
  lemma WalkEnds(rows: seq<Row>, budget: int, prev: nat, p: Position, cands: seq<Row>, j: nat,
                 squad: seq<Row>, remaining: int, selected: int)
    requires Rank(p) == prev && cands == Candidates(rows, p)
    requires j <= |cands| && (j == |cands| || selected >= Quota(p))
    requires Looping(rows, budget, prev, p, cands, j, squad, remaining, selected)
    ensures Built(rows, budget, squad, remaining, prev + 1)
    ensures Saturated(rows, squad, remaining, prev + 1)
    ensures BestFirst(rows, squad, remaining, prev + 1)
  {
    WalkDone(rows, squad, remaining, prev, p, cands, j);
    WalkBestFirst(rows, squad, remaining, prev, p, cands, j);
  }

  /** The invariant of the walk of `p` after `j` candidates, `selected` of
      them taken. */
  ghost predicate Looping(rows: seq<Row>, budget: int, prev: nat, p: Position, cands: seq<Row>, j: nat,
                          squad: seq<Row>, remaining: int, selected: int) {
    && selected == PositionCount(squad, p)
    && Walking(rows, budget, prev, cands, j, squad, remaining)
    && BestFirst(rows, squad, remaining, prev)
    && TakenFrom(squad, p, cands, j)
  }

  /** Visiting candidate `j`: taking it when its club has room and the
      budget covers it, passing over it otherwise, keeps the invariant. */
  lemma WalkStep(rows: seq<Row>, budget: int, prev: nat, p: Position, cands: seq<Row>, j: nat,
                 squad: seq<Row>, remaining: int, selected: int,
                 take: bool, squad': seq<Row>, remaining': int, selected': int)
    requires Rank(p) == prev && cands == Candidates(rows, p)
    requires j < |cands| && selected < Quota(p)
    requires Looping(rows, budget, prev, p, cands, j, squad, remaining, selected)
    requires take == (ClubCount(squad, cands[j].club) < ClubCap && cands[j].price <= remaining)
    requires take ==> squad' == squad + [cands[j]] && remaining' == remaining - cands[j].price && selected' == selected + 1
    requires !take ==> squad' == squad && remaining' == remaining && selected' == selected
    ensures Looping(rows, budget, prev, p, cands, j + 1, squad', remaining', selected')
  {
    var c := cands[j];
    assert c in cands;
    TakenFromStep(squad, p, cands, j, take);
    if take {
      StepTake(rows, budget, prev, p, cands, j, squad, remaining);
      BestFirstStays(rows, squad, remaining, prev, c);
    } else {
      StepSkip(rows, budget, prev, p, cands, j, squad, remaining);
    }
  }


  /** The state of the walk of one position: the squad, the budget left
      and how many of the position were taken. */
  datatype Walk = Walk(squad: seq<Row>, remaining: int, selected: nat)

  /** One candidate visited: while fewer than `quota` are taken, it is
      taken when its club has room and the budget covers its price;
      otherwise nothing changes. */
  function Visit(w: Walk, c: Row, quota: nat): (w': Walk)
    ensures w' != w <==> w.selected < quota && ClubCount(w.squad, c.club) < ClubCap && c.price <= w.remaining
    ensures w' != w ==> w' == Walk(w.squad + [c], w.remaining - c.price, w.selected + 1)
  {
    if w.selected < quota && ClubCount(w.squad, c.club) < ClubCap && c.price <= w.remaining
    then Walk(w.squad + [c], w.remaining - c.price, w.selected + 1)
    else w
  }

  /** While the position is open, a visit takes the candidate exactly when
      its club has room and the budget covers it. */
  lemma VisitOpen(w: Walk, c: Row, quota: nat, take: bool)
    requires w.selected < quota
    requires take == (ClubCount(w.squad, c.club) < ClubCap && c.price <= w.remaining)
    ensures take ==> Visit(w, c, quota) == Walk(w.squad + [c], w.remaining - c.price, w.selected + 1)
    ensures !take ==> Visit(w, c, quota) == w
  {
  }

  /** `WalkStep` for one visit of the walk model. */
  lemma WalkVisit(rows: seq<Row>, budget: int, prev: nat, p: Position, cands: seq<Row>, j: nat, v: Walk, w: Walk)
    requires Rank(p) == prev && cands == Candidates(rows, p)
    requires j < |cands| && v.selected < Quota(p)
    requires Looping(rows, budget, prev, p, cands, j, v.squad, v.remaining, v.selected)
    requires w == Visit(v, cands[j], Quota(p))
    ensures Looping(rows, budget, prev, p, cands, j + 1, w.squad, w.remaining, w.selected)
  {
    var c := cands[j];
    var take := ClubCount(v.squad, c.club) < ClubCap && c.price <= v.remaining;
    VisitOpen(v, c, Quota(p), take);
    WalkStep(rows, budget, prev, p, cands, j, v.squad, v.remaining, v.selected, take, w.squad, w.remaining, w.selected);
  }

  /** The state after the first `k` candidates were visited from `w0`. */
  function WalkTo(cands: seq<Row>, k: nat, quota: nat, w0: Walk): Walk
    requires k <= |cands|
  {
    if k == 0 then w0 else Visit(WalkTo(cands, k - 1, quota, w0), cands[k - 1], quota)
  }

  /** Every state the walk of `p` reaches while the position is open keeps
      the invariant. */
  lemma {:induction false} WalkToLooping(rows: seq<Row>, budget: int, prev: nat, p: Position, cands: seq<Row>, k: nat,
                                         squad0: seq<Row>, remaining0: int, w: Walk)
    requires Rank(p) == prev && cands == Candidates(rows, p) && k <= |cands|
    requires Built(rows, budget, squad0, remaining0, prev + 1)
    requires PositionCount(squad0, p) == 0
    requires Saturated(rows, squad0, remaining0, prev)
    requires BestFirst(rows, squad0, remaining0, prev)
    requires w == WalkTo(cands, k, Quota(p), Walk(squad0, remaining0, 0))
    requires k == 0 || WalkTo(cands, k - 1, Quota(p), Walk(squad0, remaining0, 0)).selected < Quota(p)
    ensures Looping(rows, budget, prev, p, cands, k, w.squad, w.remaining, w.selected)
    decreases k
  {
    var w0 := Walk(squad0, remaining0, 0);
    if k == 0 {
      WalkStarts(rows, budget, prev, p, cands, squad0, remaining0);
    } else {
      var v := WalkTo(cands, k - 1, Quota(p), w0);
      if k > 1 {
        assert v == Visit(WalkTo(cands, k - 2, Quota(p), w0), cands[k - 2], Quota(p));
      }
      WalkToLooping(rows, budget, prev, p, cands, k - 1, squad0, remaining0, v);
      WalkVisit(rows, budget, prev, p, cands, k - 1, v, w);
    }
  }

  /** Whatever the first `k` visits take is drawn from the candidates, each
      at most once. */
  lemma {:induction false} WalkToDrawn(cands: seq<Row>, k: nat, quota: nat, w0: Walk)
    requires k <= |cands|
    ensures Drawn(w0.squad, cands, k, WalkTo(cands, k, quota, w0).squad)
    decreases k
  {
    if k > 0 {
      var w := WalkTo(cands, k - 1, quota, w0);
      WalkToDrawn(cands, k - 1, quota, w0);
      var w' := Visit(w, cands[k - 1], quota);
      DrawnStep(w0.squad, cands, k - 1, w.squad, w' != w, w'.squad);
    }
  }
}

/** The walk of `build_optimal_squad` itself; its invariants and their
    preservation live in `Squad`. */
module SquadBuilder {
  import opened Wrappers
  import opened Seqs
  import opened Types
  import opened Squad

  /** The loop over the candidates of one position: visits them in order
      until `quota` are taken or none is left. */
  method WalkPosition(cands: seq<Row>, quota: nat, squad0: seq<Row>, remaining0: int)
    returns (squad: seq<Row>, remaining: int, selected: nat, j: nat)
    ensures j <= |cands| && (j == |cands| || selected >= quota)
    ensures Walk(squad, remaining, selected) == WalkTo(cands, j, quota, Walk(squad0, remaining0, 0))
    ensures j == 0 || WalkTo(cands, j - 1, quota, Walk(squad0, remaining0, 0)).selected < quota
  {
    squad, remaining, selected, j := squad0, remaining0, 0, 0;
    ghost var w0 := Walk(squad0, remaining0, 0);
    while j < |cands| && selected < quota
      invariant 0 <= j <= |cands|
      invariant Walk(squad, remaining, selected) == WalkTo(cands, j, quota, w0)
      invariant j == 0 || WalkTo(cands, j - 1, quota, w0).selected < quota
    {
      var c := cands[j];
      if ClubCount(squad, c.club) < ClubCap && c.price <= remaining {
        squad, remaining, selected := squad + [c], remaining - c.price, selected + 1;
      }
      j := j + 1;
    }
  }

  /** The inner loop for one position `p`, walked after the positions
      ranked below it. */
  method FillPosition(rows: seq<Row>, budget: int, prev: nat, p: Position,
                      squad0: seq<Row>, remaining0: int)
    returns (squad: seq<Row>, remaining: int)
    requires Rank(p) == prev
    requires Built(rows, budget, squad0, remaining0, prev + 1)
    requires PositionCount(squad0, p) == 0
    requires Saturated(rows, squad0, remaining0, prev)
    requires BestFirst(rows, squad0, remaining0, prev)
    requires multiset(squad0) <= multiset(rows)
    ensures Built(rows, budget, squad, remaining, prev + 1)
    ensures Saturated(rows, squad, remaining, prev + 1)
    ensures BestFirst(rows, squad, remaining, prev + 1)
    ensures multiset(squad) <= multiset(rows)
  {
    var cands := Candidates(rows, p);
    var selected, j;
    squad, remaining, selected, j := WalkPosition(cands, Quota(p), squad0, remaining0);
    WalkToLooping(rows, budget, prev, p, cands, j, squad0, remaining0, Walk(squad, remaining, selected));
    WalkEnds(rows, budget, prev, p, cands, j, squad, remaining, selected);
    WalkToDrawn(cands, j, Quota(p), Walk(squad0, remaining0, 0));
    AbsentAt(squad0, p);
    DrawnBound(rows, p, squad0, cands, j, squad);
  }

  /** The squad built and the budget left, in tenths. */
  datatype Selection = Selection(squad: seq<Row>, remaining: int)

  /** With nobody taken, `pd.DataFrame([])` has no `price` column and the
      cost sum raises. */
  datatype SquadError = EmptySquad

  /** `build_optimal_squad`: walks GK, DEF, MID, FWD; within a position visits
      the available players once each, best score first; stops a position
      at its quota, skips a player whose club already has 3, and takes a
      player who fits in the remaining budget. A shortfall is returned as
      is; an empty squad fails. Prices and the budget are in tenths. */
  method BuildOptimalSquad(rows: seq<Row>, budget: int) returns (res: Result<Selection, SquadError>)
    ensures res.Failure? <==>
              forall r :: r in rows && IsAvailable(r.status) && r.position in Formation ==> r.price > budget
    ensures res.Success? ==> var squad, remaining := res.value.squad, res.value.remaining;
              && squad != []
              && (forall r :: r in squad ==> r in rows && IsAvailable(r.status) && r.position in Formation)
              && remaining == budget - Cost(squad) && 0 <= remaining
              && (forall c :: ClubCount(squad, c) <= ClubCap)
              && (forall p :: PositionCount(squad, p) <= Quota(p))
              && |squad| <= 15
              && multiset(squad) <= multiset(rows)
    ensures res.Success? ==> var squad, remaining := res.value.squad, res.value.remaining;
              forall r :: r in rows && IsAvailable(r.status) && r !in squad ==>
                PositionCount(squad, r.position) >= Quota(r.position) || Rejected(squad, remaining, r)
    ensures res.Success? ==> var squad, remaining := res.value.squad, res.value.remaining;
              forall r, s :: (r in squad && s in rows && IsAvailable(s.status) && s !in squad
                && s.position == r.position && s.valueScore > r.valueScore) ==> Rejected(squad, remaining, s)
  {
    var squad: seq<Row> := [];
    var remaining := budget;
    var k := 0;
    while k < |Formation|
      invariant 0 <= k <= |Formation|
      invariant Built(rows, budget, squad, remaining, k)
      invariant Saturated(rows, squad, remaining, k)
      invariant BestFirst(rows, squad, remaining, k)
      invariant multiset(squad) <= multiset(rows)
    {
      var p := Formation[k];
      Widen(rows, budget, squad, remaining, k);
      squad, remaining := FillPosition(rows, budget, k, p, squad, remaining);
      k := k + 1;
    }
    Complete(rows, budget, squad, remaining);
    if squad == [] {
      forall r | r in rows && IsAvailable(r.status) && r.position in Formation ensures r.price > budget {
        assert r !in squad;
      }
      res := Failure(EmptySquad);
    } else {
      MemberCost(squad, squad[0]);
      assert squad[0] in squad;
      res := Success(Selection(squad, remaining));
    }
  }
}

=== FILE: types.dfy ===
/** The records every analysis works on: a decoded player row, the same row
    once scored (NaNs filled, `value_score` attached), and a fixture. */
module Types {
  import opened Wrappers
  import opened Seqs

  /** Playing position. `Unmapped` stands for the NaN that
      `element_type.map({1: 'GK', 2: 'DEF', 3: 'MID', 4: 'FWD'})` yields for
      any other code; it never equals a position name. In a scored row that
      NaN has already become 0 under `fillna(0)` (fpl_player_analyzer.py:40),
      so two unmapped scored rows compare equal, as `0 == 0` does, which is
      why `Unmapped == Unmapped` holds downstream of scoring. */
  datatype Position = GK | DEF | MID | FWD | Unmapped

  /** A price in tenths of a million: the payload's integer `now_cost`.
      The source divides by 10 and compares floats; in tenths every budget
      and price-window comparison is exact. */
  type Tenths = x: int | 0 < x witness 1

  /** A player row as the data fetcher produces it. Numeric columns the
      payload carries as strings, or as nulls, are `Option`s (`None` is the
      NaN that `pd.to_numeric(..., errors='coerce')` gives). */
  datatype Player = Player(
    id: int,
    name: string,
    teamName: string,
    club: string,
    position: Position,
    price: Tenths,
    status: string,
    minutes: int,
    totalPoints: int,
    goals: int,
    assists: int,
    cleanSheets: int,
    goalsConceded: int,
    form: Option<real>,
    ppg: Option<real>,
    ict: Option<real>,
    xg: Option<real>,
    xa: Option<real>,
    xgi: Option<real>,
    ownership: Option<real>,
    chance: Option<int>)

  /** A scored player row: the row after `fillna(0)`, with `value_score`. */
  datatype Row = Row(
    id: int,
    name: string,
    teamName: string,
    club: string,
    position: Position,
    price: Tenths,
    status: string,
    minutes: int,
    totalPoints: int,
    goals: int,
    assists: int,
    cleanSheets: int,
    goalsConceded: int,
    form: real,
    ppg: real,
    ict: real,
    xg: real,
    xa: real,
    xgi: real,
    ownership: real,
    chance: int,
    valueScore: real)

  /** The rows whose id is listed (`df[df['id'].isin(ids)]`), in table
      order: the current team, and the wildcard's must-haves. */
  function Selected(rows: seq<Row>, ids: seq<int>): (sel: seq<Row>)
    ensures forall r :: r in sel <==> r in rows && r.id in ids
    ensures multiset(sel) <= multiset(rows)
  {
    var listed := (r: Row) => r.id in ids;
    FilterSubMultiset(rows, listed);
    Filter(rows, listed)
  }

  /** The `value_score` column, the sort key of every ranking. */
  function ValueScore(r: Row): real {
    r.valueScore
  }

  /** A team name read from a fixture: `None` is the NaN that `map` gives a
      team id missing from the team table, which equals no name. */
  type TeamName = Option<string>

  /** A fixture row: `event` is null for a fixture not yet scheduled. */
  datatype Fixture = Fixture(
    event: Option<int>,
    finished: bool,
    homeTeam: TeamName,
    awayTeam: TeamName,
    homeDifficulty: int,
    awayDifficulty: int)

  /** Status code `'a'`: available. */
  predicate IsAvailable(status: string) {
    status == "a"
  }

  /** A price in millions, as the source displays and compares it. */
  function Millions(t: int): real {
    t as real / 10.0
  }

  /** The squad formation, in the order every selector walks it. */
  const Formation: seq<Position> := [GK, DEF, MID, FWD]

  /** A position's place in `Formation`; `Unmapped` comes after all four. */
  function Rank(p: Position): (k: nat)
    ensures k < |Formation| ==> Formation[k] == p
    ensures p in Formation <==> k < |Formation|
  {
    match p
    case GK => 0
    case DEF => 1
    case MID => 2
    case FWD => 3
    case Unmapped => 4
  }

  /** Players per position in a 15-man squad. */
  function Quota(p: Position): nat {
    match p
    case GK => 2
    case DEF => 5
    case MID => 5
    case FWD => 3
    case Unmapped => 0
  }

  /** At most this many players from one club. */
  const ClubCap: nat := 3
}

=== FILE: wildcard.dfy ===
/** `wildcard_optimizer` (fpl_advanced_features.py:230-296): a second greedy
    selector that boosts clubs with an easy eight-gameweek run, forces the
    must-have players in, and fills the formation by budget and quota only
    (no three-per-club rule). */
module Wildcard {
  import opened Wrappers
  import opened Seqs
  import opened Types
  import opened Squad
  import opened Advanced

  datatype WildcardError =
    | NoFixtureRun   // the fixture-run table could not be sorted
    | UnmappedMustHave  // `formation[nan]` raises for a must-have without a position
    | EmptyWildcard     // nobody was picked: the empty frame has no `price` column

  /** The squad and the budget left, in tenths. */
  datatype Wild = Wild(squad: seq<Row>, remaining: int)

  /** The clubs of the first eight rows of the fixture-run table. */
  function GoodFixtureTeams(runs: seq<TeamRun>): (good: seq<string>)
    ensures |good| <= 8 && |good| <= |runs|
    ensures forall i :: 0 <= i < |good| ==> good[i] == runs[i].team
  {
    Map(Take(runs, 8), (r: TeamRun) => r.team)
  }

  /** `wildcard_score`: the value score, times 1.2 for a club with a good
      run. */
  function WildcardScore(good: seq<string>, r: Row): (s: real)
    ensures r.club in good ==> s == 1.2 * r.valueScore
    ensures r.club !in good ==> s == r.valueScore
    ensures r.valueScore >= 0.0 ==> r.valueScore <= s
  {
    if r.club in good then r.valueScore * 1.2 else r.valueScore
  }

  /** The `id` column. */
  function Ids(s: seq<Row>): (ids: seq<int>)
    ensures forall x :: x in s ==> x.id in ids
    ensures |ids| == |s| && forall k :: 0 <= k < |s| ==> ids[k] == s[k].id
  {
    if s == [] then [] else Ids(s[..|s| - 1]) + [s[|s| - 1].id]
  }

  /** The walk for one position: take each candidate, in order, that the
      remaining budget covers, until `count` are taken. */
  function Greedy(cands: seq<Row>, count: int, remaining: int): (res: (seq<Row>, int))
    ensures forall x :: x in res.0 ==> x in cands
    ensures forall x {:trigger multiset(res.0)[x]} :: x in res.0 ==> multiset(res.0)[x] <= multiset(cands)[x]
    ensures res.1 == remaining - Cost(res.0)
    ensures |res.0| <= Max(0, count)
    ensures res.0 != [] ==> res.1 >= 0
    ensures res.1 <= remaining
    ensures |res.0| < count ==> forall c :: c in cands && c !in res.0 ==> c.price > res.1
    decreases |cands|
  {
    if cands == [] || count <= 0 then ([], remaining)
    else
      var c := cands[0];
      if c.price <= remaining then
        var rest := Greedy(cands[1..], count - 1, remaining - c.price);
        CostCons(c, rest.0);
        assert cands == [c] + cands[1..];
        assert forall x :: x in cands ==> x == c || x in cands[1..];
        ([c] + rest.0, rest.1)
      else
        var rest := Greedy(cands[1..], count, remaining);
        assert cands == [c] + cands[1..];
        assert forall x :: x in cands ==> x == c || x in cands[1..];
        rest
  }

  /** No candidate is picked more often than it is listed. */
  lemma GreedyOnce(cands: seq<Row>, count: int, remaining: int)
    ensures multiset(Greedy(cands, count, remaining).0) <= multiset(cands)
  {
    var picks := Greedy(cands, count, remaining).0;
    forall x ensures multiset(picks)[x] <= multiset(cands)[x] {
      if x !in picks {
        assert multiset(picks)[x] == 0;
      }
    }
  }

  /** The walk picks nobody exactly when no position is open or nobody
      fits the budget. */
  lemma {:induction false} GreedyEmpty(cands: seq<Row>, count: int, remaining: int)
    ensures Greedy(cands, count, remaining).0 == [] <==> count <= 0 || forall c :: c in cands ==> c.price > remaining
    decreases |cands|
  {
    if cands != [] && count > 0 && cands[0].price > remaining {
      GreedyEmpty(cands[1..], count, remaining);
      assert forall x :: x in cands ==> x == cands[0] || x in cands[1..];
    }
  }

  /** A candidate left out that outscores a pick costs more than `left`. */
  ghost predicate PricedOutAbove(cands: seq<Row>, picks: seq<Row>, left: int, key: Row -> real) {
    forall r, c :: r in picks && c in cands && c !in picks && key(c) > key(r) ==> c.price > left
  }

  /** Each candidate scores at least as much as every later one, stated
      head by head. */
  ghost predicate HeadsFirst(cands: seq<Row>, key: Row -> real)
    decreases |cands|
  {
    cands != [] ==> (forall x :: x in cands[1..] ==> key(cands[0]) >= key(x)) && HeadsFirst(cands[1..], key)
  }

  lemma {:induction false} SortedHeadsFirst(s: seq<Row>, key: Row -> real)
    requires SortedDesc(s, key)
    ensures HeadsFirst(s, key)
    decreases |s|
  {
    if s != [] {
      SortedTail(s, key);
      SortedHeadsFirst(s[1..], key);
    }
  }

  /** Walking candidates best first, a candidate left out that outscores a
      pick was skipped before that pick was reached, when the budget left
      was already at least what remains at the end. */
  lemma {:induction false} GreedyOrdered(cands: seq<Row>, count: int, remaining: int, key: Row -> real)
    requires HeadsFirst(cands, key)
    ensures PricedOutAbove(cands, Greedy(cands, count, remaining).0, Greedy(cands, count, remaining).1, key)
    decreases |cands|
  {
    if cands != [] && count > 0 {
      HeadsFirstHead(cands, key);
      if cands[0].price <= remaining {
        GreedyOrdered(cands[1..], count - 1, remaining - cands[0].price, key);
        TakeStep(cands, count, remaining, key);
      } else {
        GreedyOrdered(cands[1..], count, remaining, key);
        SkipStep(cands, count, remaining, key);
      }
    }
  }

  lemma HeadsFirstHead(cands: seq<Row>, key: Row -> real)
    requires cands != [] && HeadsFirst(cands, key)
    ensures forall x :: x in cands[1..] ==> key(cands[0]) >= key(x)
    ensures HeadsFirst(cands[1..], key)
  {
  }

  /** The inductive step when the first candidate fits and is picked. */
  lemma TakeStep(cands: seq<Row>, count: int, remaining: int, key: Row -> real)
    requires cands != [] && count > 0 && cands[0].price <= remaining
    requires forall x :: x in cands[1..] ==> key(cands[0]) >= key(x)
    requires PricedOutAbove(cands[1..], Greedy(cands[1..], count - 1, remaining - cands[0].price).0,
                            Greedy(cands[1..], count - 1, remaining - cands[0].price).1, key)
    ensures PricedOutAbove(cands, Greedy(cands, count, remaining).0, Greedy(cands, count, remaining).1, key)
  {
    var c0, tail := cands[0], cands[1..];
    var rest := Greedy(tail, count - 1, remaining - c0.price);
    GreedyTakes(cands, count, remaining);
    assert cands == [c0] + tail;
    OrderedTake(c0, tail, rest.0, rest.1, key);
  }

  /** The inductive step when the first candidate is over budget. */
  lemma SkipStep(cands: seq<Row>, count: int, remaining: int, key: Row -> real)
    requires cands != [] && count > 0 && cands[0].price > remaining
    requires PricedOutAbove(cands[1..], Greedy(cands[1..], count, remaining).0, Greedy(cands[1..], count, remaining).1, key)
    ensures PricedOutAbove(cands, Greedy(cands, count, remaining).0, Greedy(cands, count, remaining).1, key)
  {
    var c0, tail := cands[0], cands[1..];
    var rest := Greedy(tail, count, remaining);
    assert Greedy(cands, count, remaining) == rest;
    assert cands == [c0] + tail;
    OrderedSkip(c0, tail, rest.0, rest.1, key);
  }

  /** One step of the walk when the first candidate fits. */
  lemma GreedyTakes(cands: seq<Row>, count: int, remaining: int)
    requires cands != [] && count > 0 && cands[0].price <= remaining
    ensures var rest := Greedy(cands[1..], count - 1, remaining - cands[0].price);
            Greedy(cands, count, remaining) == ([cands[0]] + rest.0, rest.1)
  {
  }

  lemma OrderedTake(c0: Row, tail: seq<Row>, picks: seq<Row>, left: int, key: Row -> real)
    requires PricedOutAbove(tail, picks, left, key)
    requires forall x :: x in tail ==> key(c0) >= key(x)
    ensures PricedOutAbove([c0] + tail, [c0] + picks, left, key)
  {
    forall r, c | r in [c0] + picks && c in [c0] + tail && c !in [c0] + picks && key(c) > key(r)
      ensures c.price > left
    {
      assert c in tail;
      assert r in picks;
    }
  }

  lemma OrderedSkip(c0: Row, tail: seq<Row>, picks: seq<Row>, left: int, key: Row -> real)
    requires PricedOutAbove(tail, picks, left, key)
    requires c0.price > left
    ensures PricedOutAbove([c0] + tail, picks, left, key)
  {
    forall r, c | r in picks && c in [c0] + tail && c !in picks && key(c) > key(r) ensures c.price > left {
      if c != c0 {
        assert c in tail;
      }
    }
  }

  lemma SortedTail(s: seq<Row>, key: Row -> real)
    requires s != [] && SortedDesc(s, key)
    ensures SortedDesc(s[1..], key)
    ensures forall x :: x in s[1..] ==> key(s[0]) >= key(x)
  {
    forall x | x in s[1..] ensures key(s[0]) >= key(x) {
      var k :| 0 <= k < |s[1..]| && s[1..][k] == x;
      assert s[k + 1] == x;
    }
  }

  lemma {:induction false} CostAppend(a: seq<Row>, b: seq<Row>)
    ensures Cost(a + b) == Cost(a) + Cost(b)
    decreases |b|
  {
    if b == [] {
      assert a + b == a;
    } else {
      var b' := b[..|b| - 1];
      assert (a + b)[..|a + b| - 1] == a + b';
      CostAppend(a, b');
    }
  }

  lemma CostCons(x: Row, s: seq<Row>)
    ensures Cost([x] + s) == x.price + Cost(s)
  {
    CostAppend([x], s);
    assert [x][..0] == [];
  }

  lemma {:induction false} PositionCountAppend(a: seq<Row>, b: seq<Row>, p: Position)
    ensures PositionCount(a + b, p) == PositionCount(a, p) + PositionCount(b, p)
    decreases |b|
  {
    if b == [] {
      assert a + b == a;
    } else {
      var b' := b[..|b| - 1];
      assert (a + b)[..|a + b| - 1] == a + b';
      PositionCountAppend(a, b', p);
    }
  }

  /** The candidates for `p`: available players of that position not yet in
      the squad, best wildcard score first. */
  function WildCandidates(rows: seq<Row>, good: seq<string>, p: Position, squad: seq<Row>): (cands: seq<Row>)
    ensures forall c :: c in cands <==>
              c in rows && c.position == p && IsAvailable(c.status) && c.id !in Ids(squad)
    ensures multiset(cands) == multiset(Filter(rows, OpenAt(p, squad)))
    ensures SortedDesc(cands, WildKey(good))
  {
    SortDesc(Filter(rows, OpenAt(p, squad)), WildKey(good))
  }

  /** The mask of the available players of `p` whose id the squad lacks. */
  function OpenAt(p: Position, squad: seq<Row>): Row -> bool {
    (c: Row) => c.position == p && IsAvailable(c.status) && c.id !in Ids(squad)
  }

  /** The `wildcard_score` column as a sort key. */
  function WildKey(good: seq<string>): Row -> real {
    (c: Row) => WildcardScore(good, c)
  }

  /** What is still open at `p` once the must-haves are in. */
  function Open(must: seq<Row>, p: Position): int {
    Quota(p) - PositionCount(must, p)
  }

  /** A sequence all at `p` counts its length there. */
  lemma {:induction false} AllAt(s: seq<Row>, p: Position)
    requires forall x :: x in s ==> x.position == p
    ensures PositionCount(s, p) == |s|
  {
    if s != [] {
      assert s[|s| - 1] in s;
      assert forall x :: x in s[..|s| - 1] ==> x in s;
      AllAt(s[..|s| - 1], p);
    }
  }

  /** The squad after the positions of rank below `done` are filled: the
      must-haves first, then picks that are available, not must-haves, of
      a filled position, within what each position had open, paid for out
      of the budget, which no pick overdraws. */
  ghost predicate Filled(rows: seq<Row>, mustHave: seq<int>, budget: int, w: Wild, done: nat) {
    var must := Selected(rows, mustHave);
    && |must| <= |w.squad| && w.squad[..|must|] == must
    && w.remaining == budget - Cost(w.squad)
    && multiset(w.squad) <= multiset(rows)
    && (forall x :: x in w.squad[|must|..] ==>
          x in rows && IsAvailable(x.status) && x.id !in mustHave && Rank(x.position) < done)
    && (forall p :: PositionCount(w.squad[|must|..], p) <= (if Rank(p) < done then Max(0, Open(must, p)) else 0))
    && (|w.squad| > |must| ==> w.remaining >= 0)
  }

  lemma Start(rows: seq<Row>, mustHave: seq<int>, budget: int)
    ensures Filled(rows, mustHave, budget, Wild(Selected(rows, mustHave), budget - Cost(Selected(rows, mustHave))), 0)
  {
    var must := Selected(rows, mustHave);
    assert must[..|must|] == must && must[|must|..] == [];
  }

  /** No squad member carries `id`, so a player with it is still a
      candidate. */
  predicate Untaken(squad: seq<Row>, id: int) {
    forall x :: x in squad ==> x.id != id
  }

  lemma UntakenIds(squad: seq<Row>, id: int)
    requires Untaken(squad, id)
    ensures id !in Ids(squad)
  {
    forall k | 0 <= k < |squad| ensures Ids(squad)[k] != id {
      assert squad[k] in squad;
    }
  }

  /** At every walked position the walk left short of what it had open,
      each available player not taken costs more than the budget left. */
  ghost predicate ShortPricedOut(rows: seq<Row>, mustHave: seq<int>, w: Wild, done: nat) {
    var must := Selected(rows, mustHave);
    && |must| <= |w.squad|
    && forall s :: (s in rows && IsAvailable(s.status) && Rank(s.position) < done && Untaken(w.squad, s.id)
         && PositionCount(w.squad[|must|..], s.position) < Open(must, s.position)) ==> s.price > w.remaining
  }

  /** An available player not taken who has a higher wildcard score than a
      pick of the same position costs more than the budget left. */
  ghost predicate BetterPricedOut(rows: seq<Row>, good: seq<string>, mustHave: seq<int>, w: Wild) {
    var must := Selected(rows, mustHave);
    && |must| <= |w.squad|
    && forall r, s :: (r in w.squad[|must|..] && s in rows && IsAvailable(s.status) && s.position == r.position
         && Untaken(w.squad, s.id) && WildcardScore(good, s) > WildcardScore(good, r)) ==> s.price > w.remaining
  }

  /** Appending the picks for `p` keeps `ShortPricedOut`: at `p` the walk
      stopped short only once every candidate left cost too much, and at
      earlier positions nothing changed but the budget, which only fell. */
  lemma ShortStep(rows: seq<Row>, mustHave: seq<int>, p: Position, w: Wild, new_: seq<Row>, w': Wild)
    requires Rank(p) < 4
    requires ShortPricedOut(rows, mustHave, w, Rank(p))
    requires w.squad[..|Selected(rows, mustHave)|] == Selected(rows, mustHave)
    requires PositionCount(w.squad[|Selected(rows, mustHave)|..], p) == 0
    requires w'.squad == w.squad + new_ && w'.remaining <= w.remaining
    requires forall x :: x in new_ ==> x.position == p
    requires |new_| < Open(Selected(rows, mustHave), p) ==>
               forall c :: (c in rows && c.position == p && IsAvailable(c.status) && c.id !in Ids(w.squad)
                 && c !in new_) ==> c.price > w'.remaining
    ensures ShortPricedOut(rows, mustHave, w', Rank(p) + 1)
  {
    var must := Selected(rows, mustHave);
    Slices(must, w.squad, new_);
    forall s | s in rows && IsAvailable(s.status) && Rank(s.position) < Rank(p) + 1 && Untaken(w'.squad, s.id)
      && PositionCount(w'.squad[|must|..], s.position) < Open(must, s.position)
      ensures s.price > w'.remaining
    {
      PositionCountAppend(w.squad[|must|..], new_, s.position);
      assert Untaken(w.squad, s.id);
      if s.position == p {
        AllAt(new_, p);
        UntakenIds(w.squad, s.id);
        assert s !in w'.squad;
      } else {
        NoneAt(new_, s.position);
      }
    }
  }

  /** Appending the picks for `p` keeps `BetterPricedOut`. */
  lemma BetterStep(rows: seq<Row>, good: seq<string>, mustHave: seq<int>, p: Position, w: Wild, new_: seq<Row>, w': Wild)
    requires BetterPricedOut(rows, good, mustHave, w)
    requires w.squad[..|Selected(rows, mustHave)|] == Selected(rows, mustHave)
    requires w'.squad == w.squad + new_ && w'.remaining <= w.remaining
    requires forall x :: x in new_ ==> x.position == p
    requires forall r, c :: r in new_ && c in rows && c.position == p && IsAvailable(c.status)
               && c.id !in Ids(w.squad) && c !in new_ && WildcardScore(good, c) > WildcardScore(good, r)
               ==> c.price > w'.remaining
    ensures BetterPricedOut(rows, good, mustHave, w')
  {
    var must := Selected(rows, mustHave);
    Slices(must, w.squad, new_);
    forall r, s | r in w'.squad[|must|..] && s in rows && IsAvailable(s.status) && s.position == r.position
      && Untaken(w'.squad, s.id) && WildcardScore(good, s) > WildcardScore(good, r)
      ensures s.price > w'.remaining
    {
      assert Untaken(w.squad, s.id);
      if r !in w.squad[|must|..] {
        assert r in new_;
        UntakenIds(w.squad, s.id);
        assert s !in w'.squad;
      }
    }
  }

  /** The walk over one position's candidates, as seen from the table:
      a candidate left out while the position is short, or left out though
      it outscores a pick, costs more than what the walk leaves. */
  lemma GreedyFacts(rows: seq<Row>, good: seq<string>, p: Position, squad: seq<Row>, count: int, remaining: int)
    ensures var g := Greedy(WildCandidates(rows, good, p, squad), count, remaining);
            && (|g.0| < count ==>
                  forall c :: (c in rows && c.position == p && IsAvailable(c.status) && c.id !in Ids(squad)
                    && c !in g.0) ==> c.price > g.1)
            && (forall r, c :: r in g.0 && c in rows && c.position == p && IsAvailable(c.status)
                  && c.id !in Ids(squad) && c !in g.0 && WildcardScore(good, c) > WildcardScore(good, r)
                  ==> c.price > g.1)
  {
    var cands := WildCandidates(rows, good, p, squad);
    SortedHeadsFirst(cands, WildKey(good));
    GreedyOrdered(cands, count, remaining, WildKey(good));
  }

  /** The walk over one position's candidates picks no row more often than
      the table holds it. */
  lemma GreedyFromRows(rows: seq<Row>, good: seq<string>, p: Position, squad: seq<Row>, count: int, remaining: int)
    ensures multiset(Greedy(WildCandidates(rows, good, p, squad), count, remaining).0) <= multiset(rows)
  {
    FilterSubMultiset(rows, OpenAt(p, squad));
    GreedyOnce(WildCandidates(rows, good, p, squad), count, remaining);
  }

  /** Filling position `p`: nothing when the must-haves used its quota up,
      else the greedy walk over its candidates. */
  method Step(rows: seq<Row>, good: seq<string>, mustHave: seq<int>, budget: int, p: Position, w: Wild)
    returns (w': Wild)
    requires Rank(p) < 4
    requires Filled(rows, mustHave, budget, w, Rank(p))
    requires ShortPricedOut(rows, mustHave, w, Rank(p))
    requires BetterPricedOut(rows, good, mustHave, w)
    ensures Filled(rows, mustHave, budget, w', Rank(p) + 1)
    ensures ShortPricedOut(rows, mustHave, w', Rank(p) + 1)
    ensures BetterPricedOut(rows, good, mustHave, w')
    ensures |w.squad| <= |w'.squad| && w'.squad[..|w.squad|] == w.squad
    ensures forall x :: x in w'.squad[|w.squad|..] ==> x.position == p
  {
    var count := Open(Selected(rows, mustHave), p);
    if count > 0 {
      var picks := Greedy(WildCandidates(rows, good, p, w.squad), count, w.remaining);
      StepWalks(rows, good, mustHave, budget, p, w, count);
      w' := Wild(w.squad + picks.0, picks.1);
    } else {
      StepSkips(rows, good, mustHave, budget, p, w);
      w' := w;
    }
  }

  /** What `Step` promises of `w'`, grown from `w` by filling `p`. */
  ghost predicate Stepped(rows: seq<Row>, good: seq<string>, mustHave: seq<int>, budget: int, p: Position,
                          w: Wild, w': Wild) {
    && Filled(rows, mustHave, budget, w', Rank(p) + 1)
    && ShortPricedOut(rows, mustHave, w', Rank(p) + 1)
    && BetterPricedOut(rows, good, mustHave, w')
    && |w.squad| <= |w'.squad| && w'.squad[..|w.squad|] == w.squad
    && (forall x :: x in w'.squad[|w.squad|..] ==> x.position == p)
  }

  /** `p` still has places open: the walk's picks are appended. */
  lemma StepWalks(rows: seq<Row>, good: seq<string>, mustHave: seq<int>, budget: int, p: Position, w: Wild,
                  count: int)
    requires Rank(p) < 4 && count == Open(Selected(rows, mustHave), p) && count > 0
    requires Filled(rows, mustHave, budget, w, Rank(p))
    requires ShortPricedOut(rows, mustHave, w, Rank(p))
    requires BetterPricedOut(rows, good, mustHave, w)
    ensures var picks := Greedy(WildCandidates(rows, good, p, w.squad), count, w.remaining);
            Stepped(rows, good, mustHave, budget, p, w, Wild(w.squad + picks.0, picks.1))
  {
    var picks := Greedy(WildCandidates(rows, good, p, w.squad), count, w.remaining);
    GreedyFacts(rows, good, p, w.squad, count, w.remaining);
    GreedyFromRows(rows, good, p, w.squad, count, w.remaining);
    var new_ := picks.0;
    var w' := Wild(w.squad + new_, picks.1);
    AllAt(new_, p);
    assert w'.squad[..|w.squad|] == w.squad && w'.squad[|w.squad|..] == new_;
    Extend(rows, mustHave, budget, p, w, new_, w');
    ShortStep(rows, mustHave, p, w, new_, w');
    BetterStep(rows, good, mustHave, p, w, new_, w');
  }

  /** The must-haves filled `p`: nothing is added. */
  lemma StepSkips(rows: seq<Row>, good: seq<string>, mustHave: seq<int>, budget: int, p: Position, w: Wild)
    requires Rank(p) < 4 && Open(Selected(rows, mustHave), p) <= 0
    requires Filled(rows, mustHave, budget, w, Rank(p))
    requires ShortPricedOut(rows, mustHave, w, Rank(p))
    requires BetterPricedOut(rows, good, mustHave, w)
    ensures Stepped(rows, good, mustHave, budget, p, w, w)
  {
    SkipFilled(rows, mustHave, budget, p, w);
    SkipShort(rows, mustHave, p, w);
    assert w.squad[..|w.squad|] == w.squad && w.squad[|w.squad|..] == [];
  }

  /** With `p` full, the fill invariant reaches past `p` unchanged. */
  lemma SkipFilled(rows: seq<Row>, mustHave: seq<int>, budget: int, p: Position, w: Wild)
    requires Rank(p) < 4 && Open(Selected(rows, mustHave), p) <= 0
    requires Filled(rows, mustHave, budget, w, Rank(p))
    ensures Filled(rows, mustHave, budget, w, Rank(p) + 1)
  {
    var must := Selected(rows, mustHave);
    var rest := w.squad[|must|..];
    forall q ensures PositionCount(rest, q) <= (if Rank(q) < Rank(p) + 1 then Max(0, Open(must, q)) else 0) {
      if Rank(q) == Rank(p) {
        assert q == Formation[Rank(p)] == p;
      }
    }
  }

  /** With `p` full, no player of `p` can be left short. */
  lemma SkipShort(rows: seq<Row>, mustHave: seq<int>, p: Position, w: Wild)
    requires Rank(p) < 4 && Open(Selected(rows, mustHave), p) <= 0
    requires ShortPricedOut(rows, mustHave, w, Rank(p))
    ensures ShortPricedOut(rows, mustHave, w, Rank(p) + 1)
  {
    var must := Selected(rows, mustHave);
    forall s | s in rows && IsAvailable(s.status) && Rank(s.position) < Rank(p) + 1 && Untaken(w.squad, s.id)
      && PositionCount(w.squad[|must|..], s.position) < Open(must, s.position)
      ensures s.price > w.remaining
    {
      if Rank(s.position) == Rank(p) {
        assert false;
      }
    }
  }

  /** Appending a position's picks keeps the fill invariant. */
  lemma Extend(rows: seq<Row>, mustHave: seq<int>, budget: int, p: Position, w: Wild, new_: seq<Row>, w': Wild)
    requires Rank(p) < 4
    requires Filled(rows, mustHave, budget, w, Rank(p))
    requires w'.squad == w.squad + new_
    requires w'.remaining == w.remaining - Cost(new_)
    requires new_ != [] ==> w'.remaining >= 0
    requires PositionCount(new_, p) <= Max(0, Open(Selected(rows, mustHave), p))
    requires multiset(new_) <= multiset(rows)
    requires forall x :: x in new_ ==>
               x in rows && x.position == p && IsAvailable(x.status) && x.id !in Ids(w.squad)
    ensures Filled(rows, mustHave, budget, w', Rank(p) + 1)
  {
    var must := Selected(rows, mustHave);
    Slices(must, w.squad, new_);
    CostAppend(w.squad, new_);
    ExtendCounts(must, p, w.squad, new_);
    ExtendPicks(rows, mustHave, Rank(p), must, w.squad, new_);
    DisjointSum(w.squad, new_, rows);
  }

  lemma Slices(must: seq<Row>, squad: seq<Row>, new_: seq<Row>)
    requires |must| <= |squad| && squad[..|must|] == must
    ensures (squad + new_)[..|must|] == must
    ensures (squad + new_)[|must|..] == squad[|must|..] + new_
    ensures (squad + new_)[..|squad|] == squad
    ensures (squad + new_)[|squad|..] == new_
  {
  }

  lemma ExtendCounts(must: seq<Row>, p: Position, squad: seq<Row>, new_: seq<Row>)
    requires |must| <= |squad| && squad[..|must|] == must
    requires forall q :: PositionCount(squad[|must|..], q) <= (if Rank(q) < Rank(p) then Max(0, Open(must, q)) else 0)
    requires PositionCount(new_, p) <= Max(0, Open(must, p))
    requires forall x :: x in new_ ==> x.position == p
    ensures forall q :: PositionCount((squad + new_)[|must|..], q) <= (if Rank(q) < Rank(p) + 1 then Max(0, Open(must, q)) else 0)
  {
    Slices(must, squad, new_);
    var old_ := squad[|must|..];
    forall q ensures PositionCount(old_ + new_, q) <= (if Rank(q) < Rank(p) + 1 then Max(0, Open(must, q)) else 0)
    {
      PositionCountAppend(old_, new_, q);
      if q != p {
        NoneAt(new_, q);
      }
    }
  }

  lemma ExtendPicks(rows: seq<Row>, mustHave: seq<int>, done: nat, must: seq<Row>, squad: seq<Row>, new_: seq<Row>)
    requires forall r :: r in rows && r.id in mustHave ==> r in must
    requires |must| <= |squad| && squad[..|must|] == must
    requires forall x :: x in squad[|must|..] ==>
               x in rows && IsAvailable(x.status) && x.id !in mustHave && Rank(x.position) < done
    requires forall x :: x in new_ ==>
               x in rows && Rank(x.position) == done && IsAvailable(x.status) && x.id !in Ids(squad)
    ensures forall x :: x in (squad + new_)[|must|..] ==>
              x in rows && IsAvailable(x.status) && x.id !in mustHave && Rank(x.position) < done + 1
  {
    Slices(must, squad, new_);
    forall r | r in rows && r.id in mustHave ensures r in squad {
      assert r in squad[..|must|];
    }
  }

  /** A sequence at other positions counts nothing at `q`. */
  lemma {:induction false} NoneAt(s: seq<Row>, q: Position)
    requires forall x :: x in s ==> x.position != q
    ensures PositionCount(s, q) == 0
  {
    if s != [] {
      assert s[|s| - 1] in s;
      assert forall x :: x in s[..|s| - 1] ==> x in s;
      NoneAt(s[..|s| - 1], q);
    }
  }

  /** The must-haves, then GK, DEF, MID and FWD filled in turn. */
  method Fill(rows: seq<Row>, good: seq<string>, mustHave: seq<int>, budget: int) returns (w: Wild)
    ensures Filled(rows, mustHave, budget, w, 4)
    ensures ShortPricedOut(rows, mustHave, w, 4)
    ensures BetterPricedOut(rows, good, mustHave, w)
  {
    var must := Selected(rows, mustHave);
    w := Wild(must, budget - Cost(must));
    Start(rows, mustHave, budget);
    assert must[|must|..] == [];
    w := Step(rows, good, mustHave, budget, GK, w);
    w := Step(rows, good, mustHave, budget, DEF, w);
    w := Step(rows, good, mustHave, budget, MID, w);
    w := Step(rows, good, mustHave, budget, FWD, w);
  }

  /** With no must-have, nobody is picked exactly when every available
      player of the formation costs more than the budget. */
  lemma EmptyFill(rows: seq<Row>, mustHave: seq<int>, budget: int, w: Wild)
    requires Filled(rows, mustHave, budget, w, 4)
    requires ShortPricedOut(rows, mustHave, w, 4)
    ensures w.squad == [] <==>
              Selected(rows, mustHave) == [] &&
              forall r :: r in rows && IsAvailable(r.status) && r.position in Formation ==> r.price > budget
  {
    var must := Selected(rows, mustHave);
    if w.squad == [] {
      assert w.squad[|must|..] == [];
    } else if must == [] {
      var x := w.squad[0];
      assert x in w.squad[|must|..];
      MemberCost(w.squad, x);
    }
  }

  /** `wildcard_optimizer`: fails where the source raises, otherwise fills
      the squad with the good-run clubs boosted. Within the budget left the
      fill is greedy: a position left short, or a pick outscored by a player
      left out, means that player costs more than what remains. */
  method WildcardOptimizer(rows: seq<Row>, fixtures: seq<Fixture>, budget: int, mustHave: seq<int>)
    returns (res: Result<Wild, WildcardError>)
    ensures res.Failure? <==>
              || FixtureRunAnalysis(rows, fixtures, 8).Failure?
              || PositionCount(Selected(rows, mustHave), Unmapped) > 0
              || (Selected(rows, mustHave) == [] &&
                  forall r :: r in rows && IsAvailable(r.status) && r.position in Formation ==> r.price > budget)
    ensures res.Success? ==> Filled(rows, mustHave, budget, res.value, 4)
    ensures res.Success? ==> multiset(res.value.squad) <= multiset(rows)
    ensures res.Success? ==> ShortPricedOut(rows, mustHave, res.value, 4)
    ensures res.Success? ==>
              BetterPricedOut(rows, GoodFixtureTeams(FixtureRunAnalysis(rows, fixtures, 8).value), mustHave, res.value)
  {
    var analysis := FixtureRunAnalysis(rows, fixtures, 8);
    if analysis.Failure? {
      return Failure(NoFixtureRun);
    }
    if PositionCount(Selected(rows, mustHave), Unmapped) > 0 {
      return Failure(UnmappedMustHave);
    }
    var w := Fill(rows, GoodFixtureTeams(analysis.value), mustHave, budget);
    EmptyFill(rows, mustHave, budget, w);
    if w.squad == [] {
      return Failure(EmptyWildcard);
    }
    return Success(w);
  }

  /** What a filled wildcard squad looks like, spelled out: the must-haves
      first, whatever they cost and whatever their status; every further
      pick available, not a must-have, at one of the four positions, within
      what that position had open after the must-haves; the budget left is
      what the squad did not spend, and never negative once a pick is made. */
  lemma WildcardSquad(rows: seq<Row>, mustHave: seq<int>, budget: int, w: Wild)
    requires Filled(rows, mustHave, budget, w, 4)
    ensures var must := Selected(rows, mustHave);
            && w.squad[..|must|] == must
            && (forall r :: r in rows && r.id in mustHave ==> r in w.squad)
            && w.remaining == budget - Cost(w.squad)
            && (forall x :: x in w.squad[|must|..] ==>
                  x in rows && IsAvailable(x.status) && x.id !in mustHave && x.position in Formation)
            && (forall p :: PositionCount(w.squad, p) <= Max(Quota(p), PositionCount(must, p)))
            && (|w.squad| > |must| ==> w.remaining >= 0)
  {
    var must := Selected(rows, mustHave);
    assert w.squad == must + w.squad[|must|..];
    forall r | r in rows && r.id in mustHave ensures r in w.squad {
      assert r in must;
    }
    forall p ensures PositionCount(w.squad, p) <= Max(Quota(p), PositionCount(must, p)) {
      QuotaKept(must, w.squad[|must|..], p);
    }
  }

  /** Picks at `p` within what `p` had open after the must-haves leave `p`
      at its quota or at the must-haves' own count there. */
  lemma QuotaKept(must: seq<Row>, rest: seq<Row>, p: Position)
    requires PositionCount(rest, p) <= (if Rank(p) < 4 then Max(0, Open(must, p)) else 0)
    ensures PositionCount(must + rest, p) <= Max(Quota(p), PositionCount(must, p))
  {
    PositionCountAppend(must, rest, p);
  }
}

=== FILE: wrappers.dfy ===
/** Failure-carrying datatypes shared by the whole model. */
module Wrappers {

  /** A value that may be absent: pandas NaN / Python None / a missing key. */
  datatype Option<+T> = None | Some(value: T) {

    /** The carried value, or `default` when absent (pandas `fillna`, `dict.get`). */
    function GetOr(default: T): T {
      match this
      case Some(v) => v
      case None => default
    }
  }

  /** The outcome of an operation that the source lets raise. */
  datatype Result<+R, +E> = Success(value: R) | Failure(error: E)
}
